=== FILE: README.md ===
# Smart-money stock screen: a verified model of its scoring core

This project models the scoring core of a US stock-screening pipeline in
Dafny. Each stage of the pipeline takes market data that has already been
fetched and turns it into a banded integer score, a label, or a filtered
and ranked list. The stages are:

- the supply/demand analyser, built on OBV, the A/D line, MFI, the volume
  ratio and volume surges;
- the institutional/insider analyser;
- the composite screener, which combines technical, fundamental, analyst
  and relative-strength sub-scores into a weighted composite with a
  six-tier grade, then ranks it;
- the final report, which blends the composite with a keyword scan of the
  AI summary;
- the auxiliary analysers: ETF flow proxy, insider cluster buying, options
  put/call sentiment, sector heatmap, economic calendar and portfolio risk;
- the computations behind the dashboard routes: support/resistance levels,
  Bollinger signal, live price changes and history dates;
- the rate limiter and retry-with-backoff utilities;
- the AI summary generator's fallbacks, prompt score line and upsert merge.

Everything the pipeline fetches becomes a parameter of the model:
- price histories, ticker info, option chains and insider tables;
- the AI model's reply;
- the clock and the random jitter.

Fetch failures are explicit variants (`None`, `Failed`, `FetchFailed`,
`Raised`). Scores are `int`, and prices and ratios are `real`.

Modules follow the source files:

| module | file |
|---|---|
| `Common`, `Sorting`, `Text` | shared helpers |
| `Indicators`, `VolumeAnalysis` | pipeline/02_analyze_volume.py |
| `Institutional` | pipeline/03_analyze_13f.py |
| `Technical`, `Screener` | pipeline/smart_money_screener_v2.py |
| `FinalReport` | pipeline/final_report_generator.py |
| `EtfFlows` | pipeline/04_etf_flows.py |
| `InsiderTracker` | pipeline/insider_tracker.py |
| `OptionsFlow` | pipeline/options_flow.py |
| `SectorHeatmap` | pipeline/sector_heatmap.py |
| `EconomicCalendar` | pipeline/economic_calendar.py |
| `PortfolioRisk` | pipeline/portfolio_risk.py |
| `WebRoutes` | web/routes.py |
| `CoreUtils` | core/utils.py |
| `AiSummary` | pipeline/ai_summary_generator.py |

The shared helpers are:
- `Common`: optional values, clamps, Python slices, filters and counts, sums, half-even rounding, and the five-tier stage;
- `Sorting`: a stable descending sort, ranking, top-N and first-occurrence de-duplication;
- `Text`: ASCII lower-casing, substring search and stripping.

## Model

| member | source | states |
|---|---|---|
| Common.PercentChange | pipeline/sector_heatmap.py:84 | A percent change is 0 when the previous value is not positive. Otherwise its sign is that of the move. |
| Common.Tier5Bands | pipeline/02_analyze_volume.py:200-209 | The five stages partition the scores with cut points 70/55/45/30, each band closed at its lower end. |
| Common.Tier5Monotone | pipeline/02_analyze_volume.py:200-209 | A higher score never gets a weaker stage. |
| Common.Head | pipeline/final_report_generator.py:189 | Python's `xs[:n]`: the first min(n, len) items, and for negative n all but the last -n. |
| Sorting.SortDesc | pipeline/smart_money_screener_v2.py:529 | The descending sort is a permutation of its input and is ordered by the key. |
| Sorting.RankTop | pipeline/final_report_generator.py:186-191 | Sort, then truncate to the top n, then rank 1..k. The kept items are a sub-multiset of the input, and every dropped item ranks no higher than any kept one. |
| Sorting.DedupBy | pipeline/economic_calendar.py:145-151 | De-duplication keeps the first item of each key, in input order. No two kept items share a key, and every input key is still present. |
| Indicators.Obv | pipeline/02_analyze_volume.py:46-61 | The OBV series has the input's length. It starts at 0, adds the volume on an up close, subtracts it on a down close, and is unchanged otherwise. |
| Indicators.ObvBounded | pipeline/02_analyze_volume.py:53-61 | With non-negative volumes, \|OBV\| at day i is at most the sum of the volumes of days 1..i. |
| Indicators.ObvAllUp | pipeline/02_analyze_volume.py:53-61 | On a strictly rising series OBV is exactly the running volume sum from day 1. |
| Indicators.Change20 | pipeline/02_analyze_volume.py:130-139 | The 20-period change is 0 with fewer than 20 values or a zero base. Otherwise it is the percent change from 20 periods back. |
| Indicators.AdRange | pipeline/02_analyze_volume.py:69-70 | The A/D range is never 0: high == low is replaced by 0.0001. |
| Indicators.ClvBounds | pipeline/02_analyze_volume.py:66-72 | The close-location value lies in [-1, 1] for a proper bar, and is 0 for a flat bar. |
| Indicators.CumSum | pipeline/02_analyze_volume.py:73 | Each cumulative-sum entry is the sum of the prefix up to it. |
| Indicators.StrengthIndex | pipeline/02_analyze_volume.py:102 | The MFI formula lies in [0, 100) and is 0 exactly when there is no positive flow. |
| Indicators.StrengthIndexBounds | pipeline/02_analyze_volume.py:102 | The same bounds stated for the division form 100 - 100/(1 + pos/neg). |
| Indicators.VolumeRatio | pipeline/02_analyze_volume.py:142-147 | The volume ratio is 1 with fewer than 20 volumes or a non-positive 20-day mean. |
| Indicators.VolumeRatioBounds | pipeline/02_analyze_volume.py:142-147 | For non-negative volumes the ratio lies in [0, 4]: today's volume is at most 20 times the 20-day mean. |
| Indicators.SurgeFlags | pipeline/02_analyze_volume.py:80-86 | A day is flagged exactly when its volume exceeds twice the 20-day mean that ends on it; the first 19 days, whose mean is undefined, are never flagged. |
| Indicators.SurgeCounts | pipeline/02_analyze_volume.py:150-155 | 0 <= surges in the last 5 days <= surges in the last 20 days <= 20, and the 5-day count is at most 5. |
| VolumeAnalysis.MfiLast | pipeline/02_analyze_volume.py:88-103 | The 14-day money flow index lies in [0, 100). |
| VolumeAnalysis.TrendPoints | pipeline/02_analyze_volume.py:163-181 | OBV/A-D trend points are in [-15, 15]. They are positive exactly above +5%, negative exactly below -5%, and at the extremes exactly beyond +/-10%. |
| VolumeAnalysis.RatioPoints | pipeline/02_analyze_volume.py:183-189 | Volume-ratio points are in [-5, 10]. They are positive exactly above 1.2 and negative exactly below 0.7. |
| VolumeAnalysis.MfiPoints | pipeline/02_analyze_volume.py:191-195 | MFI points are +5 exactly above 70, -5 exactly below 30, and 0 in between. |
| VolumeAnalysis.SupplyDemandScore | pipeline/02_analyze_volume.py:160-197 | The supply/demand score always lies in [10, 95], so its clamp never binds. |
| VolumeAnalysis.SupplyDemandMonotone | pipeline/02_analyze_volume.py:160-197 | The score is monotone in the OBV change, the A/D change, the volume ratio and the MFI. |
| VolumeAnalysis.Indicate | pipeline/02_analyze_volume.py:121-158 | The indicator bundle has MFI in [0, 100) and 0 <= surge5 <= surge20 <= 20. |
| VolumeAnalysis.LatestDate | pipeline/02_analyze_volume.py:119-127 | In a date-sorted history, the last row's date is the latest: no row's date is later. |
| VolumeAnalysis.ScoreRecord | pipeline/02_analyze_volume.py:197-223 | The indicator values are carried over unchanged. The record's score is the supply/demand score of the values it carries (OBV change, A/D change, volume ratio, MFI), so it lies in [10, 95], and its stage is the five-tier stage of that score. |
| VolumeAnalysis.AnalyzeSupplyDemand | pipeline/02_analyze_volume.py:110-223 | No result exactly when there are fewer than 30 rows. Otherwise the OBV change, A/D change, volume ratio and MFI are those of the date-sorted history. The score is the supply/demand score of those values. The date is one of the rows' dates and no row is later. |
| VolumeAnalysis.TickerRows | pipeline/02_analyze_volume.py:239 | Selecting a ticker's rows keeps exactly that ticker's rows. |
| VolumeAnalysis.ResultFor | pipeline/02_analyze_volume.py:239-252 | A ticker gets a result exactly when it has at least 30 rows. |
| VolumeAnalysis.RunVolume | pipeline/02_analyze_volume.py:225-255 | The output has one result per distinct ticker with enough rows, no ticker twice, and each result is that ticker's own. |
| Institutional.FindTypeColumn | pipeline/03_analyze_13f.py:68-72 | Finds a column whose name mentions the transaction type, or proves there is none. |
| Institutional.ColumnCounts | pipeline/03_analyze_13f.py:75-76 | Buys and sells are counted over at most the first ten rows. |
| Institutional.TextColumnCounts | pipeline/03_analyze_13f.py:78-83 | The fallback scan over the text columns counts at most ten rows per column. |
| Institutional.InsiderActivity | pipeline/03_analyze_13f.py:63-94 | Sentiment is Unknown with zero counts exactly when there is no usable table. Otherwise it is Buying iff buys > sells and Selling iff sells > buys. |
| Institutional.SentimentOf | pipeline/03_analyze_13f.py:85 | Buying iff buys > sells, Selling iff sells > buys, Neutral otherwise. |
| Institutional.OwnershipPoints | pipeline/03_analyze_13f.py:107-113 | Ownership points are +15 above 80%, +10 above 60%, -10 below 30%, and 0 otherwise, each band exactly. |
| Institutional.InsiderPoints | pipeline/03_analyze_13f.py:115-119 | Insider points are +15 iff buys > sells, -10 iff sells > buys, and 0 on a tie. |
| Institutional.ShortPenaltyNeverReached | pipeline/03_analyze_13f.py:121-127 | The -20 short-interest branch is unreachable: above 20% still gets -10, which applies exactly above 10%. +5 applies exactly below 3%. |
| Institutional.InstitutionalScore | pipeline/03_analyze_13f.py:104-129 | The institutional score always lies in [20, 85]. |
| Institutional.InstitutionalScoreMonotone | pipeline/03_analyze_13f.py:104-129 | The score rises with ownership and with net insider buying, and falls with short interest. |
| Institutional.AnalyzeTicker | pipeline/03_analyze_13f.py:49-155 | A ticker whose fetch fails gives no record. Otherwise the buy and sell counts and the sentiment are the insider activity of its transactions. Ownership and short interest are reported in percent (0 when absent), with the holder count (0 when absent). The score is the institutional score of the reported fields, and the stage is that score's tier. |
| Institutional.AnalyzeAll | pipeline/03_analyze_13f.py:46-163 | A failed ticker drops only itself. The output has one record per ticker that did not fail, in input order. |
| Technical.Alpha | pipeline/smart_money_screener_v2.py:118 | The EMA smoothing factor 2/(span+1) lies in (0, 1]. |
| Technical.Ema | pipeline/smart_money_screener_v2.py:118-122 | The EMA series has the input's length and follows the recursive definition. |
| Technical.EmaWithinRange | pipeline/smart_money_screener_v2.py:118-121 | The EMA stays within the minimum and maximum of its input. |
| Technical.EmaOfConstant | pipeline/smart_money_screener_v2.py:118-121 | The EMA of a constant series is that constant. |
| Technical.Gain | pipeline/smart_money_screener_v2.py:110-112 | A day's gain is non-negative. |
| Technical.Loss | pipeline/smart_money_screener_v2.py:110-112 | A day's loss is non-negative. |
| Technical.MeanMove14 | pipeline/smart_money_screener_v2.py:111-112 | The 14-day mean gain and mean loss are non-negative. |
| Technical.Rsi | pipeline/smart_money_screener_v2.py:109-115 | RSI lies in [0, 100). |
| Technical.MovingAverages | pipeline/smart_money_screener_v2.py:129-131 | MA200 falls back to MA50 below 200 closes, and MA50 falls back to MA20 below 50 closes. |
| Technical.Arrangement | pipeline/smart_money_screener_v2.py:134-140 | The arrangement is Bullish iff price > MA20 > MA50 and Bearish iff price < MA20 < MA50. It is never Unknown. |
| Technical.CrossSignal | pipeline/smart_money_screener_v2.py:150-155 | A golden cross iff MA50 moves from at-or-below to above MA200. A death cross iff it moves from at-or-above to below. |
| Technical.NoCrossOnShortHistory | pipeline/smart_money_screener_v2.py:143-155 | Below 200 closes no cross is ever reported. |
| Technical.RsiPoints | pipeline/smart_money_screener_v2.py:160-166 | RSI points are +10 iff 40 <= RSI <= 60, +15 iff RSI < 30, -5 iff RSI > 70, and 0 iff RSI is in [30, 40) or (60, 70]. So RSI exactly 30 or 70 gets 0. |
| Technical.MacdPoints | pipeline/smart_money_screener_v2.py:168-175 | A negative-to-positive histogram crossover gives +15, which takes precedence over +8. A negative histogram gives -5 and a zero one gives 0. |
| Technical.TechnicalScore | pipeline/smart_money_screener_v2.py:157-188 | The technical score always lies in [15, 100]. |
| Technical.TechnicalScoreSaturates | pipeline/smart_money_screener_v2.py:157-188 | The upper clamp binds: the best case sums to 105 and is clamped to 100. |
| Technical.TechnicalScoreMonotone | pipeline/smart_money_screener_v2.py:157-188 | With the RSI fixed, a larger MACD histogram, a better arrangement (bearish < neutral < bullish) and a better cross (death < none < golden) never lower the score. A bullish arrangement always beats a bearish one, and a golden cross always beats a death cross. |
| Technical.TechnicalOf | pipeline/smart_money_screener_v2.py:107-201 | With at least 50 closes, the record carries the RSI and the 20/50/200 averages of the closes, and the MACD, signal and histogram at the last close. Its arrangement is that of the last close and the averages, and its cross is read from the averages now and five rows back. Its score is the technical score of those fields and the previous histogram, so in [15, 100]. |
| Technical.TechnicalAnalysis | pipeline/smart_money_screener_v2.py:98-212 | A missing history or one under 50 closes gives the default record. Exactly those cases leave the arrangement Unknown, and any other history gets the record of its closes. |
| Screener.PePoints | pipeline/smart_money_screener_v2.py:242-250 | P/E points, each band exactly: +15 in (0, 15), +10 in [15, 25), -10 above 40, -15 when negative. A missing (0) P/E gets 0. |
| Screener.GrowthPoints | pipeline/smart_money_screener_v2.py:252-260 | Growth points have the sign of the growth, and are +15 exactly above 20%. |
| Screener.RoePoints | pipeline/smart_money_screener_v2.py:262-268 | ROE points are +10 above 20%, +5 in (10%, 20%], and -10 when negative, each band exactly. |
| Screener.SizeOf | pipeline/smart_money_screener_v2.py:272-282 | Size is Mega above $200B and Micro at or below $300M. It is never Unknown for a known cap. |
| Screener.SizeMonotone | pipeline/smart_money_screener_v2.py:272-282 | A larger market cap never gets a smaller size class. |
| Screener.FundamentalAnalysis | pipeline/smart_money_screener_v2.py:214-308 | Missing info gives the default record, and only then an Unknown size. Otherwise the P/E (absent when 0), revenue growth and ROE in percent, and the size class are those of the info, with missing fields as 0. The score is 50 plus the P/E, growth and ROE points of the reported fields, clamped, and lies in [15, 90]. |
| Screener.RecPoints | pipeline/smart_money_screener_v2.py:336-340 | Recommendation points are in [-25, 25], and an unknown recommendation key adds 0. |
| Screener.Upside | pipeline/smart_money_screener_v2.py:326-330 | Upside is 0 unless both prices are positive. Otherwise it has the sign of target - price. |
| Screener.UpsidePoints | pipeline/smart_money_screener_v2.py:342-352 | Upside points are positive exactly for positive upside, -15 exactly below -10%, and 0 in [-10%, 0]. |
| Screener.UpsidePointsMonotone | pipeline/smart_money_screener_v2.py:342-352 | More upside never gives fewer points. |
| Screener.AnalystRatings | pipeline/smart_money_screener_v2.py:310-375 | Missing info gives the default record. Otherwise the upside is that of the reported price and target (absent when 0), and the score is 50 plus the recommendation and upside points of the reported fields, clamped. It lies in [10, 95]. |
| Screener.Rs20Points | pipeline/smart_money_screener_v2.py:404-414 | 20-day relative-strength points are positive exactly above 0 and negative exactly below -5. |
| Screener.Rs60Points | pipeline/smart_money_screener_v2.py:416-421 | 60-day relative-strength points are positive exactly above 5 and negative exactly below -15. |
| Screener.RelativeStrength | pipeline/smart_money_screener_v2.py:377-433 | The score lies in [15, 90]. With fewer than 20 rows of benchmark or ticker the result is the neutral record (0, 0, 50). |
| Screener.TrackingBenchmarkIsNeutral | pipeline/smart_money_screener_v2.py:393-423 | A ticker whose history equals the benchmark's scores the neutral record. |
| Screener.OutperformingScoresAboveNeutral | pipeline/smart_money_screener_v2.py:393-423 | Beating the benchmark over 20 days, and not trailing it over 60, scores above 50. |
| Screener.CompositeIsAverage | pipeline/smart_money_screener_v2.py:437-445 | The weights sum to one, so the composite lies within the range of its six inputs and a constant input is returned unchanged. |
| Screener.CompositeMonotone | pipeline/smart_money_screener_v2.py:437-445 | The composite is monotone in each sub-score. |
| Screener.CompositeRange | pipeline/smart_money_screener_v2.py:437-445 | For a screened row with every sub-score in its proven range, the rounded composite lies in [24.2, 92.8]. |
| Screener.GradeOf | pipeline/smart_money_screener_v2.py:447-459 | The six grades partition the composite with cut points 80/70/60/50/40. |
| Screener.GradeMonotone | pipeline/smart_money_screener_v2.py:447-459 | A higher composite never gets a lower grade. |
| Screener.GradeBeforeRounding | pipeline/smart_money_screener_v2.py:447-461 | The grade uses the unrounded composite: 59.95 rounds to 60.0 but grades C. |
| Screener.Join | pipeline/smart_money_screener_v2.py:468-474 | The inner join holds exactly the candidates formed from a volume row and a holding row with the same ticker. |
| Screener.Matches | pipeline/smart_money_screener_v2.py:468-474 | One volume row joins with exactly the holding rows of its ticker. |
| Screener.JoinSource | pipeline/smart_money_screener_v2.py:468-474 | Every joined candidate's ticker occurs in both inputs. |
| Screener.CandidateInJoin | pipeline/smart_money_screener_v2.py:476-477 | A pre-filtered candidate is in the join and has supply/demand score >= 50. |
| Screener.ScreenRow | pipeline/smart_money_screener_v2.py:483-520 | A screened row keeps its ticker and upstream scores. Its technical, fundamental, analyst and relative-strength scores are those of the four analyses of its ticker. So are its name, price, upside, arrangement, cross and size. Its composite is the rounded weighted sum, and its grade is taken from the unrounded sum. |
| Screener.ScreenAll | pipeline/smart_money_screener_v2.py:481-521 | Every candidate is screened, in order. |
| Screener.ScreenedFrom | pipeline/smart_money_screener_v2.py:483-521 | Every screened row is the screening of some candidate. |
| Screener.RunScreening | pipeline/smart_money_screener_v2.py:463-532 | The output has one row per joined candidate with score >= 50. It is sorted by composite, highest first, ranked 1..n, and is a permutation of the screened candidates. |
| Screener.ScreenedRowsAreCandidates | pipeline/smart_money_screener_v2.py:476-532 | Every output row comes from a joined ticker with supply/demand >= 50, and its composite lies in [24.2, 92.8]. |
| FinalReport.Signal | pipeline/final_report_generator.py:88-98 | The keyword lists are tested in order. Strong Buy iff a strong-buy word is present. Buy iff none is and a buy word is. Sell iff neither is and a sell word is. |
| FinalReport.SentimentAdjustment | pipeline/final_report_generator.py:104-111 | The adjustment is +5 iff more distinct positive words than negative are present, -5 for the reverse, and 0 on a tie. |
| FinalReport.Scan | pipeline/final_report_generator.py:76-116 | The scan gives signal points plus the adjustment, a value in {-15, ..., 25} in steps of 5. The clamp never binds. |
| FinalReport.AiScoreAsWritten | pipeline/final_report_generator.py:73-74 | As written, only "", "API Key Missing" and exactly "Analysis Failed" skip the scan. |
| FinalReport.AiScore | pipeline/final_report_generator.py:66-116 | Corrected: any text beginning with "Analysis Failed" also gives (0, Hold). Otherwise it is the scan. |
| FinalReport.AiScoreAgreesOffFailures | pipeline/final_report_generator.py:73-74 | The corrected and as-written scores agree on every summary that does not begin with "Analysis Failed". |
| FinalReport.StrongBuyTakesPrecedence | pipeline/final_report_generator.py:88-98 | A summary containing "strong buy" is Strong Buy even though it also contains "buy". It scores 15 to 25. |
| FinalReport.QuietSummaryIsHold | pipeline/final_report_generator.py:79-111 | With no keyword and no sentiment word the result is (0, Hold). |
| FinalReport.AiWeighted | pipeline/final_report_generator.py:158 | For AI scores in [-20, 25] the weighted part lies in [-20, 20]. It has the sign of the score and is 0 exactly for 0. |
| FinalReport.AiWeightedMonotone | pipeline/final_report_generator.py:158 | The weighting is monotone despite its two slopes. |
| FinalReport.FinalScore | pipeline/final_report_generator.py:158-162 | The final score lies in [0, 100]. With an AI score of 0 and an in-range composite it is exactly 0.8 times the composite. |
| FinalReport.FinalScoreMonotone | pipeline/final_report_generator.py:158-162 | The final score is monotone in the composite and in the AI score. |
| FinalReport.Round1Percent | pipeline/final_report_generator.py:167 | Rounding to one decimal keeps the score in [0, 100]. |
| FinalReport.SummaryFor | pipeline/final_report_generator.py:146-148 | A ticker without an entry gets "". A non-empty `summary` is used as it stands, otherwise `summary_ko`. |
| FinalReport.MakePick | pipeline/final_report_generator.py:142-183 | A pick keeps the row's ticker and summary, and its name falls back to the ticker. Its AI score and recommendation are those of the chosen scorer: `calculate_ai_score` as written, or the corrected one. The final score lies in [0, 100] and is built from the composite (0 when absent) and that AI score. A ticker without a summary is (0, Hold). |
| FinalReport.MakePicks | pipeline/final_report_generator.py:142-183 | One pick per loaded row, in order, all built with the same scorer. |
| FinalReport.LoadQuant | pipeline/final_report_generator.py:37-51 | The loaded rows are a permutation of the file's rows, ordered by composite, highest first. |
| FinalReport.GenerateReport | pipeline/final_report_generator.py:118-195 | With the as-written scorer this is `generate_report` itself. The report has min(top_n, rows) entries (Python slice semantics), ranked 1..k after truncation and sorted by rounded final score. Every dropped pick scores no higher than every kept one. |
| FinalReport.ReportPicksComeFromRows | pipeline/final_report_generator.py:142-191 | Every reported pick is the pick of one of the input rows. |
| FinalReport.PickAgreesOffFailures | pipeline/final_report_generator.py:142-183 | For a ticker whose summary is not a generator failure text, the as-written and the corrected scorer build the same pick. |
| FinalReport.ReportAgreesOffFailures | pipeline/final_report_generator.py:118-195 | When no loaded ticker's summary is a failure text, the as-written and the corrected report are identical. |
| EtfFlows.ObvPoints | pipeline/04_etf_flows.py:122-130 | OBV points are positive exactly above +5%, negative exactly below -5%, and +/-20 exactly beyond +/-10%. |
| EtfFlows.ActivityPoints | pipeline/04_etf_flows.py:132-138 | Activity points are positive exactly above ratio 1.2 and negative exactly below 0.7. |
| EtfFlows.MomentumPoints | pipeline/04_etf_flows.py:140-144 | Momentum +/-10 applies exactly when return and OBV change agree in sign beyond +/-5%. |
| EtfFlows.FlowScore | pipeline/04_etf_flows.py:119-146 | The flow score lies in [15, 90]. |
| EtfFlows.FlowScoreMonotone | pipeline/04_etf_flows.py:119-146 | For OBV changes of the same sign, the score is monotone in the OBV change, the ratio and the return. |
| EtfFlows.FlatObvNoMomentum | pipeline/04_etf_flows.py:140-146 | A zero OBV change leaves only the activity points. |
| EtfFlows.BarObv | pipeline/04_etf_flows.py:73-83 | The ETF OBV is the shared OBV rule on the bars' closes and volumes. |
| EtfFlows.Return20 | pipeline/04_etf_flows.py:113-117 | The 20-day return has the sign of the 20-day price move. |
| EtfFlows.FlowProxy | pipeline/04_etf_flows.py:85-170 | No record exactly when there are fewer than 30 bars. Otherwise the record carries the ticker, name and category. Its score is the flow score of its own OBV change, volume ratio and 20-day return, and its direction is that score's tier. |
| EtfFlows.FlowFor | pipeline/04_etf_flows.py:180-193 | An ETF gets a record exactly when its history exists and has enough bars. The score is in [15, 90]. |
| EtfFlows.RunFlows | pipeline/04_etf_flows.py:172-199 | The k-th record is the record of the k-th ETF that has one, so the list order is kept and each record is its ETF's own. Every score lies in [15, 90]. |
| InsiderTracker.Classify | pipeline/insider_tracker.py:73-82 | Buy iff a buy word is present. Sell iff no buy word is and a sell word is. Unknown otherwise. |
| InsiderTracker.BuyWinsOverSell | pipeline/insider_tracker.py:79-82 | A text containing both "purchase" and "sale" is a buy. |
| InsiderTracker.ToTxn | pipeline/insider_tracker.py:84-97 | A transaction keeps its date, insider ("N/A" when absent), description and share count (0 when absent), and is classified by its text. Its value is the row's value rounded half-even to cents (0 when missing), so within half a cent of it. |
| InsiderTracker.RoundingDecidesCluster | pipeline/insider_tracker.py:95-151 | A single buy of 1000000.004 is stored as 1000000.00, earns 15 value points instead of the 30 its raw value would, and scores 35, below the cluster mark. |
| InsiderTracker.Activity | pipeline/insider_tracker.py:36-105 | No usable table gives []. Otherwise the kept transactions are, as a multiset, the records of exactly the rows not before `now` minus 180 days. The cutoff keeps `now`'s time of day. They are newest first, and their count is the number of such rows. |
| InsiderTracker.MidnightCutoff | pipeline/insider_tracker.py:51-70 | A transaction stamped at midnight 180 days before the run's day is kept only by a run at exactly midnight. A later run that day drops it. |
| Sorting.FilterSorted | pipeline/insider_tracker.py:53-70 | Dropping old rows from a newest-first list keeps it newest first. |
| InsiderTracker.BuyCountPoints | pipeline/insider_tracker.py:141-144 | +30 iff at least 3 buys, +15 iff exactly 2, and 0 otherwise. |
| InsiderTracker.BuyValuePoints | pipeline/insider_tracker.py:146-151 | Value points are in [0, 30]: +30 iff above $1M, 0 iff at most $100k. |
| InsiderTracker.BalancePoints | pipeline/insider_tracker.py:153-156 | +20 iff buying with no selling, +10 iff buys > 2 x sells with some selling, and 0 iff buys <= 2 x sells. |
| InsiderTracker.DetectCluster | pipeline/insider_tracker.py:107-167 | No transactions gives an empty analysis. The cluster score lies in [0, 80], and has_cluster iff it is >= 40. The counts are the buys and the sells, and the ratio is infinite iff there are no sells. |
| InsiderTracker.BuysAndSellsDisjoint | pipeline/insider_tracker.py:126-127 | No transaction counts as both a buy and a sell. |
| InsiderTracker.InsiderScore | pipeline/insider_tracker.py:191-207 | The insider score lies in [35, 100]. |
| InsiderTracker.InsiderScoreSaturates | pipeline/insider_tracker.py:191-207 | The upper clamp binds: pure buying above $1M sums to 105. |
| InsiderTracker.ReportOf | pipeline/insider_tracker.py:187-214 | A report exists iff there are transactions. Its score is in [35, 100] and it keeps min(10, n) recent transactions. |
| InsiderTracker.AnalyzeTickers | pipeline/insider_tracker.py:169-225 | A ticker is in the result iff it is listed and has recent transactions. Its entry is its own report. |
| InsiderTracker.AnalyzeTickersEntries | pipeline/insider_tracker.py:169-225 | Every entry has score in [35, 100], at most ten recent transactions, and a count of all of them. |
| OptionsFlow.Ratio | pipeline/options_flow.py:73-76 | A put/call ratio is 0 when the call side is 0. Otherwise ratio x calls = puts. |
| OptionsFlow.SentimentOf | pipeline/options_flow.py:99-108 | Bands, each exactly: Bearish above 1.2, Neutral-Bearish in (0.8, 1.2], Bullish below 0.6, Neutral-Bullish in [0.6, 0.8). Neutral only at exactly 0.8. |
| OptionsFlow.SentimentMonotone | pipeline/options_flow.py:99-108 | A higher put/call ratio never reads as more bullish. |
| OptionsFlow.UnusualCount | pipeline/options_flow.py:82-90 | The unusual count is 0 for an absent or empty column and never exceeds the number of contracts. |
| OptionsFlow.AboveVolume | pipeline/options_flow.py:85 | The contracts above a limit carry more than the limit times their count. |
| OptionsFlow.UnusualIsMinority | pipeline/options_flow.py:82-90 | Unusual contracts, above 3x the mean, are fewer than a third of the side. |
| OptionsFlow.OptionsSummary | pipeline/options_flow.py:41-133 | An error entry iff the fetch failed (carrying its message) or there are no expirations ("No options available"). Otherwise the per-side volumes and open interests are the column sums (0 for an absent column), and the totals add the two sides. Each put/call ratio times the call figure gives the put figure when calls are positive, and is 0 otherwise. The unusual counts are each side's UnusualCount, and the sentiment is the band of the volume ratio. |
| OptionsFlow.NoCallsReadsBullish | pipeline/options_flow.py:73-104 | With no call volume the ratio is 0, which reads as Bullish. |
| OptionsFlow.AnalyzeWatchlist | pipeline/options_flow.py:135-154 | Error entries are left out. The k-th result is the summary of the k-th watched ticker without an error, so the watch-list order is kept. |
| SectorHeatmap.ColorOf | pipeline/sector_heatmap.py:212-225 | The six colours partition the reals with cut points 3/1/0/-1/-3, each band closed at its lower end. |
| SectorHeatmap.ColorMonotone | pipeline/sector_heatmap.py:212-225 | A higher change never maps to a redder colour. |
| SectorHeatmap.SectorRowOf | pipeline/sector_heatmap.py:70-106 | No row iff fewer than 2 bars. The colour is the change's band. The 5-day return falls back to the change below 5 bars, and a missing volume column gives volume and weight 0. |
| SectorHeatmap.SectorPerformance | pipeline/sector_heatmap.py:67-121 | One row per fetchable ETF with 2+ bars, sorted by weight, highest first. |
| SectorHeatmap.SectorRowSource | pipeline/sector_heatmap.py:69-112 | Every sector row is the row of a listed ETF with 2+ bars. |
| SectorHeatmap.TileOf | pipeline/sector_heatmap.py:149-185 | No tile iff the series is missing or has fewer than 2 prices. An empty volume series weighs the price by 100000. |
| SectorHeatmap.AllTickers | pipeline/sector_heatmap.py:127-133 | Every sector's list is contained, with its repeats, in the list of all stocks. |
| SectorHeatmap.OwnerOf | pipeline/sector_heatmap.py:128-133 | A stock has no sector exactly when no sector lists it. |
| SectorHeatmap.LastListingWins | pipeline/sector_heatmap.py:130-133 | A stock is filed under the last sector that lists it, because later listings overwrite earlier ones. |
| SectorHeatmap.GroupOf | pipeline/sector_heatmap.py:146-195 | A sector with no tiles is omitted. Otherwise its group holds, as a multiset, the tiles of the stocks in the all-stocks list that are filed under it, once per listing. Every tile's stock is filed under the sector, and the tiles are sorted by y descending. |
| SectorHeatmap.SharedStockLeavesEarlierSector | pipeline/sector_heatmap.py:130-183 | A stock listed under an earlier sector and again under a later one never appears in the earlier sector's group. |
| SectorHeatmap.FiledIsOwnList | pipeline/sector_heatmap.py:127-183 | When sector names are distinct and no stock is listed twice, the stocks filed under a sector are exactly its own list, in order. |
| SectorHeatmap.GroupsWellFormed | pipeline/sector_heatmap.py:190-195 | Every group built is non-empty and sorted. |
| SectorHeatmap.MarketMap | pipeline/sector_heatmap.py:124-209 | The intended market map, where every stock's series is found. An empty stock list gives the "No tickers defined" error, and otherwise an empty download gives an error. Otherwise the groups are, as a multiset, the group of every sector that has tiles. They are sorted by total y, and each group is well formed. |
| SectorHeatmap.MarketMapAsWritten | pipeline/sector_heatmap.py:149-164 | The program's market map given the download's column labels. It has the same two errors, and when no listed stock passes the multi-index lookups (an inner-level label, with "Close" on the outer level) it is empty. |
| SectorHeatmap.TickerFirstMapIsEmpty | pipeline/sector_heatmap.py:140-156 | With the ticker-first labels of a `group_by='ticker'` download and no stock named like a price field, the program's map is empty for every download. |
| SectorHeatmap.MarketMapAsWrittenDiffers | pipeline/sector_heatmap.py:140-156 | One Technology stock with two closes: the program's map is empty, while the intended map has a group. |
| SectorHeatmap.NoSeriesNoGroups | pipeline/sector_heatmap.py:149-196 | When no listed stock has a series, no sector gets a group. |
| SectorHeatmap.OneStockHasGroup | pipeline/sector_heatmap.py:149-196 | A sector holding one stock with at least two closes gets a group. |
| EconomicCalendar.DetermineImpact | pipeline/economic_calendar.py:156-175 | High iff a high word occurs in the lower-cased name, Medium iff only a medium word does, Low otherwise. |
| EconomicCalendar.ImpactIgnoresCase | pipeline/economic_calendar.py:158-175 | Names equal up to case get the same impact. |
| EconomicCalendar.HighBeatsMedium | pipeline/economic_calendar.py:160-172 | A name mentioning "fed" is High even if it also matches a medium word. |
| EconomicCalendar.ScrapedEvents | pipeline/economic_calendar.py:107-116 | One event per non-empty scraped name, classified by impact. |
| EconomicCalendar.Spacing | pipeline/economic_calendar.py:127 | The spacing is at least 1, and n events at that spacing fit in the window unless it is 1. |
| EconomicCalendar.ManualDay | pipeline/economic_calendar.py:131 | Each manual day offset lies in [1, days_ahead]. |
| EconomicCalendar.ManualDays | pipeline/economic_calendar.py:124-131 | Day offsets are in [1, days_ahead] and non-decreasing, and strictly increasing when the events fit. |
| EconomicCalendar.DayStrict | pipeline/economic_calendar.py:127-131 | When n <= days_ahead, later events get strictly later days. |
| EconomicCalendar.NoCap | pipeline/economic_calendar.py:127-134 | When n <= days_ahead the min() cap never binds. |
| EconomicCalendar.DayMonotone | pipeline/economic_calendar.py:131 | Day offsets never decrease along the template list. |
| EconomicCalendar.ManualEvents | pipeline/economic_calendar.py:122-142 | No manual events when days_ahead <= 0. Otherwise one per template, in order of non-decreasing day. |
| EconomicCalendar.UpcomingEvents | pipeline/economic_calendar.py:144-154 | After de-duplication no two events share (name, date), and every scraped or manual event's pair is represented. Each kept event is the first one with its pair, and the kept events are in input order. Every day is in range. |
| EconomicCalendar.Enrich | pipeline/economic_calendar.py:177-247 | Enrichment changes only the analysis field: High-impact events get the text for the AI reply (including "Invalid response structure" for a candidate without content parts), and the others are unchanged. Without a key or client nothing changes. |
| EconomicCalendar.Summarize | pipeline/economic_calendar.py:259-268 | total_events = the number of events and high_impact_count = the number of High events. |
| EconomicCalendar.EnrichKeepsCounts | pipeline/economic_calendar.py:254-268 | The counts are the same before and after enrichment. |
| PortfolioRisk.PortfolioTickers | pipeline/portfolio_risk.py:39-50 | Without a picks file the default list is used. Otherwise it is the first top-N tickers. |
| PortfolioRisk.DropIncompleteRows | pipeline/portfolio_risk.py:84 | Only complete rows survive, and all of them do. |
| PortfolioRisk.FullColumns | pipeline/portfolio_risk.py:90 | A column is kept iff it has no missing value. |
| PortfolioRisk.ValidTickers | pipeline/portfolio_risk.py:90-91 | Valid tickers are a subset of the columns. |
| PortfolioRisk.ColumnFilterKeepsAll | pipeline/portfolio_risk.py:84-91 | After dropping incomplete rows, the column filter keeps every ticker. |
| PortfolioRisk.RowPairs | pipeline/portfolio_risk.py:105-112 | The inner loop emits exactly the pairs (i, j') with j <= j' < n and correlation > 0.8, in order. |
| PortfolioRisk.PairsFrom | pipeline/portfolio_risk.py:104-112 | The outer loop from row i emits exactly the high pairs with i <= first < second, in order. |
| PortfolioRisk.HighPairs | pipeline/portfolio_risk.py:102-112 | The scan emits exactly the pairs i < j with correlation > 0.8 (NaN skipped), in lexicographic order. |
| PortfolioRisk.HighPairsDistinct | pipeline/portfolio_risk.py:104-105 | No self-pairs and no duplicate pairs. |
| PortfolioRisk.NamePairs | pipeline/portfolio_risk.py:102-112 | One named entry per high pair, in scan order. Each carries both tickers and exactly that pair's correlation, which is above 0.8. |
| PortfolioRisk.RiskLevelOf | pipeline/portfolio_risk.py:161-172 | The six risk levels partition volatility with cut points 0.30/0.25/0.20/0.15/0.10. |
| PortfolioRisk.RiskLevelMonotone | pipeline/portfolio_risk.py:161-172 | Higher volatility never gives a lower risk level. |
| PortfolioRisk.DiversificationRatio | pipeline/portfolio_risk.py:134-135 | 1.0 when portfolio volatility is not positive. Otherwise it is the weighted average volatility divided by the portfolio volatility. |
| PortfolioRisk.Beta | pipeline/portfolio_risk.py:137-159 | The intended beta: 1.0 without a benchmark or with zero variance. Otherwise beta times the benchmark variance is the covariance. |
| PortfolioRisk.BetaAsWritten | pipeline/portfolio_risk.py:137-159 | The program's beta: 1.0 unless some ticker is named "Close", in which case it is the intended beta. |
| PortfolioRisk.BetaIgnoresBenchmark | pipeline/portfolio_risk.py:144-159 | As written, with no ticker named "Close", every benchmark history gives beta 1.0. |
| PortfolioRisk.BetaAsWrittenDiffers | pipeline/portfolio_risk.py:144-159 | For AAPL and MSFT with covariance 0.02 and benchmark variance 0.01 the program reports 1.0, while the intended beta is 2.0. |
| PortfolioRisk.Warnings | pipeline/portfolio_risk.py:200-208 | Each warning appears exactly when its condition holds (pairs > n/2, ratio < 1.2, volatility > 0.30), and none appears twice. |
| PortfolioRisk.AnalyzePortfolio | pipeline/portfolio_risk.py:65-214 | Each guard gives its own error: no data, no complete rows, fewer than 2 valid tickers. A report covers exactly the valid tickers of the complete rows. Its high-correlation pairs are those tickers' named pairs, and its risk level and warnings are computed from them. Its beta is 1.0 as written whenever no ticker is named "Close", and is the intended beta under the corrected join. |
| PortfolioRisk.ReportCoversAllTickers | pipeline/portfolio_risk.py:89-94 | On a rectangular frame with complete rows, 2+ tickers always give a report, and fewer give the two-ticker error, whichever beta rule is used. |
| WebRoutes.Tail | web/routes.py:413-415 | The last min(n, len) items. |
| WebRoutes.PeaksFrom | web/routes.py:420-423 | Exactly the values at strict interior local maxima. |
| WebRoutes.TroughsFrom | web/routes.py:425-428 | Exactly the values at strict interior local minima. |
| WebRoutes.PeakHighs | web/routes.py:420-423 | Resistance candidates are exactly the strict local maxima of the last 20 highs. |
| WebRoutes.TroughLows | web/routes.py:425-428 | Support candidates are exactly the strict local minima of the last 20 lows. |
| WebRoutes.TopThree | web/routes.py:430-436 | At most 3 distinct candidates, strictly ordered by key. Every dropped candidate ranks below every kept one, and the nearest is the last kept, or None. |
| WebRoutes.SupportResistance | web/routes.py:411-436 | Resistance is strictly descending and support strictly ascending, at most 3 of each, drawn from the candidates with the best kept. Nearest resistance is the minimum kept and nearest support the maximum kept, each None when empty. |
| WebRoutes.KeptTop | web/routes.py:431-432 | The first three of a distinct sorted list are strictly ordered and outrank the rest. |
| WebRoutes.BandPosition | web/routes.py:401 | The position is 0.5 when the bands coincide. Otherwise it is (price - lower)/(upper - lower). |
| WebRoutes.SignalOf | web/routes.py:408 | Overbought above 0.8, Oversold below 0.2, Neutral in between. |
| WebRoutes.Bands | web/routes.py:392-408 | The bands are sma +/- 2 std. Zero deviation is Neutral at position 0.5. |
| WebRoutes.SignalThresholds | web/routes.py:392-408 | Overbought iff price > sma + 1.2 std, Oversold iff price < sma - 1.2 std. |
| WebRoutes.LiveLoop | web/routes.py:102-108 | The live-price map only gains quoted tickers and keeps earlier ones. |
| WebRoutes.LivePricesFirstTen | web/routes.py:103 | Only the first ten tickers are quoted. |
| WebRoutes.UpdatePick | web/routes.py:111-123 | A present non-zero live price becomes the current price. A missing or zero one keeps the recommendation price. change_since_rec is the percent change from the recommendation price to the current price: 0 when the recommendation price is not positive, otherwise with the sign of the move. |
| WebRoutes.PickScores | web/routes.py:129 | The score of every pick, in order. |
| WebRoutes.SmartMoneyPicks | web/routes.py:84-131 | Not found iff neither file exists. The current file is used whole, and the CSV is cut to its first 20 rows. Each returned pick is that pick updated with the live prices of the picks' tickers. The average is the rounded mean of the pick scores, or 0 with no picks. |
| WebRoutes.Tickers | web/routes.py:103 | The tickers of the picks, in order. |
| WebRoutes.InsertDistinct | web/routes.py:497 | Inserting into a strictly descending list keeps it strictly descending and adds exactly one value. |
| WebRoutes.SortedSetDesc | web/routes.py:497 | `sorted(set(xs), reverse=True)`: strictly descending with the same members. |
| WebRoutes.RemoveAll | web/routes.py:474 | Removing a pattern never lengthens the name. |
| WebRoutes.BeforeT | web/routes.py:491-492 | The part of a timestamp before the first 'T'. |
| WebRoutes.MetaDate | web/routes.py:482-494 | At most one date comes from the current-picks metadata. |
| WebRoutes.HistoryDateList | web/routes.py:461-502 | Dates are distinct and strictly descending, and count = the number of dates. They are exactly the metadata date plus the valid file dates. |
| CoreUtils.Prune | core/utils.py:38 | Pruning keeps exactly the timestamps younger than the period, in order. |
| CoreUtils.WaitIfNeeded | core/utils.py:33-50 | An IndexError exactly when max_calls <= 0 and pruning empties the list. Otherwise the sleep is the computed wait and the new timestamp is appended last. Every kept stamp is young at entry, and every stamp still young after the sleep is kept (every stamp young at entry when there was no sleep). |
| CoreUtils.WaitKeepsBound | core/utils.py:33-50 | With a monotone clock the window never holds more than max_calls timestamps, and stays ascending. |
| CoreUtils.WindowBelowLimit | core/utils.py:33-50 | With a monotone clock that honours the sleep, fewer than max_calls earlier calls lie within the period when the new call is recorded. |
| CoreUtils.BackoffDelay | core/utils.py:95-98 | The delay before jitter is min(base x exp^attempt, max_delay). |
| CoreUtils.BackoffMonotone | core/utils.py:95-98 | Later attempts never wait less before jitter. |
| CoreUtils.Jittered | core/utils.py:101-102 | With jitter a delay d lies in [0.5 d, d], and strictly below d when positive. |
| CoreUtils.RetryFrom | core/utils.py:82-112 | From a given attempt the call is made at most max_retries+1 times in total. Only retryable failures are retried, and the returned or raised result is that of the last attempt. |
| CoreUtils.Retry | core/utils.py:79-112 | Between 1 and max_retries+1 attempts with one delay between each pair. With max_retries < 0 the function is never called, and the wrapper fails raising the empty `last_exception` (a TypeError in Python). |
| CoreUtils.AlwaysFailingExhaustsRetries | core/utils.py:82-92 | A call that always fails retryably is attempted max_retries+1 times, and the last error is re-raised. |
| CoreUtils.RetryDelaysBounded | core/utils.py:94-109 | Every delay lies in [0, max_delay]. |
| CoreUtils.SafeExecute | core/utils.py:137-142 | The value on success, the default on an exception. |
| CoreUtils.SafeRetry | core/utils.py:118-142 | Wrapping a retried call returns its first success and the default after exhausting the retries. |
| AiSummary.FailureText | pipeline/ai_summary_generator.py:139-141 | The failure text begins with "Analysis Failed", ends with the message, and is never one of the exact placeholders. |
| AiSummary.PartTexts | pipeline/ai_summary_generator.py:119 | The collected part texts are empty iff no part has text. |
| AiSummary.Generate | pipeline/ai_summary_generator.py:81-141 | No key gives "API Key Missing", a missing client package gives "Package not installed", and an exception gives the failure text. A blocked reply gives the safety message. A non-empty reply text yields its stripped form. With no reply text: no candidates gives "No response generated", and a first candidate without content parts gives "Invalid response structure". A first candidate whose parts have no text gives "No content generated", and otherwise the stripped join of the part texts. |
| Text.Strip | pipeline/ai_summary_generator.py:134 | The stripped text is the slice of the input that starts where its leading whitespace ends and is followed only by whitespace. It has no whitespace at either end. |
| Text.StripContained | pipeline/ai_summary_generator.py:134 | The stripped text occurs in the input. |
| AiSummary.GeneratorFailuresNotScored | pipeline/ai_summary_generator.py:94-141 | The corrected report scores every no-key or failure text as (0, Hold). |
| AiSummary.FailureScoredAsWritten | pipeline/ai_summary_generator.py:139-141 | An error message containing "strong buy" yields a failure text that the as-written report scores as Strong Buy (>= 15), while the corrected report gives (0, Hold). |
| AiSummary.Field | pipeline/ai_summary_generator.py:145-156 | A missing column reads as "N/A". |
| AiSummary.ScoreInfo | pipeline/ai_summary_generator.py:145-156 | The score line begins with the composite and grade. The price and upside parts are present exactly when their columns are, and the line is just the base iff both are absent. |
| AiSummary.ScoreInfoReadsFourColumns | pipeline/ai_summary_generator.py:145-156 | The score line depends only on composite_score, grade, current_price and target_upside. |
| AiSummary.OrderByComposite | pipeline/ai_summary_generator.py:204-205 | A permutation ordered by composite, highest first, with missing composites last. |
| AiSummary.LoadPicks | pipeline/ai_summary_generator.py:195-209 | Picks are [] unless a table is read, and at most top-N of them are drawn from the file. With a composite column they are the best by composite. Without one they are the first top-N rows. |
| AiSummary.KeptOutrank | pipeline/ai_summary_generator.py:205-206 | Truncating the ordered rows keeps the order, and no dropped valued row outranks a kept one. |
| AiSummary.Processed | pipeline/ai_summary_generator.py:269-275 | A processed entry stores the Korean summary under both keys, the English one, and the news count. |
| AiSummary.Visit | pipeline/ai_summary_generator.py:251-275 | The upsert step adds the ticker. It keeps an existing entry when skipping, and otherwise overwrites it with a processed one. |
| AiSummary.Merge | pipeline/ai_summary_generator.py:247-275 | The result's keys are the old ones plus the picks. Non-pick entries are unchanged, and each pick is processed unless it was skipped. |
| AiSummary.Run | pipeline/ai_summary_generator.py:221-288 | No picks gives an empty result. Otherwise the keys are the existing ones plus the picks. The existing entries are kept unless a pick is re-processed, and every processed pick's entry is exactly the processed entry: the Korean summary under both keys, the English one and the news count. |
| AiSummary.ReportReadsKoreanSummary | pipeline/ai_summary_generator.py:269-275 | The report reads a processed pick's Korean summary. A generator failure stored there scores (0, Hold) in the corrected report. |

## Left out

- Fetching: prices, ticker info, option chains, insider tables, RSS news and the AI model are all reached over the network. Their results are parameters. A fetch exception is an explicit failure variant.
- Files and logging: reading and writing CSV/JSON files, logging and the `save_*` functions are left out. A file's parsed contents are inputs, and a missing or unreadable file is an explicit variant where the code branches on it.
- Time: `time.sleep`, rate-limit pauses and `datetime.now()` are parameters. The rate limiter takes an explicit clock, and each run uses a single `now`.
- Floating point: prices and ratios are exact reals. NaN is modelled only where the code branches on it, in the composite order and the correlation scan. `round(x, n)` is exact half-even rounding on reals.
- Statistics taken as inputs: variance, standard deviation, the correlation matrix and square roots are parameters of the portfolio model. Returns computed from prices are not modelled. This includes the equal-weight portfolio variance behind the portfolio volatility.
- PortfolioRisk.BetaAsWritten: a ticker literally named "Close_spy" would make the program read that stock's column as the benchmark. This case is not modelled.
- PortfolioRisk.Beta: the program divides an `np.cov` covariance (divisor n-1) by an `np.var` variance (divisor n). Both are inputs of `Benchmark`, so this scale mismatch is not modelled.
- Route indicators: MACD and RSI in the dashboard's technical-indicator route are not modelled. Only the support/resistance scan and the Bollinger signal are.
- Lower-casing covers ASCII only. The Korean keywords are unaffected by case.
- Text.Strip: whitespace is the ASCII set (space, tab, newline, carriage return, vertical tab, form feed). Python's `str.strip()` also removes Unicode whitespace such as U+00A0 and U+3000, which the model keeps.
- EconomicCalendar.Enrich: a reply whose text is present but empty falls through to the candidates in the program. The model's `Text` reply stands for a non-empty text only.
- InsiderTracker.Activity: an unparseable single date (`NaT`) inside a parsed index is not modelled. A table whose index cannot be parsed as dates gives [].
- Ties: pandas' `sort_values` is not stable, so its order among equal keys is unspecified. Python's `list.sort` (final_report_generator.py:186, sector_heatmap.py:115, 194 and 198) is stable, so there the program keeps input order among equal keys, which decides the tied pick kept by the top-N cut. The model's sort is stable too, but Sorting.SortDesc and Sorting.RankTop state only the order by key and the permutation, not the tie order.
- Date parsing: the `strptime` test of history file names is a parameter predicate.
- Display: rounding that only affects output, emoji labels and the prompt's template text are left out.
- The constant watch lists, ETF lists and sector lists are parameters, or constants where a property depends on them.
- The global exception handler in core/utils.py and pipeline/macro_analyzer.py are not part of this model.
- EconomicCalendar.Enrich: the outer exception path, which returns the events un-enriched, is covered only by the `ready = false` case.
- WebRoutes.SupportResistance: the route tests a nearest level's truthiness, so a level of exactly 0.0 is reported as absent. The model treats it as present, since real price levels are never 0.
- SectorHeatmap.MarketMap: the sector table is a dict in the program, so sector names are distinct. The model takes a list and would build a repeated name's group once per entry. The shipped lists have no repeated name and no stock under two sectors. The exception path is the empty-download error.
- SectorHeatmap.MarketMapAsWritten: where a stock does pass the lookups, the model reads that stock's own series. What pandas returns for `data['Close'][ticker]` there (a column of the stock named "Close") is not modelled, and neither is the flat-column branch at sector_heatmap.py:158-163.
- AiSummary.Run: the per-row update timestamp is the single `now` of the run. The news text is only counted, not inspected.
- AiSummary.ScoreInfo: column values are taken as the strings the prompt would render. Number formatting is not modelled.

## Findings

| source | as written | input that shows it | evidently intended | confidence | as-written member | corrected member |
|---|---|---|---|---|---|---|
| pipeline/final_report_generator.py:73 | The AI score skips the scan only for "", "API Key Missing" or the exact text "Analysis Failed". But the generator stores `"Analysis Failed: " + error` (pipeline/ai_summary_generator.py:141), which never equals the exact text, so failure messages are keyword-scanned. | A generator exception whose message contains "strong buy" (or "risk", "buy", ...): the stored summary "Analysis Failed: ... strong buy ..." scores Strong Buy, +15 to +25. | Every generator failure text is skipped and scores (0, Hold). | not executed; medium (real error messages rarely contain the keywords, but "risk" or "buy" can appear in a ticker-specific error) | FinalReport.AiScoreAsWritten, exhibited by AiSummary.FailureScoredAsWritten | FinalReport.AiScore, the `Corrected` scorer of FinalReport.GenerateReport, with AiSummary.GeneratorFailuresNotScored and FinalReport.ReportAgreesOffFailures |
| pipeline/portfolio_risk.py:144 | The returns are joined with the SPY closes using only `rsuffix='_spy'`. pandas renames only column names the two frames share, so the SPY column stays 'Close' unless a ticker is itself named 'Close'. Reading `aligned_returns['Close_spy']` then raises KeyError, and the handler sets beta to 1.0. | Any portfolio of ordinary tickers, e.g. AAPL and MSFT with covariance 0.02 against a benchmark variance of 0.01: the report says beta 1.0. | Beta is the covariance over the benchmark variance, 2.0 here. | not executed; high (the renaming rule of `DataFrame.join` applies to every run with ordinary ticker names) | PortfolioRisk.BetaAsWritten, the `JoinAsWritten` rule of PortfolioRisk.AnalyzePortfolio, exhibited by PortfolioRisk.BetaAsWrittenDiffers and PortfolioRisk.BetaIgnoresBenchmark | PortfolioRisk.Beta, the `JoinCorrected` rule of PortfolioRisk.AnalyzePortfolio |
| pipeline/sector_heatmap.py:154 | The download at :140 uses `group_by='ticker'`, which puts the ticker on the outer column level and the price field on the inner one. The loop then skips every ticker that is not an inner-level label (`levels[1]`), and `data['Close'][ticker]` needs "Close" on the outer level. | Any list of ordinary tickers, e.g. Technology holding AAPL with two closes: no tile is built and the map's series is empty. | Every stock with at least two closes is tiled into its sector's group. | not executed; medium (it depends on the column layout of the installed yfinance; with `group_by='ticker'` current versions put the ticker first) | SectorHeatmap.MarketMapAsWritten, exhibited by SectorHeatmap.TickerFirstMapIsEmpty and SectorHeatmap.MarketMapAsWrittenDiffers | SectorHeatmap.MarketMap |

Two other oddities are modelled as written, each with a lemma:
- The short-interest chain in pipeline/03_analyze_13f.py:121-127 can never reach its -20 branch (Institutional.ShortPenaltyNeverReached).
- The column `dropna` in pipeline/portfolio_risk.py:90 never removes a ticker after the row `dropna` (PortfolioRisk.ColumnFilterKeepsAll).

=== FILE: ai_summary.dfy ===
/** The AI summary generator (pipeline/ai_summary_generator.py): picks the top
    smart-money stocks, asks the model for a Korean and an English summary
    of each, and merges the results into the stored summaries. The model,
    the news feed and the clock are parameters. */
module AiSummary {
  import opened Common
  import opened Sorting
  import opened Text
  import opened FinalReport

  // ---------------------------------------------------------------- generation

  /** One candidate of a model response: either it has content with parts
      (each part with or without text), or it lacks that structure. */
  datatype Candidate = Structured(parts: seq<Option<string>>) | Unstructured

  /** A model response; `text` is `None` when the response has no text. */
  datatype Response = Response(blocked: bool, text: Option<string>, candidates: seq<Candidate>)

  /** What calling the model did: the client package is missing, the call
      raised an exception with a message, or it returned a response. */
  datatype Call = NotInstalled | Raised(message: string) | Responded(response: Response)

  /** The text stored for a failed call. */
  function FailureText(message: string): (s: string)
    ensures Unscanned(s) && !PlaceholderAsWritten(s)
    ensures |s| == |FailurePrefix| + 2 + |message| && s[|s| - |message|..] == message
  {
    var s := FailurePrefix + ": " + message;
    assert s[..|FailurePrefix|] == FailurePrefix;
    s
  }

  /** The texts of the parts that have one, in order. */
  function PartTexts(parts: seq<Option<string>>): (ts: seq<string>)
    ensures ts == [] <==> forall i :: 0 <= i < |parts| ==> parts[i].None?
  {
    if parts == [] then []
    else
      var rest := PartTexts(parts[1..]);
      assert (forall i :: 0 <= i < |parts[1..]| ==> parts[1..][i].None?) ==
             (forall i :: 1 <= i < |parts| ==> parts[i].None?);
      if parts[0].Some? then [parts[0].value] + rest else rest
  }

  /** `generate`: the missing-key placeholder without an API key; otherwise
      the stripped text of the response (or of the first candidate's text
      parts when the response has no text), a fixed message for each way
      the response can be unusable, and the failure text for an exception. */
  function Generate(hasKey: bool, call: Call): (s: string)
    ensures !hasKey ==> s == "API Key Missing"
    ensures hasKey && call.NotInstalled? ==> s == "Package not installed"
    ensures hasKey && call.Raised? ==> s == FailureText(call.message)
    ensures hasKey && call.Responded? && call.response.blocked ==> s == "Content blocked by safety filters"
    ensures (hasKey && call.Responded? && !call.response.blocked
             && call.response.text.Some? && call.response.text.value != []) ==>
              s == Strip(call.response.text.value)
    ensures (hasKey && call.Responded? && !call.response.blocked
             && (call.response.text.None? || call.response.text.value == []) && call.response.candidates == []) ==>
              s == "No response generated"
    ensures (hasKey && call.Responded? && !call.response.blocked
             && (call.response.text.None? || call.response.text.value == []) && call.response.candidates != []) ==>
              match call.response.candidates[0]
              case Unstructured => s == "Invalid response structure"
              case Structured(parts) =>
                (PartTexts(parts) == [] ==> s == "No content generated")
                && (PartTexts(parts) != [] ==> s == Strip(Concat(PartTexts(parts))))
  {
    if !hasKey then "API Key Missing"
    else
      match call
      case NotInstalled => "Package not installed"
      case Raised(m) => FailureText(m)
      case Responded(resp) =>
        if resp.blocked then "Content blocked by safety filters"
        else if resp.text.Some? && resp.text.value != [] then Strip(resp.text.value)
        else if resp.candidates == [] then "No response generated"
        else
          match resp.candidates[0]
          case Unstructured => "Invalid response structure"
          case Structured(parts) =>
            if PartTexts(parts) == [] then "No content generated"
            else Strip(Concat(PartTexts(parts)))
  }

  /** The report never scores the placeholder of a missing key or the text
      of a failed call: both give a neutral hold. */
  lemma GeneratorFailuresNotScored(hasKey: bool, call: Call, v: Vocabulary)
    requires !hasKey || call.Raised?
    ensures AiScore(Generate(hasKey, call), v) == (0, Hold)
  {
    if hasKey {
      assert Unscanned(FailureText(call.message));
    }
  }

  /** Python's `s.lower()` distributes over concatenation. */
  lemma LowerAppend(a: string, b: string)
    ensures Lower(a + b) == Lower(a) + Lower(b)
  {
    assert forall i :: 0 <= i < |a + b| ==> Lower(a + b)[i] == (Lower(a) + Lower(b))[i];
  }

  /** As written, the report's exact-text test misses the failure text: a
      failed call whose error message mentions "strong buy" is scored as a
      strong buy worth at least 15 points. */
  lemma FailureScoredAsWritten(message: string)
    requires Contains(Lower(message), "strong buy")
    ensures AiScoreAsWritten(Generate(true, Raised(message)), ReportVocabulary).1 == StrongBuy
    ensures AiScoreAsWritten(Generate(true, Raised(message)), ReportVocabulary).0 >= 15
    ensures AiScore(Generate(true, Raised(message)), ReportVocabulary) == (0, Hold)
  {
    var s := Generate(true, Raised(message));
    var prefix := FailurePrefix + ": ";
    assert s == prefix + message;
    LowerAppend(prefix, message);
    ContainsInConcat(Lower(prefix), Lower(message), "strong buy");
    assert ReportVocabulary.strongBuy[0] == "strong buy";
    assert Signal(Lower(s), ReportVocabulary) == StrongBuy;
  }

  // ---------------------------------------------------------------- prompt

  /** A pick's row as the prompt sees it: column name to printed value. */
  type Row = map<string, string>

  /** `data.get(key, 'N/A')`. */
  function Field(data: Row, key: string): (v: string)
    ensures key !in data ==> v == "N/A"
  {
    if key in data then data[key] else "N/A"
  }

  function BaseInfo(data: Row): string
  {
    "Composite Score: " + Field(data, "composite_score") + "/100, Grade: " + Field(data, "grade")
  }

  function PricePart(data: Row): string
  {
    var p := Field(data, "current_price");
    if p != "N/A" then ", Current Price: $" + p else ""
  }

  function UpsidePart(data: Row): string
  {
    var u := Field(data, "target_upside");
    if u != "N/A" then ", Target Upside: " + u + "%" else ""
  }

  /** The `score_info` line of the prompt: the composite score and grade,
      then the current price and the target upside, each only when it is
      not 'N/A'. */
  function ScoreInfo(data: Row): (r: string)
    ensures |r| == |BaseInfo(data)| + |PricePart(data)| + |UpsidePart(data)|
    ensures r[..|BaseInfo(data)|] == BaseInfo(data)
    ensures r == BaseInfo(data) <==> Field(data, "current_price") == "N/A" && Field(data, "target_upside") == "N/A"
    ensures Field(data, "current_price") != "N/A" ==>
              OccursAt(r, ", Current Price: $" + Field(data, "current_price"), |BaseInfo(data)|)
    ensures Field(data, "target_upside") != "N/A" ==>
              r[|r| - |UpsidePart(data)|..] == ", Target Upside: " + Field(data, "target_upside") + "%"
  {
    var b := BaseInfo(data);
    var p := PricePart(data);
    var u := UpsidePart(data);
    var r := b + p + u;
    assert r[|b|..|b| + |p|] == p;
    r
  }

  /** Only the four score columns reach `score_info`. */
  lemma ScoreInfoReadsFourColumns(a: Row, b: Row)
    requires Field(a, "composite_score") == Field(b, "composite_score") && Field(a, "grade") == Field(b, "grade")
    requires Field(a, "current_price") == Field(b, "current_price")
    requires Field(a, "target_upside") == Field(b, "target_upside")
    ensures ScoreInfo(a) == ScoreInfo(b)
  {
    assert BaseInfo(a) == BaseInfo(b);
    assert PricePart(a) == PricePart(b);
    assert UpsidePart(a) == UpsidePart(b);
  }

  // ---------------------------------------------------------------- picks

  /** One row of the smart-money picks file; `composite` is `None` when the
      cell is empty (NaN). */
  datatype PickRow = PickRow(ticker: string, composite: Option<real>)

  /** The picks file: absent, unreadable, or a table with or without a
      `composite_score` column. */
  datatype PicksFile = Missing | Unreadable | Table(hasComposite: bool, rows: seq<PickRow>)

  predicate Valued(r: PickRow) { r.composite.Some? }

  function CompositeOf(r: PickRow): real { GetOr(r.composite, 0.0) }

  /** Descending by composite score with the empty cells last, as pandas
      orders `sort_values(ascending=False)`. */
  ghost predicate ByComposite(xs: seq<PickRow>)
  {
    forall i, j :: 0 <= i < j < |xs| ==>
      (xs[i].composite.None? ==> xs[j].composite.None?)
      && (xs[i].composite.Some? && xs[j].composite.Some? ==> xs[i].composite.value >= xs[j].composite.value)
  }

  /** The rows ordered by composite score, highest first, empty cells last. */
  function OrderByComposite(rows: seq<PickRow>): (r: seq<PickRow>)
    ensures ByComposite(r)
    ensures multiset(r) == multiset(rows)
  {
    var valued := SortDesc(Filter(rows, Valued), CompositeOf);
    var rest := Reject(rows, Valued);
    FilterPartition(rows, Valued);
    ValuedFirst(Filter(rows, Valued), valued, rest);
    valued + rest
  }

  /** Sorted rows with a composite followed by rows without one are in
      composite order. */
  lemma ValuedFirst(filtered: seq<PickRow>, valued: seq<PickRow>, rest: seq<PickRow>)
    requires forall i :: 0 <= i < |filtered| ==> Valued(filtered[i])
    requires multiset(valued) == multiset(filtered) && SortedDesc(valued, CompositeOf)
    requires forall i :: 0 <= i < |rest| ==> !Valued(rest[i])
    ensures ByComposite(valued + rest)
  {
    forall i | 0 <= i < |valued| ensures valued[i].composite.Some? {
      assert valued[i] in multiset(filtered);
      var k :| 0 <= k < |filtered| && filtered[k] == valued[i];
    }
  }

  /** `load_smart_money_picks`: nothing when the file is missing or cannot
      be read; otherwise the first `topN` rows (pandas `head`) after
      ordering by composite score when that column exists. */
  function LoadPicks(file: PicksFile, topN: int): (r: seq<PickRow>)
    ensures !file.Table? ==> r == []
    ensures file.Table? ==> multiset(r) <= multiset(file.rows) && |r| == |Head(file.rows, topN)|
    ensures 0 <= topN ==> |r| <= topN
    ensures file.Table? && file.hasComposite ==> ByComposite(r)
    ensures file.Table? && !file.hasComposite ==> r == Head(file.rows, topN)
    ensures file.Table? && file.hasComposite ==>
              forall p, i :: p in multiset(file.rows) - multiset(r) && p.composite.Some? && 0 <= i < |r| ==>
                r[i].composite.Some? && r[i].composite.value >= p.composite.value
  {
    match file
    case Missing => []
    case Unreadable => []
    case Table(hasComposite, rows) =>
      if !hasComposite then
        PrefixMultiset(rows, Head(rows, topN));
        Head(rows, topN)
      else
        var ordered := OrderByComposite(rows);
        var kept := Head(ordered, topN);
        KeptOutrank(ordered, kept);
        kept
  }

  /** A leading slice of the ordered rows holds the highest composites: a
      left-out row with a composite is outranked by every kept row. */
  lemma KeptOutrank(ordered: seq<PickRow>, kept: seq<PickRow>)
    requires ByComposite(ordered) && |kept| <= |ordered| && kept == ordered[..|kept|]
    ensures ByComposite(kept)
    ensures multiset(kept) <= multiset(ordered)
    ensures forall p, i :: p in multiset(ordered) - multiset(kept) && p.composite.Some? && 0 <= i < |kept| ==>
              kept[i].composite.Some? && kept[i].composite.value >= p.composite.value
  {
    var n := |kept|;
    PrefixMultiset(ordered, kept);
    forall p, i | p in multiset(ordered) - multiset(kept) && p.composite.Some? && 0 <= i < n
      ensures kept[i].composite.Some? && kept[i].composite.value >= p.composite.value
    {
      var j := LeftOutIndex(ordered, kept, p);
      assert kept[i] == ordered[i];
    }
    forall i, j | 0 <= i < j < n
      ensures (kept[i].composite.None? ==> kept[j].composite.None?)
              && (kept[i].composite.Some? && kept[j].composite.Some? ==> kept[i].composite.value >= kept[j].composite.value)
    {
      assert kept[i] == ordered[i] && kept[j] == ordered[j];
    }
  }

  // ---------------------------------------------------------------- run

  datatype Lang = Korean | English

  /** One stored summary. */
  datatype Entry = Entry(summary: string, summaryKo: string, summaryEn: string, newsCount: nat, updated: string)

  /** The collaborators of a run: the news feed, the model (already bound
      to the key and the prompt) and the clock. */
  datatype Env = Env(news: string -> seq<string>, summarize: (string, Lang) -> string, now: string)

  /** The entry written for a processed ticker: the Korean summary is also
      the default summary. */
  function Processed(env: Env, ticker: string): (e: Entry)
    ensures e.summary == e.summaryKo == env.summarize(ticker, Korean)
    ensures e.summaryEn == env.summarize(ticker, English)
    ensures e.newsCount == |env.news(ticker)|
  {
    var ko := env.summarize(ticker, Korean);
    Entry(ko, ko, env.summarize(ticker, English), |env.news(ticker)|, env.now)
  }

  /** The loop body: skip a ticker already present when asked to, else
      (re)write its entry. */
  function Visit(results: map<string, Entry>, row: PickRow, skipExisting: bool, env: Env): (r: map<string, Entry>)
    ensures r.Keys == results.Keys + {row.ticker}
    ensures skipExisting && row.ticker in results ==> r == results
    ensures !(skipExisting && row.ticker in results) ==> r == results[row.ticker := Processed(env, row.ticker)]
  {
    if skipExisting && row.ticker in results then results
    else results[row.ticker := Processed(env, row.ticker)]
  }

  function Tickers(rows: seq<PickRow>): (ts: set<string>)
    ensures forall t :: t in ts <==> exists i :: 0 <= i < |rows| && rows[i].ticker == t
  {
    set i | 0 <= i < |rows| :: rows[i].ticker
  }

  /** The loop over the picks, in order. */
  function Merge(results: map<string, Entry>, rows: seq<PickRow>, skipExisting: bool, env: Env): (r: map<string, Entry>)
    ensures r.Keys == results.Keys + Tickers(rows)
    ensures forall t :: t in results && t !in Tickers(rows) ==> r[t] == results[t]
    ensures skipExisting ==> forall t :: t in results ==> r[t] == results[t]
    ensures forall t :: t in Tickers(rows) && !(skipExisting && t in results) ==> r[t] == Processed(env, t)
    decreases |rows|
  {
    if rows == [] then results
    else
      var next := Visit(results, rows[0], skipExisting, env);
      var r := Merge(next, rows[1..], skipExisting, env);
      TickersCons(rows);
      MergeStep(results, next, r, rows[0], Tickers(rows[1..]), skipExisting, env);
      r
  }

  /** Visiting one pick and then the rest gives the promised result for
      the pick followed by the rest. */
  lemma MergeStep(results: map<string, Entry>, next: map<string, Entry>, r: map<string, Entry>, row: PickRow,
                  later: set<string>, skipExisting: bool, env: Env)
    requires next == Visit(results, row, skipExisting, env)
    requires r.Keys == next.Keys + later
    requires forall t :: t in next && t !in later ==> r[t] == next[t]
    requires skipExisting ==> forall t :: t in next ==> r[t] == next[t]
    requires forall t :: t in later && !(skipExisting && t in next) ==> r[t] == Processed(env, t)
    ensures r.Keys == results.Keys + ({row.ticker} + later)
    ensures forall t :: t in results && t !in {row.ticker} + later ==> r[t] == results[t]
    ensures skipExisting ==> forall t :: t in results ==> r[t] == results[t]
    ensures forall t :: t in {row.ticker} + later && !(skipExisting && t in results) ==> r[t] == Processed(env, t)
  {
  }

  lemma TickersCons(rows: seq<PickRow>)
    requires rows != []
    ensures Tickers(rows) == {rows[0].ticker} + Tickers(rows[1..])
  {
    forall t ensures t in Tickers(rows) <==> t in {rows[0].ticker} + Tickers(rows[1..]) {
      if t in Tickers(rows) {
        var i :| 0 <= i < |rows| && rows[i].ticker == t;
        if i > 0 {
          assert rows[1..][i - 1].ticker == t;
        }
      }
      if t in Tickers(rows[1..]) {
        var i :| 0 <= i < |rows[1..]| && rows[1..][i].ticker == t;
        assert rows[i + 1].ticker == t;
      }
    }
  }

  /** `run`: nothing when there are no picks; otherwise the loaded summaries
      with every pick visited in order. Entries are only added or replaced,
      never removed. */
  function Run(file: PicksFile, topN: int, existing: map<string, Entry>, skipExisting: bool, env: Env): (r: map<string, Entry>)
    ensures LoadPicks(file, topN) == [] ==> r == map[]
    ensures LoadPicks(file, topN) != [] ==> r.Keys == existing.Keys + Tickers(LoadPicks(file, topN))
    ensures LoadPicks(file, topN) != [] ==>
              forall t :: t in existing && (skipExisting || t !in Tickers(LoadPicks(file, topN))) ==> r[t] == existing[t]
    ensures forall t :: t in Tickers(LoadPicks(file, topN)) && !(skipExisting && t in existing) ==>
              r[t] == Processed(env, t) && r[t].summary == r[t].summaryKo && r[t].newsCount == |env.news(t)|
  {
    var picks := LoadPicks(file, topN);
    if picks == [] then map[] else Merge(existing, picks, skipExisting, env)
  }

  /** How the report reads the stored summaries. */
  function ReportView(results: map<string, Entry>): (ai: map<string, SummaryEntry>)
    ensures ai.Keys == results.Keys
  {
    map t | t in results :: SummaryEntry(Some(results[t].summary), Some(results[t].summaryKo))
  }

  /** The final report scores a processed ticker on its Korean summary, and
      a ticker whose Korean generation had no key or failed gets a neutral
      hold. */
  lemma ReportReadsKoreanSummary(file: PicksFile, topN: int, existing: map<string, Entry>, skipExisting: bool,
                                 env: Env, t: string, hasKey: bool, call: Call)
    requires t in Tickers(LoadPicks(file, topN)) && !(skipExisting && t in existing)
    requires env.summarize(t, Korean) == Generate(hasKey, call) && (!hasKey || call.Raised?)
    ensures SummaryFor(ReportView(Run(file, topN, existing, skipExisting, env)), t) == Generate(hasKey, call)
    ensures AiScore(SummaryFor(ReportView(Run(file, topN, existing, skipExisting, env)), t), ReportVocabulary) == (0, Hold)
  {
    var r := Run(file, topN, existing, skipExisting, env);
    assert r[t] == Processed(env, t);
    GeneratorFailuresNotScored(hasKey, call, ReportVocabulary);
  }
}

=== FILE: common.dfy ===
/** Small helpers shared by every analyzer: optional values, clamping,
    Python-style slicing, filtering and counting, sums and means,
    rounding, and the five-tier label scheme the score families share. */
module Common {

  /** A value that may be absent (Python's `None`, a missing dict key, a NaN). */
  datatype Option<T> = None | Some(value: T)

  /** Python's `x or d` on an optional number: absent and zero are both falsy. */
  function OrElse(x: Option<real>, d: real): (r: real)
    ensures x.Some? && x.value != 0.0 ==> r == x.value
    ensures x.None? || x.value == 0.0 ==> r == d
  {
    if x.Some? && x.value != 0.0 then x.value else d
  }

  /** Python's `s or d` on an optional string or list: absent and empty are both falsy. */
  function NonEmptyOr<T>(s: Option<seq<T>>, d: seq<T>): (r: seq<T>)
    ensures s.Some? && s.value != [] ==> r == s.value
    ensures s.None? || s.value == [] ==> r == d
  {
    if s.Some? && s.value != [] then s.value else d
  }

  /** A lookup with a default (`row.get(key, d)`): only an absent value is replaced. */
  function GetOr<T>(x: Option<T>, d: T): (r: T)
    ensures x.Some? ==> r == x.value
    ensures x.None? ==> r == d
  {
    if x.Some? then x.value else d
  }

  /** A closing price; prices of traded securities are positive. */
  type Close = x: real | x > 0.0 witness 1.0

  /** `max(lo, min(hi, x))` on integer scores. */
  function Clamp(x: int, lo: int, hi: int): (r: int)
    requires lo <= hi
    ensures lo <= r <= hi
    ensures lo <= x <= hi ==> r == x
    ensures x < lo ==> r == lo
    ensures hi < x ==> r == hi
  {
    if x < lo then lo else if hi < x then hi else x
  }

  /** `max(lo, min(hi, x))` on real scores. */
  function ClampReal(x: real, lo: real, hi: real): (r: real)
    requires lo <= hi
    ensures lo <= r <= hi
    ensures lo <= x <= hi ==> r == x
    ensures x < lo ==> r == lo
    ensures hi < x ==> r == hi
  {
    if x < lo then lo else if hi < x then hi else x
  }

  function Min(a: int, b: int): int { if a <= b then a else b }

  /** Python's `xs[:n]` and pandas' `head(n)`: a non-negative `n` keeps at most
      `n` leading items, a negative `n` drops the last `-n` items. */
  function Head<T>(xs: seq<T>, n: int): (r: seq<T>)
    ensures 0 <= n ==> |r| == Min(n, |xs|)
    ensures n < 0 ==> |r| == if |xs| + n > 0 then |xs| + n else 0
    ensures r == xs[..|r|]
  {
    if 0 <= n then (if n < |xs| then xs[..n] else xs)
    else if |xs| + n > 0 then xs[..|xs| + n]
    else []
  }

  /** The items of `xs` that satisfy `p`, in their original order. */
  function Filter<T>(xs: seq<T>, p: T -> bool): (r: seq<T>)
    ensures |r| <= |xs|
    ensures forall i :: 0 <= i < |r| ==> p(r[i])
    ensures multiset(r) <= multiset(xs)
    ensures forall x :: x in xs && p(x) ==> x in r
  {
    if xs == [] then []
    else
      var rest := Filter(xs[1..], p);
      var r := if p(xs[0]) then [xs[0]] + rest else rest;
      FilterStep(xs, p, rest, r);
      r
  }

  /** Keeping or dropping the head of `xs` completes a filtering of its tail. */
  lemma FilterStep<T>(xs: seq<T>, p: T -> bool, rest: seq<T>, r: seq<T>)
    requires xs != [] && |rest| <= |xs[1..]| && multiset(rest) <= multiset(xs[1..])
    requires forall i :: 0 <= i < |rest| ==> p(rest[i])
    requires forall x :: x in xs[1..] && p(x) ==> x in rest
    requires r == if p(xs[0]) then [xs[0]] + rest else rest
    ensures |r| <= |xs|
    ensures forall i :: 0 <= i < |r| ==> p(r[i])
    ensures multiset(r) <= multiset(xs)
    ensures forall x :: x in xs && p(x) ==> x in r
  {
    assert xs == [xs[0]] + xs[1..];
    forall i | 0 <= i < |r| ensures p(r[i]) {
      if p(xs[0]) && i > 0 {
        assert r[i] == rest[i - 1];
      }
    }
    forall x | x in xs && p(x) ensures x in r {
      if x != xs[0] {
        assert x in xs[1..];
      }
    }
  }

  /** Filtering distributes over concatenation, so it keeps relative order. */
  lemma {:induction false} FilterAppend<T>(a: seq<T>, b: seq<T>, p: T -> bool)
    ensures Filter(a + b, p) == Filter(a, p) + Filter(b, p)
  {
    if a == [] {
      assert a + b == b;
    } else {
      assert (a + b)[0] == a[0];
      assert (a + b)[1..] == a[1..] + b;
      FilterAppend(a[1..], b, p);
    }
  }

  /** The items of `xs` that fail `p`, in their original order. */
  function Reject<T>(xs: seq<T>, p: T -> bool): (r: seq<T>)
    ensures forall i :: 0 <= i < |r| ==> !p(r[i])
  {
    if xs == [] then [] else (if p(xs[0]) then [] else [xs[0]]) + Reject(xs[1..], p)
  }

  /** The items kept and the items rejected together are all the items. */
  lemma {:induction false} FilterPartition<T>(xs: seq<T>, p: T -> bool)
    ensures multiset(Filter(xs, p)) + multiset(Reject(xs, p)) == multiset(xs)
  {
    if xs != [] {
      FilterPartition(xs[1..], p);
      SplitCons(xs, Filter(xs[1..], p), Reject(xs[1..], p), p(xs[0]), Filter(xs, p), Reject(xs, p));
    }
  }

  /** Adding the head to one side of a split of the tail splits the whole. */
  lemma SplitCons<T>(xs: seq<T>, f: seq<T>, g: seq<T>, left: bool, f2: seq<T>, g2: seq<T>)
    requires xs != [] && multiset(f) + multiset(g) == multiset(xs[1..])
    requires left ==> f2 == [xs[0]] + f && g2 == g
    requires !left ==> f2 == f && g2 == [xs[0]] + g
    ensures multiset(f2) + multiset(g2) == multiset(xs)
  {
    assert xs == [xs[0]] + xs[1..];
  }

  /** How many items of `xs` satisfy `p`. */
  function Count<T>(xs: seq<T>, p: T -> bool): (n: nat)
    ensures n <= |xs|
  {
    if xs == [] then 0 else (if p(xs[0]) then 1 else 0) + Count(xs[1..], p)
  }

  /** Counting is the length of the filtered sequence. */
  lemma {:induction false} CountFilter<T>(xs: seq<T>, p: T -> bool)
    ensures Count(xs, p) == |Filter(xs, p)|
  {
    if xs != [] {
      CountFilter(xs[1..], p);
    }
  }

  /** Counting over a concatenation adds the counts of the parts. */
  lemma CountAppend<T>(a: seq<T>, b: seq<T>, p: T -> bool)
    ensures Count(a + b, p) == Count(a, p) + Count(b, p)
  {
    FilterAppend(a, b, p);
    CountFilter(a + b, p);
    CountFilter(a, p);
    CountFilter(b, p);
  }

  /** Counting with one item taken out. */
  lemma {:induction false} CountRemove<T>(b: seq<T>, k: nat, p: T -> bool)
    requires k < |b|
    ensures Count(b, p) == (if p(b[k]) then 1 else 0) + Count(b[..k] + b[k + 1..], p)
  {
    if k == 0 {
      assert b[..0] + b[1..] == b[1..];
    } else {
      var t := b[1..][..k - 1] + b[1..][k..];
      CountRemove(b[1..], k - 1, p);
      assert b[..k] + b[k + 1..] == [b[0]] + t;
      CountCons(b[0], t, p);
    }
  }

  /** Counting over a sequence with one more item in front. */
  lemma CountCons<T>(x: T, t: seq<T>, p: T -> bool)
    ensures Count([x] + t, p) == (if p(x) then 1 else 0) + Count(t, p)
  {
    assert ([x] + t)[1..] == t;
  }

  /** Counting is invariant under reordering. */
  lemma {:induction false} CountPermutation<T>(a: seq<T>, b: seq<T>, p: T -> bool)
    requires multiset(a) == multiset(b)
    ensures Count(a, p) == Count(b, p)
    decreases |a|
  {
    if a != [] {
      var x := a[0];
      assert x in multiset(b);
      var k :| 0 <= k < |b| && b[k] == x;
      var rest := b[..k] + b[k + 1..];
      MultisetRemove(b, k);
      assert a == [x] + a[1..];
      assert multiset(a[1..]) == multiset(rest);
      CountPermutation(a[1..], rest, p);
      CountRemove(b, k, p);
    }
  }

  /** Taking one item out of a sequence takes it out of its multiset. */
  lemma MultisetRemove<T>(b: seq<T>, k: nat)
    requires k < |b|
    ensures multiset(b[..k] + b[k + 1..]) == multiset(b) - multiset{b[k]}
  {
    assert b == b[..k] + [b[k]] + b[k + 1..];
  }

  /** An item occurs in the filtered sequence as often as in the whole when
      it passes, and not at all otherwise. */
  lemma {:induction false} FilterMultiplicity<T>(xs: seq<T>, p: T -> bool, x: T)
    ensures multiset(Filter(xs, p))[x] == if p(x) then multiset(xs)[x] else 0
  {
    if xs != [] {
      FilterMultiplicity(xs[1..], p, x);
      assert xs == [xs[0]] + xs[1..];
      FilterCons(xs, p);
    }
  }

  /** Filtering two reorderings of the same items keeps the same items. */
  lemma FilterPermutation<T>(a: seq<T>, b: seq<T>, p: T -> bool)
    requires multiset(a) == multiset(b)
    ensures multiset(Filter(a, p)) == multiset(Filter(b, p))
  {
    forall x ensures multiset(Filter(a, p))[x] == multiset(Filter(b, p))[x] {
      FilterMultiplicity(a, p, x);
      FilterMultiplicity(b, p, x);
    }
  }

  /** Mapping `f` over two reorderings of the same items gives the same
      results, reordered. */
  lemma {:induction false} MapPermutation<T, R>(a: seq<T>, b: seq<T>, fa: seq<R>, fb: seq<R>, f: T -> R)
    requires multiset(a) == multiset(b)
    requires |fa| == |a| && forall i :: 0 <= i < |a| ==> fa[i] == f(a[i])
    requires |fb| == |b| && forall i :: 0 <= i < |b| ==> fb[i] == f(b[i])
    ensures multiset(fa) == multiset(fb)
    decreases |a|
  {
    if a == [] {
      assert |multiset(b)| == 0;
    } else {
      var x := a[0];
      assert x in multiset(b);
      var k :| 0 <= k < |b| && b[k] == x;
      var rest := b[..k] + b[k + 1..];
      var frest := fb[..k] + fb[k + 1..];
      MultisetRemove(b, k);
      assert a == [x] + a[1..];
      AlignedRemove(b, fb, f, k);
      MapPermutation(a[1..], rest, fa[1..], frest, f);
      MapCons(fa, fb, k, frest);
    }
  }

  /** `[f(x) for x in xs]`. */
  function MapSeq<T, R>(xs: seq<T>, f: T -> R): (ys: seq<R>)
    ensures |ys| == |xs| && forall i :: 0 <= i < |xs| ==> ys[i] == f(xs[i])
  {
    seq(|xs|, i requires 0 <= i < |xs| => f(xs[i]))
  }

  /** Mapping `f` over the items of two reorderings that pass `p` gives the
      same results, reordered. */
  lemma FilterMapPermutation<T, R>(a: seq<T>, b: seq<T>, p: T -> bool, f: T -> R)
    requires multiset(a) == multiset(b)
    ensures multiset(MapSeq(Filter(a, p), f)) == multiset(MapSeq(Filter(b, p), f))
  {
    FilterPermutation(a, b, p);
    MapPermutation(Filter(a, p), Filter(b, p), MapSeq(Filter(a, p), f), MapSeq(Filter(b, p), f), f);
  }

  /** Taking the k-th item out of two aligned sequences keeps them aligned. */
  lemma AlignedRemove<T, R>(b: seq<T>, fb: seq<R>, f: T -> R, k: nat)
    requires k < |b| && |fb| == |b| && forall i :: 0 <= i < |b| ==> fb[i] == f(b[i])
    ensures var rest := b[..k] + b[k + 1..];
            var frest := fb[..k] + fb[k + 1..];
            |frest| == |rest| && forall i :: 0 <= i < |rest| ==> frest[i] == f(rest[i])
  {
    var rest := b[..k] + b[k + 1..];
    var frest := fb[..k] + fb[k + 1..];
    forall i | 0 <= i < |rest| ensures frest[i] == f(rest[i]) {
      if i >= k {
        assert rest[i] == b[i + 1] && frest[i] == fb[i + 1];
      } else {
        assert rest[i] == b[i] && frest[i] == fb[i];
      }
    }
  }

  /** Putting back the item taken out at `k`. */
  lemma MapCons<R>(fa: seq<R>, fb: seq<R>, k: nat, frest: seq<R>)
    requires fa != [] && k < |fb| && fa[0] == fb[k]
    requires frest == fb[..k] + fb[k + 1..] && multiset(fa[1..]) == multiset(frest)
    ensures multiset(fa) == multiset(fb)
  {
    MultisetRemove(fb, k);
    assert fa == [fa[0]] + fa[1..];
  }

  /** Counting over a suffix never exceeds counting over a longer suffix. */
  lemma CountSuffixMono<T>(xs: seq<T>, i: nat, j: nat, p: T -> bool)
    requires i <= j <= |xs|
    ensures Count(xs[j..], p) <= Count(xs[i..], p)
  {
    assert xs[i..] == xs[i..j] + xs[j..];
    CountAppend(xs[i..j], xs[j..], p);
  }

  /** One step of a loop that keeps `g`'s result for the items passing `q`:
      when the results for the tail line up, item by item, with the tail's
      passing items (each result naming, through `name`, the item it came
      from), the results for the whole line up with the whole's. */
  lemma AlignedStep<T, R>(x: T, q: T -> bool, g: T -> Option<R>, name: R -> T,
                          kept: seq<T>, all: seq<T>, rest: seq<R>, out: seq<R>)
    requires |rest| == |kept|
    requires forall k :: 0 <= k < |rest| ==> name(rest[k]) == kept[k] && g(name(rest[k])) == Some(rest[k])
    requires q(x) <==> g(x).Some?
    requires g(x).Some? ==> name(g(x).value) == x
    requires all == if q(x) then [x] + kept else kept
    requires out == if g(x).Some? then [g(x).value] + rest else rest
    ensures |out| == |all|
    ensures forall k :: 0 <= k < |out| ==> name(out[k]) == all[k] && g(name(out[k])) == Some(out[k])
  {
    forall k | 0 <= k < |out|
      ensures name(out[k]) == all[k] && g(name(out[k])) == Some(out[k])
    {
      if g(x).Some? && k > 0 {
        assert out[k] == rest[k - 1] && all[k] == kept[k - 1];
      }
    }
  }

  /** Filtering a non-empty sequence keeps or drops its head and filters its tail. */
  lemma FilterCons<T>(xs: seq<T>, p: T -> bool)
    requires xs != []
    ensures Filter(xs, p) == if p(xs[0]) then [xs[0]] + Filter(xs[1..], p) else Filter(xs[1..], p)
  {
  }

  /** The items on which `f` gives a result. */
  function Defined<T, R>(f: T -> Option<R>): T -> bool
  {
    x => f(x).Some?
  }

  /** Apply `f` to every item and keep the present results, in order (a
      loop that skips the items it cannot process). */
  function FilterMap<T, R>(xs: seq<T>, f: T -> Option<R>): (out: seq<R>)
    ensures |out| == Count(xs, Defined(f))
    ensures forall k :: 0 <= k < |out| ==> exists i :: 0 <= i < |xs| && f(xs[i]) == Some(out[k])
  {
    if xs == [] then []
    else
      var rest := FilterMap(xs[1..], f);
      var out := if f(xs[0]).Some? then [f(xs[0]).value] + rest else rest;
      assert Count(xs, Defined(f)) == (if f(xs[0]).Some? then 1 else 0) + Count(xs[1..], Defined(f));
      FromTail(xs, f, rest, out);
      out
  }

  /** A result found in the tail is found in the whole sequence. */
  lemma FromTail<T, R>(xs: seq<T>, f: T -> Option<R>, rest: seq<R>, out: seq<R>)
    requires xs != []
    requires forall k :: 0 <= k < |rest| ==> exists i :: 0 <= i < |xs[1..]| && f(xs[1..][i]) == Some(rest[k])
    requires out == if f(xs[0]).Some? then [f(xs[0]).value] + rest else rest
    ensures forall k :: 0 <= k < |out| ==> exists i :: 0 <= i < |xs| && f(xs[i]) == Some(out[k])
  {
    forall k | 0 <= k < |out| ensures exists i :: 0 <= i < |xs| && f(xs[i]) == Some(out[k]) {
      if f(xs[0]).Some? && k == 0 {
        assert f(xs[0]) == Some(out[k]);
      } else {
        var j := if f(xs[0]).Some? then k - 1 else k;
        assert out[k] == rest[j];
        var i :| 0 <= i < |xs[1..]| && f(xs[1..][i]) == Some(rest[j]);
        assert f(xs[i + 1]) == Some(out[k]);
      }
    }
  }

  /** The results of FilterMap line up with the items that have one: the
      `k`-th result is the result of the `k`-th such item, so the loop keeps
      the input order. */
  lemma {:induction false} FilterMapAligned<T, R>(xs: seq<T>, f: T -> Option<R>)
    ensures |FilterMap(xs, f)| == |Filter(xs, Defined(f))|
    ensures forall k :: 0 <= k < |FilterMap(xs, f)| ==> f(Filter(xs, Defined(f))[k]) == Some(FilterMap(xs, f)[k])
  {
    if xs != [] {
      FilterMapAligned(xs[1..], f);
      FilterCons(xs, Defined(f));
      AlignedCons(xs[0], f, Filter(xs[1..], Defined(f)), FilterMap(xs[1..], f),
                  Filter(xs, Defined(f)), FilterMap(xs, f));
    }
  }

  /** One step of FilterMapAligned, over plain sequences. */
  lemma AlignedCons<T, R>(x: T, f: T -> Option<R>, kept: seq<T>, rest: seq<R>, all: seq<T>, out: seq<R>)
    requires |rest| == |kept| && forall k :: 0 <= k < |rest| ==> f(kept[k]) == Some(rest[k])
    requires all == if f(x).Some? then [x] + kept else kept
    requires out == if f(x).Some? then [f(x).value] + rest else rest
    ensures |out| == |all| && forall k :: 0 <= k < |out| ==> f(all[k]) == Some(out[k])
  {
    if f(x).Some? {
      forall k | 0 <= k < |out| ensures f(all[k]) == Some(out[k]) {
        if k > 0 {
          assert all[k] == kept[k - 1] && out[k] == rest[k - 1];
        }
      }
    }
  }

  /** A dictionary filled by a loop over `keys` that stores `f(k)` whenever it
      is present (a repeated key stores the same value again). */
  function Tabulate<K(==,!new), V>(keys: seq<K>, f: K -> Option<V>): (m: map<K, V>)
    ensures forall k :: k in m <==> k in keys && f(k).Some?
    ensures forall k :: k in m ==> f(k) == Some(m[k])
  {
    if keys == [] then map[]
    else
      var init := keys[..|keys| - 1];
      var last := keys[|keys| - 1];
      var m := Tabulate(init, f);
      assert forall k :: k in keys <==> k in init || k == last by {
        assert keys == init + [last];
      }
      match f(last)
      case None => m
      case Some(v) => m[last := v]
  }

  /** Percent change from `prev` to `cur`, 0 when `prev` is not positive. */
  function PercentChange(cur: real, prev: real): (r: real)
    ensures prev <= 0.0 ==> r == 0.0
    ensures prev > 0.0 ==> (r > 0.0 <==> cur > prev) && (r < 0.0 <==> cur < prev)
  {
    if prev > 0.0 then
      RatioVersusOne(cur, prev);
      (cur / prev - 1.0) * 100.0
    else 0.0
  }

  lemma RatioVersusOne(a: real, b: real)
    requires b > 0.0
    ensures a / b > 1.0 <==> a > b
    ensures a / b < 1.0 <==> a < b
  {
    var q := a / b;
    assert a == q * b;
    if q > 1.0 { ScaledAbove(q, b); }
    if q < 1.0 { ScaledBelow(q, b); }
  }

  lemma ScaledAbove(q: real, b: real)
    requires q > 1.0 && b > 0.0
    ensures q * b > b
  {
    assert q * b - b == (q - 1.0) * b;
  }

  lemma ScaledBelow(q: real, b: real)
    requires q < 1.0 && b > 0.0
    ensures q * b < b
  {
    assert b - q * b == (1.0 - q) * b;
  }

  function SumInt(xs: seq<int>): int
  {
    if xs == [] then 0 else xs[0] + SumInt(xs[1..])
  }

  function SumReal(xs: seq<real>): real
  {
    if xs == [] then 0.0 else xs[0] + SumReal(xs[1..])
  }

  lemma {:induction false} SumIntAppend(a: seq<int>, b: seq<int>)
    ensures SumInt(a + b) == SumInt(a) + SumInt(b)
  {
    if a == [] {
      assert a + b == b;
    } else {
      assert (a + b)[1..] == a[1..] + b;
      SumIntAppend(a[1..], b);
    }
  }

  lemma {:induction false} SumRealAppend(a: seq<real>, b: seq<real>)
    ensures SumReal(a + b) == SumReal(a) + SumReal(b)
  {
    if a == [] {
      assert a + b == b;
    } else {
      assert (a + b)[1..] == a[1..] + b;
      SumRealAppend(a[1..], b);
    }
  }

  /** A sum of non-negative integers is non-negative. */
  lemma {:induction false} SumNatNonNeg(xs: seq<int>)
    requires forall i :: 0 <= i < |xs| ==> 0 <= xs[i]
    ensures 0 <= SumInt(xs)
  {
    if xs != [] {
      SumNatNonNeg(xs[1..]);
    }
  }

  /** A sum of non-negative reals is non-negative. */
  lemma {:induction false} SumRealNonNeg(xs: seq<real>)
    requires forall i :: 0 <= i < |xs| ==> 0.0 <= xs[i]
    ensures 0.0 <= SumReal(xs)
  {
    if xs != [] {
      SumRealNonNeg(xs[1..]);
    }
  }

  /** A non-negative sum over a suffix is at most the sum over a longer suffix. */
  lemma SumSuffixMono(xs: seq<int>, i: nat, j: nat)
    requires i <= j <= |xs|
    requires forall k :: 0 <= k < |xs| ==> 0 <= xs[k]
    ensures SumInt(xs[j..]) <= SumInt(xs[i..])
  {
    assert xs[i..] == xs[i..j] + xs[j..];
    SumIntAppend(xs[i..j], xs[j..]);
    SumNatNonNeg(xs[i..j]);
  }

  /** Arithmetic mean of integer samples (pandas `mean()`), zero for no samples. */
  function MeanInt(xs: seq<int>): real
  {
    if xs == [] then 0.0 else SumInt(xs) as real / |xs| as real
  }

  /** Mean of real samples, zero for no samples. */
  function MeanReal(xs: seq<real>): real
  {
    if xs == [] then 0.0 else SumReal(xs) / |xs| as real
  }

  /** Round to the nearest integer, ties to even (Python's `round`). */
  function RoundHalfEven(x: real): (r: int)
    ensures x - 0.5 <= r as real <= x + 0.5
    ensures (r as real - x == 0.5 || x - r as real == 0.5) ==> r % 2 == 0
  {
    var f := x.Floor;
    var d := x - f as real;
    if d < 0.5 then f
    else if d > 0.5 then f + 1
    else if f % 2 == 0 then f
    else f + 1
  }

  /** Rounding is monotone: a larger value never rounds to a smaller integer. */
  lemma RoundHalfEvenMonotone(x: real, y: real)
    requires x <= y
    ensures RoundHalfEven(x) <= RoundHalfEven(y)
  {
    var rx, ry := RoundHalfEven(x), RoundHalfEven(y);
    if x < y {
      assert (rx - ry) as real < 1.0;
    }
  }

  /** Python's `round(x, 1)`. */
  function Round1(x: real): real
  {
    RoundHalfEven(x * 10.0) as real / 10.0
  }

  /** Python's `round(x, 2)`: within half a cent of `x`. */
  function Round2(x: real): (r: real)
    ensures x - 0.005 <= r <= x + 0.005
  {
    RoundHalfEven(x * 100.0) as real / 100.0
  }

  /** Rounding to one decimal never reorders two values. */
  lemma Round1Monotone(x: real, y: real)
    requires x <= y
    ensures Round1(x) <= Round1(y)
  {
    RoundHalfEvenMonotone(x * 10.0, y * 10.0);
  }

  /** The five-tier label scheme every score family uses: cut points 70, 55, 45, 30. */
  datatype Tier = StrongPositive | Positive | Neutral | Negative | StrongNegative

  /** Ordinal of a tier: 0 for the most negative, 4 for the most positive. */
  function TierRank(t: Tier): nat
  {
    match t
    case StrongNegative => 0
    case Negative => 1
    case Neutral => 2
    case Positive => 3
    case StrongPositive => 4
  }

  function Tier5(score: int): (t: Tier)
  {
    if score >= 70 then StrongPositive
    else if score >= 55 then Positive
    else if score >= 45 then Neutral
    else if score >= 30 then Negative
    else StrongNegative
  }

  /** A higher score never lands in a lower tier. */
  lemma Tier5Monotone(a: int, b: int)
    requires a <= b
    ensures TierRank(Tier5(a)) <= TierRank(Tier5(b))
  {
  }

  /** Each tier is exactly one half-open score band. */
  lemma Tier5Bands(score: int)
    ensures Tier5(score) == StrongPositive <==> 70 <= score
    ensures Tier5(score) == Positive <==> 55 <= score < 70
    ensures Tier5(score) == Neutral <==> 45 <= score < 55
    ensures Tier5(score) == Negative <==> 30 <= score < 45
    ensures Tier5(score) == StrongNegative <==> score < 30
  {
  }
}

=== FILE: core_utils.dfy ===
/** The shared error-handling utilities (core/utils.py): a sliding-window
    rate limiter, retry with exponential backoff and jitter, and
    `safe_execute`. Clock readings, sleeps and random draws are explicit
    inputs. */
module CoreUtils {
  import opened Common

  // ---------------------------------------------------------------- rate limiter

  /** A limiter: at most `maxCalls` calls per `period` seconds; `calls` are
      the time stamps of recent calls. */
  datatype Limiter = Limiter(maxCalls: int, period: real, calls: seq<real>)

  /** The three clock readings of one `wait_if_needed`: on entry, after the
      sleep (if any), and for the recorded stamp. */
  datatype Clock = Clock(now: real, afterSleep: real, stamp: real)

  /** The time stamps younger than `period` at time `now`, in order. */
  function Prune(calls: seq<real>, now: real, period: real): (r: seq<real>)
    ensures |r| <= |calls|
    ensures forall t :: t in r <==> t in calls && now - t < period
    ensures Ascending(calls) ==> Ascending(r)
    ensures calls != [] && now - calls[0] >= period ==> |r| < |calls|
  {
    if calls == [] then []
    else
      var rest := Prune(calls[1..], now, period);
      assert forall t :: t in calls <==> t == calls[0] || t in calls[1..];
      if now - calls[0] < period then
        KeepHead(calls, rest);
        [calls[0]] + rest
      else rest
  }

  predicate Ascending(s: seq<real>)
  {
    forall i, j :: 0 <= i < j < |s| ==> s[i] <= s[j]
  }

  lemma KeepHead(calls: seq<real>, rest: seq<real>)
    requires calls != [] && forall t :: t in rest ==> t in calls[1..]
    ensures Ascending(calls) && Ascending(rest) ==> Ascending([calls[0]] + rest)
  {
    if Ascending(calls) && Ascending(rest) {
      forall t | t in rest ensures calls[0] <= t {
        var k :| 0 <= k < |calls[1..]| && calls[1..][k] == t;
        assert calls[k + 1] == t;
      }
      ConsAscending(calls[0], rest);
    }
  }

  lemma ConsAscending(x: real, s: seq<real>)
    requires Ascending(s) && forall t :: t in s ==> x <= t
    ensures Ascending([x] + s)
  {
    forall i, j | 0 <= i < j < |[x] + s| ensures ([x] + s)[i] <= ([x] + s)[j] {
      if i == 0 {
        assert s[j - 1] in s;
      }
    }
  }

  /** How long the call sleeps: until the oldest recent call leaves the
      window when the limit is reached, else not at all. */
  function SleepTime(l: Limiter, now: real): real
  {
    var recent := Prune(l.calls, now, l.period);
    if |recent| >= l.maxCalls && recent != [] && l.period - (now - recent[0]) > 0.0 then
      l.period - (now - recent[0])
    else 0.0
  }

  datatype WaitResult = Waited(limiter: Limiter, slept: real) | IndexError

  /** `wait_if_needed`: drop the stale stamps; when the limit is reached,
      sleep until the oldest one leaves the window and drop the stale
      stamps again; then record the new stamp. Reaching the limit with no
      recent call (a non-positive limit) fails on the empty list. */
  function WaitIfNeeded(l: Limiter, c: Clock): (r: WaitResult)
    ensures r.IndexError? <==> l.maxCalls <= 0 && Prune(l.calls, c.now, l.period) == []
    ensures r.Waited? ==>
              r.limiter.maxCalls == l.maxCalls && r.limiter.period == l.period
              && r.limiter.calls != [] && r.limiter.calls[|r.limiter.calls| - 1] == c.stamp
              && r.slept == SleepTime(l, c.now) && r.slept >= 0.0
              && forall t :: t in r.limiter.calls[..|r.limiter.calls| - 1] ==> t in l.calls && c.now - t < l.period
    ensures r.Waited? && c.now <= c.afterSleep ==>
              forall t :: t in l.calls && c.afterSleep - t < l.period ==> t in r.limiter.calls
    ensures r.Waited? && r.slept == 0.0 ==>
              forall t :: t in l.calls && c.now - t < l.period ==> t in r.limiter.calls
  {
    var recent := Prune(l.calls, c.now, l.period);
    if |recent| >= l.maxCalls then
      if recent == [] then IndexError
      else
        var sleep := l.period - (c.now - recent[0]);
        var kept := if sleep > 0.0 then Prune(recent, c.afterSleep, l.period) else recent;
        assert (kept + [c.stamp])[..|kept|] == kept;
        Waited(l.(calls := kept + [c.stamp]), SleepTime(l, c.now))
    else
      assert (recent + [c.stamp])[..|recent|] == recent;
      Waited(l.(calls := recent + [c.stamp]), 0.0)
  }

  /** The limiter's invariant between calls. */
  predicate Good(l: Limiter, now: real)
  {
    1 <= l.maxCalls && 0.0 < l.period && |l.calls| <= l.maxCalls
    && Ascending(l.calls) && forall t :: t in l.calls ==> t <= now
  }

  /** With a monotone clock that honours the sleep, the invariant is kept:
      the list never holds more than `maxCalls` stamps, in order, and the
      new stamp is the last. */
  lemma WaitKeepsBound(l: Limiter, c: Clock)
    requires Good(l, c.now)
    requires c.now <= c.afterSleep <= c.stamp
    requires c.afterSleep >= c.now + SleepTime(l, c.now)
    ensures WaitIfNeeded(l, c).Waited?
    ensures Good(WaitIfNeeded(l, c).limiter, c.stamp)
  {
    var recent := Prune(l.calls, c.now, l.period);
    if |recent| >= l.maxCalls {
      var sleep := l.period - (c.now - recent[0]);
      assert recent[0] in recent;
      assert sleep > 0.0;
      var kept := Prune(recent, c.afterSleep, l.period);
      assert c.afterSleep - recent[0] >= l.period;
      assert |kept| < |recent|;
      AppendAscending(kept, c.stamp);
    } else {
      AppendAscending(recent, c.stamp);
    }
  }

  /** The limiter's promise, under the same conditions: when the new call is
      recorded, fewer than `maxCalls` earlier calls lie within the last
      `period` seconds. */
  lemma WindowBelowLimit(l: Limiter, c: Clock)
    requires Good(l, c.now)
    requires c.now <= c.afterSleep <= c.stamp
    requires c.afterSleep >= c.now + SleepTime(l, c.now)
    ensures |Prune(l.calls, c.stamp, l.period)| < l.maxCalls
  {
    var recent := Prune(l.calls, c.now, l.period);
    PruneLater(l.calls, c.afterSleep, c.stamp, l.period);
    if |recent| >= l.maxCalls {
      assert recent[0] in recent;
      assert c.afterSleep - recent[0] >= l.period;
      PruneTwice(l.calls, c.now, c.afterSleep, l.period);
    } else {
      PruneLater(l.calls, c.now, c.afterSleep, l.period);
    }
  }

  /** Pruning at a later time keeps no more stamps. */
  lemma {:induction false} PruneLater(calls: seq<real>, now: real, later: real, period: real)
    requires now <= later
    ensures |Prune(calls, later, period)| <= |Prune(calls, now, period)|
  {
    if calls != [] {
      PruneLater(calls[1..], now, later, period);
    }
  }

  /** Pruning again at a later time is pruning once at that time. */
  lemma {:induction false} PruneTwice(calls: seq<real>, now: real, later: real, period: real)
    requires now <= later
    ensures Prune(Prune(calls, now, period), later, period) == Prune(calls, later, period)
  {
    if calls != [] {
      PruneTwice(calls[1..], now, later, period);
      if now - calls[0] < period {
        assert Prune(calls, now, period) == [calls[0]] + Prune(calls[1..], now, period);
        assert ([calls[0]] + Prune(calls[1..], now, period))[1..] == Prune(calls[1..], now, period);
      }
    }
  }

  lemma AppendAscending(s: seq<real>, x: real)
    requires Ascending(s) && forall t :: t in s ==> t <= x
    ensures Ascending(s + [x])
  {
    forall i, j | 0 <= i < j < |s + [x]| ensures (s + [x])[i] <= (s + [x])[j] {
      if j == |s| {
        assert s[i] in s;
      }
    }
  }

  // ---------------------------------------------------------------- retry with backoff

  /** The decorator's settings. */
  datatype RetryConfig = RetryConfig(maxRetries: int, baseDelay: real, maxDelay: real,
                                     exponentialBase: real, jitter: bool)

  function Pow(b: real, n: nat): real
  {
    if n == 0 then 1.0 else b * Pow(b, n - 1)
  }

  /** The delay before retrying after attempt `attempt` (from 0), before
      jitter: the exponential delay capped at `maxDelay`. */
  function BackoffDelay(cfg: RetryConfig, attempt: nat): (d: real)
    ensures d <= cfg.maxDelay
    ensures d == cfg.maxDelay || d == cfg.baseDelay * Pow(cfg.exponentialBase, attempt)
    ensures d < cfg.maxDelay ==> d == cfg.baseDelay * Pow(cfg.exponentialBase, attempt)
  {
    var raw := cfg.baseDelay * Pow(cfg.exponentialBase, attempt);
    if raw <= cfg.maxDelay then raw else cfg.maxDelay
  }

  /** With a non-negative base delay and a base of at least one, later
      attempts never wait less. */
  lemma BackoffMonotone(cfg: RetryConfig, a: nat, b: nat)
    requires cfg.baseDelay >= 0.0 && cfg.exponentialBase >= 1.0 && a <= b
    ensures BackoffDelay(cfg, a) <= BackoffDelay(cfg, b)
  {
    PowMonotone(cfg.exponentialBase, a, b);
    ScaleMonotone(cfg.baseDelay, Pow(cfg.exponentialBase, a), Pow(cfg.exponentialBase, b));
  }

  lemma {:induction false} PowMonotone(x: real, a: nat, b: nat)
    requires x >= 1.0 && a <= b
    ensures 1.0 <= Pow(x, a) <= Pow(x, b)
  {
    if b > a {
      PowMonotone(x, a, b - 1);
      assert Pow(x, b) == x * Pow(x, b - 1);
      ScaleMonotone(Pow(x, b - 1), 1.0, x);
    } else if a > 0 {
      PowMonotone(x, a - 1, a - 1);
      ScaleMonotone(Pow(x, a - 1), 1.0, x);
    }
  }

  lemma ScaleMonotone(k: real, p: real, q: real)
    requires k >= 0.0 && p <= q
    ensures k * p <= k * q
  {
    assert k * q - k * p == k * (q - p);
  }

  /** The delay with jitter: scaled by `0.5 + u * 0.5` for a draw `u`. */
  function Jittered(d: real, u: real): (r: real)
    requires 0.0 <= u < 1.0
    ensures d >= 0.0 ==> 0.5 * d <= r <= d
    ensures d > 0.0 ==> r < d
  {
    var f := 0.5 + u * 0.5;
    JitterBounds(d, f);
    d * f
  }

  lemma JitterBounds(d: real, f: real)
    requires 0.5 <= f < 1.0
    ensures d >= 0.0 ==> 0.5 * d <= d * f <= d
    ensures d > 0.0 ==> d * f < d
  {
    if d >= 0.0 {
      ScaleMonotone(d, 0.5, f);
      ScaleMonotone(d, f, 1.0);
    }
    if d > 0.0 {
      assert d * 1.0 - d * f == d * (1.0 - f);
      PosTimes(d, 1.0 - f);
    }
  }

  lemma PosTimes(a: real, b: real)
    requires a > 0.0 && b > 0.0
    ensures a * b > 0.0
  {
  }

  /** The sleep after a failed attempt. */
  function RetryDelay(cfg: RetryConfig, attempt: nat, u: real): (d: real)
    requires 0.0 <= u < 1.0
  {
    if cfg.jitter then Jittered(BackoffDelay(cfg, attempt), u) else BackoffDelay(cfg, attempt)
  }

  /** What one call of the wrapped function did. */
  datatype Outcome<T, E> = Value(value: T) | Raised(error: E)

  /** What the wrapper did: returned a value or let an error escape, after
      `attempts` calls and the listed sleeps. */
  datatype RetryResult<T, E> =
    | Returned(value: T, attempts: nat, delays: seq<real>)
    | Escaped(error: E, attempts: nat, delays: seq<real>)
    | NothingToRaise

  predicate Draws(draw: nat -> real, n: int)
  {
    forall a :: 0 <= a < n ==> 0.0 <= draw(a) < 1.0
  }

  /** The attempts from `attempt` on: a returned value ends the loop; an
      error that is not retryable escapes at once; a retryable error on the
      last attempt is re-raised; otherwise the wrapper sleeps and retries. */
  function RetryFrom<T, E>(cfg: RetryConfig, call: nat -> Outcome<T, E>, retryable: E -> bool,
                           draw: nat -> real, attempt: nat): (r: RetryResult<T, E>)
    requires attempt <= cfg.maxRetries && Draws(draw, cfg.maxRetries)
    decreases cfg.maxRetries - attempt
    ensures !r.NothingToRaise?
    ensures attempt < r.attempts <= cfg.maxRetries + 1
    ensures |r.delays| == r.attempts - 1 - attempt
    ensures r.Returned? ==> call(r.attempts - 1) == Value(r.value)
    ensures r.Escaped? ==> call(r.attempts - 1) == Raised(r.error)
    ensures r.Escaped? && retryable(r.error) ==> r.attempts == cfg.maxRetries + 1
    ensures forall a :: attempt <= a < r.attempts - 1 ==> call(a).Raised? && retryable(call(a).error)
    ensures forall k :: 0 <= k < |r.delays| ==> r.delays[k] == RetryDelay(cfg, attempt + k, draw(attempt + k))
  {
    match call(attempt)
    case Value(v) => Returned(v, attempt + 1, [])
    case Raised(e) =>
      if !retryable(e) || attempt == cfg.maxRetries then Escaped(e, attempt + 1, [])
      else
        var d := RetryDelay(cfg, attempt, draw(attempt));
        var rest := RetryFrom(cfg, call, retryable, draw, attempt + 1);
        match rest
        case Returned(v, n, ds) => Returned(v, n, [d] + ds)
        case Escaped(e2, n, ds) => Escaped(e2, n, [d] + ds)
  }

  /** `retry_with_backoff`'s wrapper: at most `maxRetries + 1` calls; with a
      negative `maxRetries` the function is never called and the wrapper
      fails with nothing to re-raise. */
  function Retry<T, E>(cfg: RetryConfig, call: nat -> Outcome<T, E>, retryable: E -> bool, draw: nat -> real): (r: RetryResult<T, E>)
    requires Draws(draw, cfg.maxRetries)
    ensures r.NothingToRaise? <==> cfg.maxRetries < 0
    ensures !r.NothingToRaise? ==> 1 <= r.attempts <= cfg.maxRetries + 1 && |r.delays| == r.attempts - 1
    ensures r.Returned? ==> call(r.attempts - 1) == Value(r.value)
    ensures r.Escaped? ==> call(r.attempts - 1) == Raised(r.error)
  {
    if cfg.maxRetries < 0 then NothingToRaise else RetryFrom(cfg, call, retryable, draw, 0)
  }

  /** A call that fails every time with a retryable error is made exactly
      `maxRetries + 1` times, and the last error escapes. */
  lemma AlwaysFailingExhaustsRetries<T, E>(cfg: RetryConfig, call: nat -> Outcome<T, E>, retryable: E -> bool, draw: nat -> real)
    requires cfg.maxRetries >= 0 && Draws(draw, cfg.maxRetries)
    requires forall a :: 0 <= a <= cfg.maxRetries ==> call(a).Raised? && retryable(call(a).error)
    ensures Retry(cfg, call, retryable, draw).Escaped?
    ensures Retry(cfg, call, retryable, draw).attempts == cfg.maxRetries + 1
    ensures Retry(cfg, call, retryable, draw).error == call(cfg.maxRetries).error
  {
  }

  /** Every sleep lies between half the capped backoff and the capped
      backoff itself when jitter is on (and equals it when off). */
  lemma RetryDelaysBounded<T, E>(cfg: RetryConfig, call: nat -> Outcome<T, E>, retryable: E -> bool, draw: nat -> real)
    requires cfg.maxRetries >= 0 && cfg.baseDelay >= 0.0 && cfg.maxDelay >= 0.0 && cfg.exponentialBase >= 1.0
    requires Draws(draw, cfg.maxRetries)
    ensures forall k :: 0 <= k < |Retry(cfg, call, retryable, draw).delays| ==>
              0.5 * BackoffDelay(cfg, k) <= Retry(cfg, call, retryable, draw).delays[k] <= BackoffDelay(cfg, k)
              && BackoffDelay(cfg, k) <= cfg.maxDelay
  {
    var r := Retry(cfg, call, retryable, draw);
    forall k | 0 <= k < |r.delays|
      ensures 0.5 * BackoffDelay(cfg, k) <= r.delays[k] <= BackoffDelay(cfg, k)
    {
      PowMonotone(cfg.exponentialBase, 0, k);
      ScaleMonotone(cfg.baseDelay, 0.0, Pow(cfg.exponentialBase, k));
    }
  }

  // ---------------------------------------------------------------- safe_execute

  /** `safe_execute`: the call's value, or `default` when it raised. */
  function SafeExecute<T, E>(o: Outcome<T, E>, default: T): (r: T)
    ensures o.Value? ==> r == o.value
    ensures o.Raised? ==> r == default
  {
    match o
    case Value(v) => v
    case Raised(_) => default
  }

  /** The wrapper's result as the outcome `safe_execute` sees: a value, or
      an error (`None` for the failure with nothing to re-raise). */
  function AsOutcome<T, E>(r: RetryResult<T, E>): Outcome<T, Option<E>>
  {
    match r
    case Returned(v, _, _) => Value(v)
    case Escaped(e, _, _) => Raised(Some(e))
    case NothingToRaise => Raised(None)
  }

  /** Guarding a retried call: a first call that succeeds gives its value;
      a call that always fails retryably gives the default. */
  lemma SafeRetry<T, E>(cfg: RetryConfig, call: nat -> Outcome<T, E>, retryable: E -> bool, draw: nat -> real, default: T)
    requires cfg.maxRetries >= 0 && Draws(draw, cfg.maxRetries)
    ensures call(0).Value? ==> SafeExecute(AsOutcome(Retry(cfg, call, retryable, draw)), default) == call(0).value
    ensures (forall a :: 0 <= a <= cfg.maxRetries ==> call(a).Raised? && retryable(call(a).error)) ==>
              SafeExecute(AsOutcome(Retry(cfg, call, retryable, draw)), default) == default
  {
    if forall a :: 0 <= a <= cfg.maxRetries ==> call(a).Raised? && retryable(call(a).error) {
      AlwaysFailingExhaustsRetries(cfg, call, retryable, draw);
    }
  }
}

=== FILE: economic_calendar.dfy ===
/** The economic calendar (pipeline/economic_calendar.py): events scraped for
    today plus the five standing macro events spread over the look-ahead
    window, classified by impact, de-duplicated on (event, date), optionally
    annotated by an AI model, and counted. Dates are day offsets from today. */
module EconomicCalendar {
  import opened Common
  import opened Sorting
  import opened Text

  datatype Impact = High | Medium | Low

  datatype Source = Scraped | Manual

  /** One calendar event; `day` is the offset from today in days. */
  datatype Event = Event(day: int, name: string, impact: Impact, description: string,
                         source: Source, analysis: Option<string>)

  /** A standing event: name, fixed impact and description. */
  datatype Template = Template(name: string, impact: Impact, description: string)

  const MajorEvents := [
    Template("FOMC Interest Rate Decision", High, "Federal Reserve interest rate decision and policy statement"),
    Template("Non-Farm Payrolls (NFP)", High, "US employment report - key labor market indicator"),
    Template("CPI (Consumer Price Index)", High, "Inflation data - key indicator for Fed policy"),
    Template("GDP Release", High, "Gross Domestic Product growth data"),
    Template("PCE Price Index", Medium, "Personal Consumption Expenditures - Fed's preferred inflation measure")
  ]

  const HighWords := ["fomc", "fed", "interest rate", "nfp", "non-farm payroll",
                      "cpi", "gdp", "unemployment", "inflation"]

  const MediumWords := ["retail sales", "pmi", "consumer confidence", "housing",
                        "pce", "durable goods", "trade balance"]

  /** `_determine_impact`: High when the lower-cased name contains a high
      keyword, else Medium when it contains a medium keyword, else Low. */
  function DetermineImpact(name: string, high: seq<string>, medium: seq<string>): (i: Impact)
    ensures i == High <==> ContainsAny(Lower(name), high)
    ensures i == Medium <==> !ContainsAny(Lower(name), high) && ContainsAny(Lower(name), medium)
    ensures i == Low <==> !ContainsAny(Lower(name), high) && !ContainsAny(Lower(name), medium)
  {
    var t := Lower(name);
    if ContainsAny(t, high) then High
    else if ContainsAny(t, medium) then Medium
    else Low
  }

  /** Matching ignores case: names differing only in letter case get the
      same impact. */
  lemma ImpactIgnoresCase(a: string, b: string, high: seq<string>, medium: seq<string>)
    requires Lower(a) == Lower(b)
    ensures DetermineImpact(a, high, medium) == DetermineImpact(b, high, medium)
  {
  }

  /** A name mentioning "fed" is high impact even if it also mentions a
      medium keyword such as "pce". */
  lemma HighBeatsMedium(name: string)
    requires Contains(Lower(name), "fed")
    ensures DetermineImpact(name, HighWords, MediumWords) == High
  {
    assert HighWords[1] == "fed";
  }

  /** The events scraped from the calendar page, dated today: one per
      non-empty US event name, in order. */
  function ScrapedEvents(names: seq<string>): (r: seq<Event>)
    ensures |r| == Count(names, NonEmpty)
    ensures forall k :: 0 <= k < |r| ==>
              r[k].day == 0 && r[k].source == Scraped && r[k].name != []
              && r[k].impact == DetermineImpact(r[k].name, HighWords, MediumWords)
  {
    if names == [] then []
    else
      var rest := ScrapedEvents(names[1..]);
      if names[0] == [] then rest
      else [Event(0, names[0], DetermineImpact(names[0], HighWords, MediumWords),
                  "Economic indicator release", Scraped, None)] + rest
  }

  predicate NonEmpty(s: string) { s != [] }

  /** Days between consecutive standing events: the window split evenly,
      at least one day. */
  function Spacing(daysAhead: int, n: nat): (s: int)
    requires daysAhead > 0 && n > 0
    ensures s >= 1 && (s == 1 || s * n <= daysAhead)
  {
    Max(1, daysAhead / n)
  }

  function Max(a: int, b: int): int { if a >= b then a else b }

  /** The day of the `idx`-th standing event: `idx * spacing + 1`, capped at
      the last day of the window. */
  function ManualDay(idx: nat, spacing: int, daysAhead: int): (d: int)
    requires daysAhead > 0 && spacing >= 1
    ensures 1 <= d <= daysAhead
  {
    Common.Min(idx * spacing + 1, daysAhead)
  }

  /** The days of `n` standing events: the `k`-th falls on `ManualDay(k, ..)`. */
  function ManualDays(n: nat, daysAhead: int): (ds: seq<int>)
    requires daysAhead > 0 && n > 0
    ensures |ds| == n
    ensures forall k :: 0 <= k < n ==> 1 <= ds[k] <= daysAhead
    ensures forall k, l :: 0 <= k < l < n ==> ds[k] <= ds[l]
    ensures n <= daysAhead ==> forall k, l :: 0 <= k < l < n ==> ds[k] < ds[l]
  {
    var spacing := Spacing(daysAhead, n);
    var ds := seq(n, k requires 0 <= k < n => ManualDay(k, spacing, daysAhead));
    forall k, l | 0 <= k < l < n ensures ds[k] <= ds[l] {
      DayMonotone(k, l, spacing, daysAhead);
    }
    forall k, l | 0 <= k < l < n <= daysAhead ensures ds[k] < ds[l] {
      DayStrict(k, l, n, daysAhead);
    }
    ds
  }

  lemma DayStrict(k: nat, l: nat, n: nat, d: int)
    requires k < l < n <= d
    ensures ManualDay(k, Spacing(d, n), d) < ManualDay(l, Spacing(d, n), d)
  {
    var spacing := Spacing(d, n);
    NoCap(l, n, d);
    MulLess(k, l, spacing);
  }

  /** With at least one day per event the cap never binds. */
  lemma NoCap(k: nat, n: nat, d: int)
    requires k < n <= d
    ensures k * Spacing(d, n) + 1 <= d
  {
    var q := d / n;
    DivAtLeastOne(d, n);
    MulAtMost(k, n - 1, q);
    assert (n - 1) * q == q * n - q;
  }

  lemma DivAtLeastOne(d: int, n: nat)
    requires 0 < n <= d
    ensures d / n >= 1 && (d / n) * n <= d
  {
  }

  lemma MulAtMost(a: int, b: int, q: int)
    requires a <= b && q >= 0
    ensures a * q <= b * q
  {
    assert b * q - a * q == (b - a) * q;
  }

  lemma MulLess(a: int, b: int, q: int)
    requires a < b && q >= 1
    ensures a * q < b * q
  {
    assert b * q - a * q == (b - a) * q;
  }

  lemma DayMonotone(k: nat, l: nat, spacing: int, daysAhead: int)
    requires k <= l && daysAhead > 0 && spacing >= 1
    ensures ManualDay(k, spacing, daysAhead) <= ManualDay(l, spacing, daysAhead)
  {
    assert l * spacing - k * spacing == (l - k) * spacing;
  }

  /** The standing events, spread over the window; none when the window is
      not positive or there are no templates. The in-window test of the
      source never rejects an event, as every day lies in [1, daysAhead]. */
  function ManualEvents(templates: seq<Template>, daysAhead: int): (r: seq<Event>)
    ensures daysAhead <= 0 ==> r == []
    ensures daysAhead > 0 ==> |r| == |templates|
    ensures forall k :: 0 <= k < |r| ==>
              1 <= r[k].day <= daysAhead && r[k].source == Manual && r[k].name == templates[k].name
              && r[k].impact == templates[k].impact && r[k].analysis.None?
    ensures forall k, l :: 0 <= k < l < |r| ==> r[k].day <= r[l].day
    ensures |templates| <= daysAhead ==> forall k, l :: 0 <= k < l < |r| ==> r[k].day < r[l].day
  {
    if |templates| == 0 || daysAhead <= 0 then []
    else
      var ds := ManualDays(|templates|, daysAhead);
      seq(|templates|, k requires 0 <= k < |templates| =>
        Event(ds[k], templates[k].name, templates[k].impact, templates[k].description, Manual, None))
  }

  /** The identity of an event for de-duplication. */
  function EventKey(e: Event): (string, int) { (e.name, e.day) }

  /** `get_upcoming_events`: the scraped events followed by the standing
      ones, keeping only the first event of each (event, date) pair, in
      order. The ghost `src` gives each kept event's position in that list. */
  method UpcomingEvents(scraped: seq<string>, daysAhead: int) returns (events: seq<Event>, ghost src: seq<nat>)
    ensures KeysDistinct(events, EventKey)
    ensures |events| <= Count(scraped, NonEmpty) + (if daysAhead > 0 then |MajorEvents| else 0)
    ensures forall k :: 0 <= k < |events| ==> events[k] in ScrapedEvents(scraped) + ManualEvents(MajorEvents, daysAhead)
    ensures forall e :: e in ScrapedEvents(scraped) + ManualEvents(MajorEvents, daysAhead) ==>
              HasKey(events, EventKey, EventKey(e))
    ensures forall k :: 0 <= k < |events| ==> events[k].day == 0 || 1 <= events[k].day <= daysAhead
    ensures var all := ScrapedEvents(scraped) + ManualEvents(MajorEvents, daysAhead);
            |src| == |events|
            && (forall k :: 0 <= k < |events| ==> src[k] < |all| && events[k] == all[src[k]])
            && (forall k, l :: 0 <= k < l < |events| ==> src[k] < src[l])
            && (forall k, j :: 0 <= k < |events| && 0 <= j < src[k] ==> EventKey(all[j]) != EventKey(events[k]))
  {
    var all := ScrapedEvents(scraped) + ManualEvents(MajorEvents, daysAhead);
    ghost var idx;
    events, idx := DedupBy(all, EventKey);
    src := idx;
    forall e | e in all ensures HasKey(events, EventKey, EventKey(e)) {
      var i :| 0 <= i < |all| && all[i] == e;
    }
    forall k | 0 <= k < |events| ensures events[k] in all {
      assert events[k] == all[idx[k]];
    }
  }

  /** What the AI model returned for an event's prompt: a blocked reply, a
      non-empty reply text, the texts of the first candidate's parts when
      the reply has no text, a first candidate without content parts, no
      candidates at all, or an exception with its message. */
  datatype AiReply = Blocked | Text(text: string) | Parts(parts: seq<string>) | Unstructured
                   | NoCandidates | Failed(message: string)

  /** The analysis stored for a reply. */
  function AnalysisText(reply: AiReply): string
  {
    match reply
    case Blocked => "Analysis blocked by safety filters"
    case Text(t) => Strip(t)
    case Parts(ps) => if ps == [] then "No analysis generated" else Strip(Concat(ps))
    case Unstructured => "Invalid response structure"
    case NoCandidates => "No response generated"
    case Failed(m) => "Analysis failed: " + m
  }

  /** `enrich_with_ai`: when the model cannot be used (no API key, or the
      client package is missing: `ready` is false) the events are returned
      as they are; otherwise every high-impact event gets the model's
      analysis and every other field and event is unchanged. */
  function Enrich(events: seq<Event>, ready: bool, ask: Event -> AiReply): (r: seq<Event>)
    ensures |r| == |events|
    ensures !ready ==> r == events
    ensures forall k :: 0 <= k < |r| ==>
              r[k].(analysis := events[k].analysis) == events[k]
              && (ready && events[k].impact == High ==> r[k].analysis == Some(AnalysisText(ask(events[k]))))
              && (!ready || events[k].impact != High ==> r[k] == events[k])
  {
    if !ready then events
    else
      seq(|events|, k requires 0 <= k < |events| =>
        if events[k].impact == High then events[k].(analysis := Some(AnalysisText(ask(events[k]))))
        else events[k])
  }

  predicate IsHigh(e: Event) { e.impact == High }

  datatype CalendarOutput = CalendarOutput(daysAhead: int, totalEvents: nat, highImpactCount: nat, events: seq<Event>)

  /** `run`: the counts stored with the events. */
  function Summarize(daysAhead: int, events: seq<Event>): (o: CalendarOutput)
    ensures o.events == events && o.daysAhead == daysAhead && o.totalEvents == |events|
    ensures o.highImpactCount == Count(events, IsHigh)
    ensures o.highImpactCount <= o.totalEvents
  {
    CalendarOutput(daysAhead, |events|, Count(events, IsHigh), events)
  }

  /** Enrichment never changes the counts. */
  lemma EnrichKeepsCounts(daysAhead: int, events: seq<Event>, ready: bool, ask: Event -> AiReply)
    ensures Summarize(daysAhead, Enrich(events, ready, ask)).totalEvents == |events|
    ensures Summarize(daysAhead, Enrich(events, ready, ask)).highImpactCount == Count(events, IsHigh)
  {
    var r := Enrich(events, ready, ask);
    CountPointwise(r, events);
  }

  lemma {:induction false} CountPointwise(a: seq<Event>, b: seq<Event>)
    requires |a| == |b| && forall k :: 0 <= k < |a| ==> a[k].impact == b[k].impact
    ensures Count(a, IsHigh) == Count(b, IsHigh)
  {
    if a != [] {
      CountPointwise(a[1..], b[1..]);
    }
  }
}

=== FILE: etf_flows.dfy ===
/** The ETF flow proxy (pipeline/04_etf_flows.py): for each tracked ETF, an
    On-Balance-Volume trend, a 5-day/20-day volume ratio and a 20-day price
    return are folded into a 0-100 flow score with a five-stage direction. */
module EtfFlows {
  import opened Common
  import opened Sorting
  import opened Indicators

  /** One daily bar of an ETF's history. */
  datatype Bar = Bar(date: int, close: Close, volume: nat)

  /** The name and category of a tracked ETF. */
  datatype EtfInfo = EtfInfo(name: string, category: string)

  /** One output row. */
  datatype FlowRecord = FlowRecord(
    ticker: string, name: string, category: string, price: real,
    priceChange20: real, obvChange20: real, volRatio: real, score: int, direction: Tier)

  /** The ETF analysis needs at least this many bars. */
  const MinBars := 30

  /** Points for the 20-day OBV change: +20 above 10%, +10 above 5%, -20
      below -10%, -10 below -5%. */
  function ObvPoints(change: real): (p: int)
    ensures p > 0 <==> change > 5.0
    ensures p < 0 <==> change < -5.0
    ensures p == 20 <==> change > 10.0
    ensures p == -20 <==> change < -10.0
  {
    if change > 10.0 then 20 else if change > 5.0 then 10
    else if change < -10.0 then -20 else if change < -5.0 then -10 else 0
  }

  /** Points for the volume ratio: +10 above 1.5, +5 above 1.2, -5 below 0.7. */
  function ActivityPoints(ratio: real): (p: int)
    ensures p > 0 <==> ratio > 1.2
    ensures p < 0 <==> ratio < 0.7
  {
    if ratio > 1.5 then 10 else if ratio > 1.2 then 5 else if ratio < 0.7 then -5 else 0
  }

  /** Momentum points: +10 when the price rose more than 5% with rising OBV,
      -10 when it fell more than 5% with falling OBV, nothing when the price
      move and the OBV change disagree. */
  function MomentumPoints(priceReturn: real, obvChange: real): (p: int)
    ensures p == 10 <==> priceReturn > 5.0 && obvChange > 0.0
    ensures p == -10 <==> priceReturn < -5.0 && obvChange < 0.0
    ensures p != 0 ==> (priceReturn > 0.0 <==> obvChange > 0.0)
  {
    if priceReturn > 5.0 && obvChange > 0.0 then 10
    else if priceReturn < -5.0 && obvChange < 0.0 then -10
    else 0
  }

  /** The flow score: 50 plus the three contributions, clamped to [0, 100];
      the contributions keep it within [15, 90], so the clamp never binds. */
  function FlowScore(obvChange: real, ratio: real, priceReturn: real): (s: int)
    ensures 15 <= s <= 90
  {
    Clamp(50 + ObvPoints(obvChange) + ActivityPoints(ratio) + MomentumPoints(priceReturn, obvChange), 0, 100)
  }

  /** Stronger OBV growth, heavier activity and a stronger price move (with
      the OBV change keeping its sign) never lower the flow score. */
  lemma FlowScoreMonotone(o1: real, r1: real, p1: real, o2: real, r2: real, p2: real)
    requires o1 <= o2 && r1 <= r2 && p1 <= p2
    requires o1 > 0.0 <==> o2 > 0.0
    requires o1 < 0.0 <==> o2 < 0.0
    ensures FlowScore(o1, r1, p1) <= FlowScore(o2, r2, p2)
  {
    assert ObvPoints(o1) <= ObvPoints(o2);
    assert ActivityPoints(r1) <= ActivityPoints(r2);
    assert MomentumPoints(p1, o1) <= MomentumPoints(p2, o2);
  }

  /** Direction label of a flow tier. */
  function DirectionName(t: Tier): string
  {
    match t
    case StrongPositive => "Strong Inflow"
    case Positive => "Inflow"
    case Neutral => "Neutral"
    case Negative => "Outflow"
    case StrongNegative => "Strong Outflow"
  }

  function BarKey(b: Bar): real { -(b.date as real) }

  function BarCloses(bars: seq<Bar>): (r: seq<real>)
    ensures |r| == |bars| && forall i :: 0 <= i < |bars| ==> r[i] == bars[i].close as real && r[i] > 0.0
  {
    seq(|bars|, i requires 0 <= i < |bars| => bars[i].close as real)
  }

  function BarVolumes(bars: seq<Bar>): (r: seq<int>)
    ensures |r| == |bars| && forall i :: 0 <= i < |bars| ==> r[i] == bars[i].volume && r[i] >= 0
  {
    seq(|bars|, i requires 0 <= i < |bars| => bars[i].volume as int)
  }

  /** The OBV series of the bars, as reals. */
  function BarObv(bars: seq<Bar>): (r: seq<real>)
    ensures |r| == |bars|
    ensures forall i :: 0 <= i < |bars| ==> r[i] == ObvAt(BarCloses(bars), BarVolumes(bars), i) as real
  {
    seq(|bars|, i requires 0 <= i < |bars| => ObvAt(BarCloses(bars), BarVolumes(bars), i) as real)
  }

  /** Percent return from the close 20 bars back (`iloc[-20]`) to the last close. */
  function Return20(closes: seq<real>): (r: real)
    requires |closes| >= 20 && closes[|closes| - 20] > 0.0
    ensures r > 0.0 <==> closes[|closes| - 1] > closes[|closes| - 20]
    ensures r < 0.0 <==> closes[|closes| - 1] < closes[|closes| - 20]
  {
    var base := closes[|closes| - 20];
    DivVersusOne(closes[|closes| - 1], base);
    (closes[|closes| - 1] / base - 1.0) * 100.0
  }

  /** Dividing by a positive number compares the numerator with it. */
  lemma DivVersusOne(a: real, b: real)
    requires b > 0.0
    ensures a / b > 1.0 <==> a > b
    ensures a / b < 1.0 <==> a < b
  {
    var q := a / b;
    assert a - b == (q - 1.0) * b;
    if q > 1.0 { PositiveProduct(q - 1.0, b); }
    if q < 1.0 { PositiveProduct(1.0 - q, b); }
    if a > b && q <= 1.0 { PositiveProduct(b - a, 1.0); NonNegativeProduct(1.0 - q, b); }
    if a < b && q >= 1.0 { NonNegativeProduct(q - 1.0, b); }
  }

  lemma PositiveProduct(x: real, y: real)
    requires x > 0.0 && y > 0.0
    ensures x * y > 0.0
  {
  }

  lemma NonNegativeProduct(x: real, y: real)
    requires x >= 0.0 && y >= 0.0
    ensures x * y >= 0.0
  {
  }

  /** `calculate_flow_proxy`: `None` for fewer than 30 bars; otherwise the
      bars are put in date order and scored. The OBV change is 0 when the OBV
      20 bars back is 0; the volume ratio is 1 when the 20-day mean volume is
      not positive. */
  function FlowProxy(ticker: string, info: EtfInfo, bars: seq<Bar>): (r: Option<FlowRecord>)
    ensures r.None? <==> |bars| < MinBars
    ensures r.Some? ==> r.value.ticker == ticker && r.value.name == info.name
                        && 15 <= r.value.score <= 90 && r.value.direction == Tier5(r.value.score)
    ensures r.Some? ==> r.value.category == info.category
                        && r.value.score == FlowScore(r.value.obvChange20, r.value.volRatio, r.value.priceChange20)
  {
    if |bars| < MinBars then None
    else
      var s := SortDesc(bars, BarKey);
      var closes := BarCloses(s);
      var obvChange := Change20(BarObv(s));
      var ratio := VolumeRatio(BarVolumes(s));
      var ret := Return20(closes);
      var score := FlowScore(obvChange, ratio, ret);
      Some(FlowRecord(ticker, info.name, info.category, closes[|closes| - 1], ret, obvChange, ratio,
                      score, Tier5(score)))
  }

  /** With a flat OBV the momentum term stays out of the score however far
      the price moved. */
  lemma FlatObvNoMomentum(o: real, ratio: real, ret: real)
    requires o == 0.0
    ensures FlowScore(o, ratio, ret) == 50 + ActivityPoints(ratio)
  {
  }

  /** One ETF of the loop: skipped (`None`) when its history could not be
      fetched or is too short. */
  function FlowFor(history: string -> Option<seq<Bar>>, e: (string, EtfInfo)): (r: Option<FlowRecord>)
    ensures r.Some? <==> history(e.0).Some? && |history(e.0).value| >= MinBars
    ensures r.Some? ==> r.value.ticker == e.0 && 15 <= r.value.score <= 90
  {
    var h := history(e.0);
    if h.Some? then FlowProxy(e.0, e.1, h.value) else None
  }

  /** The per-ETF step of the loop, as a function value. */
  function FlowStep(history: string -> Option<seq<Bar>>): ((string, EtfInfo)) -> Option<FlowRecord>
  {
    e => FlowFor(history, e)
  }

  /** The analysis loop over the tracked ETFs, in list order: an ETF whose
      history could not be fetched or has fewer than 30 bars is skipped;
      every other one yields its record. */
  function RunFlows(etfs: seq<(string, EtfInfo)>, history: string -> Option<seq<Bar>>): (out: seq<FlowRecord>)
    ensures |out| == Count(etfs, Defined(FlowStep(history)))
    ensures forall k :: 0 <= k < |out| ==>
              15 <= out[k].score <= 90 && exists i :: 0 <= i < |etfs| && out[k].ticker == etfs[i].0
    ensures |out| == |Filter(etfs, Defined(FlowStep(history)))|
    ensures forall k :: 0 <= k < |out| ==> Some(out[k]) == FlowFor(history, Filter(etfs, Defined(FlowStep(history)))[k])
  {
    var step := FlowStep(history);
    var out := FilterMap(etfs, step);
    FilterMapAligned(etfs, step);
    FlowsOfListedEtfs(etfs, history, out);
    out
  }

  /** Every record of the loop is scored and names a listed ETF. */
  lemma FlowsOfListedEtfs(etfs: seq<(string, EtfInfo)>, history: string -> Option<seq<Bar>>, out: seq<FlowRecord>)
    requires forall k :: 0 <= k < |out| ==> exists i :: 0 <= i < |etfs| && FlowStep(history)(etfs[i]) == Some(out[k])
    ensures forall k :: 0 <= k < |out| ==>
              15 <= out[k].score <= 90 && exists i :: 0 <= i < |etfs| && out[k].ticker == etfs[i].0
  {
    forall k | 0 <= k < |out| ensures 15 <= out[k].score <= 90 && exists i :: 0 <= i < |etfs| && out[k].ticker == etfs[i].0 {
      var i :| 0 <= i < |etfs| && FlowStep(history)(etfs[i]) == Some(out[k]);
      assert FlowFor(history, etfs[i]) == Some(out[k]);
    }
  }
}

=== FILE: final_report.dfy ===
/** The final report (pipeline/final_report_generator.py): a keyword scan of
    each ticker's AI summary gives an AI score and a recommendation, which is
    blended 80/20 with the quantitative composite into a final score; the
    picks are sorted by final score, cut to the top N and ranked. */
module FinalReport {
  import opened Common
  import opened Sorting
  import opened Text

  datatype Recommendation = StrongBuy | Buy | Sell | Hold

  /** The keyword lists of the scan. */
  datatype Vocabulary = Vocabulary(strongBuy: seq<string>, buy: seq<string>, sell: seq<string>,
                                   positive: seq<string>, negative: seq<string>)

  /** The lists the report uses, English and Korean. */
  const ReportVocabulary := Vocabulary(
    ["strong buy", "적극 매수", "aggressive", "high conviction"],
    ["buy", "매수", "purchase", "acquisition"],
    ["sell", "매도", "avoid", "caution", "risk"],
    ["opportunity", "growth", "upside", "potential", "기회", "성장", "상승", "잠재력"],
    ["risk", "concern", "decline", "downside", "리스크", "우려", "하락", "약세"])

  /** The placeholders the report skips as written: the empty summary and
      the exact texts "API Key Missing" and "Analysis Failed". */
  predicate PlaceholderAsWritten(summary: string)
  {
    summary == "" || summary == "API Key Missing" || summary == "Analysis Failed"
  }

  /** The failure text the summary generator writes begins with this. */
  const FailurePrefix := "Analysis Failed"

  /** Summaries that are not scanned: the placeholders, and every failure
      text of the summary generator (which appends the error message to
      the prefix, so the exact-text test alone never matches it). */
  predicate Unscanned(summary: string)
  {
    PlaceholderAsWritten(summary) || IsFailureText(summary)
  }

  /** A text that begins with the failure prefix. */
  predicate IsFailureText(summary: string)
  {
    |summary| >= |FailurePrefix| && summary[..|FailurePrefix|] == FailurePrefix
  }

  /** The recommendation from the keyword lists, tested in order: strong-buy
      keywords first, then buy, then sell. */
  function Signal(text: string, v: Vocabulary): (r: Recommendation)
    ensures r == StrongBuy <==> ContainsAny(text, v.strongBuy)
    ensures r == Buy <==> !ContainsAny(text, v.strongBuy) && ContainsAny(text, v.buy)
    ensures r == Sell <==> !ContainsAny(text, v.strongBuy) && !ContainsAny(text, v.buy)
                           && ContainsAny(text, v.sell)
  {
    if ContainsAny(text, v.strongBuy) then StrongBuy
    else if ContainsAny(text, v.buy) then Buy
    else if ContainsAny(text, v.sell) then Sell
    else Hold
  }

  /** Base AI points of a recommendation. */
  function SignalPoints(r: Recommendation): int
  {
    match r
    case StrongBuy => 20
    case Buy => 10
    case Sell => -10
    case Hold => 0
  }

  /** +5 when more distinct positive words than negative ones are present,
      -5 for the reverse, 0 on a tie. */
  function SentimentAdjustment(positive: nat, negative: nat): (a: int)
    ensures a == 5 <==> positive > negative
    ensures a == -5 <==> negative > positive
    ensures a == 0 <==> positive == negative
  {
    if positive > negative then 5 else if negative > positive then -5 else 0
  }

  /** The values an AI score can take. */
  predicate IsAiScore(s: int)
  {
    -15 <= s <= 25 && s % 5 == 0
  }

  /** The keyword scan of a summary: the recommendation's points plus the
      sentiment adjustment, both computed on the lower-cased text. The
      final clamp to [-20, 25] never binds. */
  function Scan(summary: string, v: Vocabulary): (r: (int, Recommendation))
    ensures IsAiScore(r.0)
    ensures r.1 == Signal(Lower(summary), v) && -5 <= r.0 - SignalPoints(r.1) <= 5
    ensures r.0 > SignalPoints(r.1) ==>
              CountPresent(Lower(summary), v.positive) > CountPresent(Lower(summary), v.negative)
    ensures r.0 < SignalPoints(r.1) ==>
              CountPresent(Lower(summary), v.negative) > CountPresent(Lower(summary), v.positive)
  {
    var text := Lower(summary);
    var rec := Signal(text, v);
    var adj := SentimentAdjustment(CountPresent(text, v.positive), CountPresent(text, v.negative));
    (Clamp(SignalPoints(rec) + adj, -20, 25), rec)
  }

  /** `calculate_ai_score` as written: only the exact placeholders are
      skipped. */
  function AiScoreAsWritten(summary: string, v: Vocabulary): (r: (int, Recommendation))
    ensures PlaceholderAsWritten(summary) ==> r == (0, Hold)
    ensures !PlaceholderAsWritten(summary) ==> r == Scan(summary, v)
  {
    if PlaceholderAsWritten(summary) then (0, Hold) else Scan(summary, v)
  }

  /** `calculate_ai_score` with generator failures skipped: `(0, Hold)` for
      an unscanned summary, else the keyword scan. */
  function AiScore(summary: string, v: Vocabulary): (r: (int, Recommendation))
    ensures Unscanned(summary) ==> r == (0, Hold)
    ensures IsAiScore(r.0)
    ensures !Unscanned(summary) ==> r.1 == Signal(Lower(summary), v)
                                    && -5 <= r.0 - SignalPoints(r.1) <= 5
    ensures r.0 > SignalPoints(r.1) ==>
              CountPresent(Lower(summary), v.positive) > CountPresent(Lower(summary), v.negative)
    ensures r.0 < SignalPoints(r.1) ==>
              CountPresent(Lower(summary), v.negative) > CountPresent(Lower(summary), v.positive)
  {
    if Unscanned(summary) then (0, Hold) else Scan(summary, v)
  }

  /** The two agree on every summary that is not a generator failure text. */
  lemma AiScoreAgreesOffFailures(summary: string, v: Vocabulary)
    requires !IsFailureText(summary)
    ensures AiScore(summary, v) == AiScoreAsWritten(summary, v)
  {
  }

  /** A summary mentioning "strong buy" is a strong buy even though it also
      mentions "buy", and scores 15, 20 or 25. */
  lemma StrongBuyTakesPrecedence(summary: string)
    requires !Unscanned(summary) && Contains(Lower(summary), "strong buy")
    ensures AiScore(summary, ReportVocabulary).1 == StrongBuy
    ensures 15 <= AiScore(summary, ReportVocabulary).0 <= 25
  {
    assert ReportVocabulary.strongBuy[0] == "strong buy";
  }

  /** A summary with none of the keywords and none of the sentiment words is
      a neutral hold. */
  lemma QuietSummaryIsHold(summary: string, v: Vocabulary)
    requires !ContainsAny(Lower(summary), v.strongBuy + v.buy + v.sell)
    requires !ContainsAny(Lower(summary), v.positive) && !ContainsAny(Lower(summary), v.negative)
    ensures AiScore(summary, v) == (0, Hold)
  {
    var t := Lower(summary);
    var all := v.strongBuy + v.buy + v.sell;
    forall k | k in v.strongBuy ensures !Contains(t, k) {
      assert k in all;
    }
    forall k | k in v.buy ensures !Contains(t, k) {
      assert k in all;
    }
    forall k | k in v.sell ensures !Contains(t, k) {
      assert k in all;
    }
  }

  /** The AI contribution scaled into [-20, 20]: positive scores by 20/25,
      non-positive ones by 20/20. */
  function AiWeighted(ai: int): (w: real)
    ensures -20 <= ai <= 25 ==> -20.0 <= w <= 20.0
    ensures w > 0.0 <==> ai > 0
    ensures w == 0.0 <==> ai == 0
  {
    if ai > 0 then ai as real / 25.0 * 20.0 else ai as real / 20.0 * 20.0
  }

  /** A larger AI score never gives a smaller weighted contribution. */
  lemma AiWeightedMonotone(a: int, b: int)
    requires a <= b
    ensures AiWeighted(a) <= AiWeighted(b)
  {
  }

  /** The final score: 80% of the quantitative composite plus the weighted AI
      contribution, clamped to [0, 100]. */
  function FinalScore(quant: real, ai: int): (f: real)
    ensures 0.0 <= f <= 100.0
    ensures ai == 0 && 0.0 <= quant <= 125.0 ==> f == quant * 0.8
  {
    ClampReal(quant * 0.8 + AiWeighted(ai), 0.0, 100.0)
  }

  /** The final score is monotone in both the composite and the AI score. */
  lemma FinalScoreMonotone(q1: real, a1: int, q2: real, a2: int)
    requires q1 <= q2 && a1 <= a2
    ensures FinalScore(q1, a1) <= FinalScore(q2, a2)
  {
    AiWeightedMonotone(a1, a2);
  }

  /** Rounding to one decimal keeps a value within [0, 100]. */
  lemma Round1Percent(x: real)
    requires 0.0 <= x <= 100.0
    ensures 0.0 <= Round1(x) <= 100.0
  {
    Round1Monotone(0.0, x);
    Round1Monotone(x, 100.0);
    assert RoundHalfEven(1000.0) == 1000;
  }

  /** One row of the screener's output as read back: `None` is an absent column. */
  datatype QuantRow = QuantRow(ticker: string, name: Option<string>, composite: Option<real>)

  /** One stored AI summary: `None` is an absent key. */
  datatype SummaryEntry = SummaryEntry(summary: Option<string>, summaryKo: Option<string>)

  /** One pick of the report. */
  datatype Pick = Pick(ticker: string, name: string, finalScore: real, quantScore: real,
                       aiScore: int, recommendation: Recommendation, summary: string)

  /** The summary used for a ticker: its `summary`, else its `summary_ko`,
      else empty when the ticker has no entry. */
  function SummaryFor(ai: map<string, SummaryEntry>, ticker: string): (s: string)
    ensures ticker !in ai ==> s == ""
    ensures ticker in ai && ai[ticker].summary.Some? && ai[ticker].summary.value != "" ==>
              s == ai[ticker].summary.value
  {
    if ticker in ai then NonEmptyOr(ai[ticker].summary, GetOr(ai[ticker].summaryKo, "")) else ""
  }

  /** Which AI scorer a report uses: `calculate_ai_score` as written, or the
      corrected one that also skips generator failure texts. */
  datatype Scorer = AsWritten | Corrected

  function ScoreWith(scorer: Scorer, summary: string): (int, Recommendation)
  {
    match scorer
    case AsWritten => AiScoreAsWritten(summary, ReportVocabulary)
    case Corrected => AiScore(summary, ReportVocabulary)
  }

  /** Build the pick of one row; a missing composite counts as 0 and a
      missing name as the ticker. */
  function MakePick(ai: map<string, SummaryEntry>, row: QuantRow, scorer: Scorer): (p: Pick)
    ensures p.ticker == row.ticker && p.name == GetOr(row.name, row.ticker)
    ensures p.summary == SummaryFor(ai, row.ticker) && p.quantScore == Round1(GetOr(row.composite, 0.0))
    ensures 0.0 <= p.finalScore <= 100.0 && IsAiScore(p.aiScore)
    ensures p.finalScore == Round1(FinalScore(GetOr(row.composite, 0.0), p.aiScore))
    ensures scorer == AsWritten ==>
              (p.aiScore, p.recommendation) == AiScoreAsWritten(SummaryFor(ai, row.ticker), ReportVocabulary)
    ensures scorer == Corrected ==>
              (p.aiScore, p.recommendation) == AiScore(SummaryFor(ai, row.ticker), ReportVocabulary)
    ensures row.ticker !in ai ==> p.aiScore == 0 && p.recommendation == Hold
  {
    var summary := SummaryFor(ai, row.ticker);
    var s := ScoreWith(scorer, summary);
    var quant := GetOr(row.composite, 0.0);
    var f := FinalScore(quant, s.0);
    Round1Percent(f);
    Pick(row.ticker, GetOr(row.name, row.ticker), Round1(f), Round1(quant), s.0, s.1, summary)
  }

  function MakePicks(ai: map<string, SummaryEntry>, rows: seq<QuantRow>, scorer: Scorer): (ps: seq<Pick>)
    ensures |ps| == |rows| && forall i :: 0 <= i < |rows| ==> ps[i] == MakePick(ai, rows[i], scorer)
  {
    seq(|rows|, i requires 0 <= i < |rows| => MakePick(ai, rows[i], scorer))
  }

  /** The two scorers build the same pick for a ticker whose summary is not
      a generator failure text. */
  lemma PickAgreesOffFailures(ai: map<string, SummaryEntry>, row: QuantRow)
    requires !IsFailureText(SummaryFor(ai, row.ticker))
    ensures MakePick(ai, row, AsWritten) == MakePick(ai, row, Corrected)
  {
    AiScoreAgreesOffFailures(SummaryFor(ai, row.ticker), ReportVocabulary);
  }

  /** The two reports coincide when no loaded ticker's summary is a
      generator failure text. */
  lemma ReportAgreesOffFailures(rows: seq<QuantRow>, ai: map<string, SummaryEntry>, topN: int)
    requires forall row :: row in rows ==> !IsFailureText(SummaryFor(ai, row.ticker))
    ensures GenerateReport(rows, ai, topN, AsWritten) == GenerateReport(rows, ai, topN, Corrected)
  {
    var loaded := LoadQuant(rows);
    var a := MakePicks(ai, loaded, AsWritten);
    var b := MakePicks(ai, loaded, Corrected);
    forall i | 0 <= i < |loaded| ensures a[i] == b[i] {
      assert loaded[i] in multiset(rows);
      PickAgreesOffFailures(ai, loaded[i]);
    }
    assert a == b;
  }

  function CompositeKey(r: QuantRow): real { GetOr(r.composite, 0.0) }

  function FinalKey(p: Pick): real { p.finalScore }

  /** `load_quant_data`: the screener's rows ordered by composite, highest first. */
  function LoadQuant(rows: seq<QuantRow>): (r: seq<QuantRow>)
    ensures multiset(r) == multiset(rows)
    ensures forall i, j :: 0 <= i < j < |r| ==> CompositeKey(r[i]) >= CompositeKey(r[j])
  {
    SortDesc(rows, CompositeKey)
  }

  /** `generate_report`: build the pick of every loaded row, sort by rounded
      final score (highest first), keep the first `topN` (Python slice
      semantics, so a negative `topN` drops from the end) and rank them 1..n.
      `AsWritten` is the report the program produces; `Corrected` the one
      that leaves generator failure texts unscored. */
  function GenerateReport(rows: seq<QuantRow>, ai: map<string, SummaryEntry>, topN: int, scorer: Scorer): (r: seq<Ranked<Pick>>)
    ensures |r| == |Head(rows, topN)|
    ensures forall i :: 0 <= i < |r| ==> r[i].rank == i + 1
    ensures forall i, j :: 0 <= i < j < |r| ==> r[i].item.finalScore >= r[j].item.finalScore
    ensures multiset(Items(r)) <= multiset(MakePicks(ai, LoadQuant(rows), scorer))
    ensures forall p, i :: p in multiset(MakePicks(ai, LoadQuant(rows), scorer)) - multiset(Items(r)) && 0 <= i < |r| ==>
              p.finalScore <= r[i].item.finalScore
  {
    var picks := MakePicks(ai, LoadQuant(rows), scorer);
    var r := RankTop(picks, FinalKey, topN);
    SameHeadLength(picks, rows, topN);
    RankedByFinal(picks, r);
    r
  }

  lemma SameHeadLength<S, T>(a: seq<S>, b: seq<T>, n: int)
    requires |a| == |b|
    ensures |Head(a, n)| == |Head(b, n)|
  {
  }

  /** A ranked slice of the picks sorted by final score, read on the picks themselves. */
  lemma RankedByFinal(picks: seq<Pick>, r: seq<Ranked<Pick>>)
    requires SortedDesc(Items(r), FinalKey)
    requires forall p, i :: p in multiset(picks) - multiset(Items(r)) && 0 <= i < |r| ==> FinalKey(p) <= FinalKey(r[i].item)
    ensures forall i, j :: 0 <= i < j < |r| ==> r[i].item.finalScore >= r[j].item.finalScore
    ensures forall p, i :: p in multiset(picks) - multiset(Items(r)) && 0 <= i < |r| ==> p.finalScore <= r[i].item.finalScore
  {
    forall i, j | 0 <= i < j < |r| ensures r[i].item.finalScore >= r[j].item.finalScore {
      assert FinalKey(Items(r)[i]) >= FinalKey(Items(r)[j]);
    }
  }

  /** Every pick in the report is the pick of one of the input rows. */
  lemma ReportPicksComeFromRows(rows: seq<QuantRow>, ai: map<string, SummaryEntry>, topN: int, scorer: Scorer, k: nat)
    requires k < |GenerateReport(rows, ai, topN, scorer)|
    ensures exists row :: row in rows && GenerateReport(rows, ai, topN, scorer)[k].item == MakePick(ai, row, scorer)
  {
    var r := GenerateReport(rows, ai, topN, scorer);
    var x := r[k].item;
    assert x == Items(r)[k];
    PickFromRow(rows, LoadQuant(rows), MakePicks(ai, LoadQuant(rows), scorer), ai, scorer, x);
  }

  /** A pick built from a reordering of the rows is the pick of one of them. */
  lemma PickFromRow(rows: seq<QuantRow>, loaded: seq<QuantRow>, picks: seq<Pick>, ai: map<string, SummaryEntry>,
                    scorer: Scorer, x: Pick)
    requires multiset(loaded) == multiset(rows)
    requires |picks| == |loaded| && forall i :: 0 <= i < |loaded| ==> picks[i] == MakePick(ai, loaded[i], scorer)
    requires x in multiset(picks)
    ensures exists row :: row in rows && x == MakePick(ai, row, scorer)
  {
    var i :| 0 <= i < |picks| && picks[i] == x;
    assert loaded[i] in multiset(rows);
  }
}

=== FILE: indicators.dfy ===
/** Price/volume indicators shared by the volume analyzer and the ETF flow
    analyzer: On-Balance Volume, the Accumulation/Distribution line, the
    Money Flow Index, 20-period percent changes, the 5-day/20-day volume
    ratio and volume-surge counts. */
module Indicators {
  import opened Common

  /** One OBV step: add the volume on an up close, subtract it on a down
      close, nothing on an unchanged close. */
  function ObvStep(closes: seq<real>, vols: seq<int>, i: nat): int
    requires 1 <= i < |closes| == |vols|
  {
    if closes[i] > closes[i - 1] then vols[i]
    else if closes[i] < closes[i - 1] then -vols[i]
    else 0
  }

  /** On-Balance Volume at day `i`: the signed volumes of days 1..i summed. */
  function ObvAt(closes: seq<real>, vols: seq<int>, i: nat): int
    requires i < |closes| == |vols|
  {
    if i == 0 then 0 else ObvAt(closes, vols, i - 1) + ObvStep(closes, vols, i)
  }

  /** The OBV loop: starts at 0 and appends one signed step per day. (The
      series is seeded with `[0]`, so an empty frame is not a valid input.) */
  method Obv(closes: seq<real>, vols: seq<int>) returns (obv: seq<int>)
    requires |closes| == |vols| >= 1
    ensures |obv| == |closes|
    ensures forall i :: 0 <= i < |obv| ==> obv[i] == ObvAt(closes, vols, i)
  {
    obv := [0];
    for i := 1 to |closes|
      invariant |obv| == i
      invariant forall k :: 0 <= k < i ==> obv[k] == ObvAt(closes, vols, k)
    {
      var step := ObvStep(closes, vols, i);
      obv := obv + [obv[i - 1] + step];
    }
  }

  /** With non-negative volumes, OBV never moves further from 0 than the
      total volume traded since the first day. */
  lemma {:induction false} ObvBounded(closes: seq<real>, vols: seq<int>, i: nat)
    requires i < |closes| == |vols|
    requires forall k :: 0 <= k < |vols| ==> vols[k] >= 0
    ensures -SumInt(vols[1..i + 1]) <= ObvAt(closes, vols, i) <= SumInt(vols[1..i + 1])
  {
    if i > 0 {
      ObvBounded(closes, vols, i - 1);
      assert vols[1..i + 1] == vols[1..i] + [vols[i]];
      SumIntAppend(vols[1..i], [vols[i]]);
      assert SumInt([vols[i]]) == vols[i];
    } else {
      assert vols[1..1] == [];
    }
  }

  /** On strictly rising closes OBV is the cumulative volume. */
  lemma {:induction false} ObvAllUp(closes: seq<real>, vols: seq<int>, i: nat)
    requires i < |closes| == |vols|
    requires forall k :: 1 <= k < |closes| ==> closes[k] > closes[k - 1]
    ensures ObvAt(closes, vols, i) == SumInt(vols[1..i + 1])
  {
    if i > 0 {
      ObvAllUp(closes, vols, i - 1);
      assert vols[1..i + 1] == vols[1..i] + [vols[i]];
      SumIntAppend(vols[1..i], [vols[i]]);
      assert SumInt([vols[i]]) == vols[i];
    } else {
      assert vols[1..1] == [];
    }
  }

  /** Percent change over the last 20 periods, `(s[-1] - s[-20]) / |s[-20]| * 100`,
      defined as 0 when the series is shorter than 20 or `s[-20]` is 0. */
  function Change20(s: seq<real>): (r: real)
    ensures |s| < 20 || s[|s| - 20] == 0.0 ==> r == 0.0
    ensures |s| >= 20 && s[|s| - 20] != 0.0 ==>
              (r > 0.0 <==> s[|s| - 1] > s[|s| - 20]) && (r < 0.0 <==> s[|s| - 1] < s[|s| - 20])
  {
    if |s| >= 20 && s[|s| - 20] != 0.0 then
      var base := s[|s| - 20];
      var mag := if base < 0.0 then -base else base;
      (s[|s| - 1] - base) / mag * 100.0
    else 0.0
  }

  function IntsToReals(xs: seq<int>): (r: seq<real>)
    ensures |r| == |xs| && forall i :: 0 <= i < |xs| ==> r[i] == xs[i] as real
  {
    seq(|xs|, i requires 0 <= i < |xs| => xs[i] as real)
  }

  /** The A/D denominator `high - low`, with 0.0001 substituted for a zero range. */
  function AdRange(high: real, low: real): (r: real)
    ensures r != 0.0
    ensures high != low ==> r == high - low
  {
    if high - low == 0.0 then 0.0001 else high - low
  }

  /** Close Location Value `((c - l) - (h - c)) / range`. */
  function Clv(high: real, low: real, close: real): real
  {
    ((close - low) - (high - close)) / AdRange(high, low)
  }

  /** Inside a proper bar the close location lies in [-1, 1]; on a bar with
      no range and the close on it, it is 0. */
  lemma ClvBounds(high: real, low: real, close: real)
    ensures low < high && low <= close <= high ==> -1.0 <= Clv(high, low, close) <= 1.0
    ensures low == high == close ==> Clv(high, low, close) == 0.0
  {
    if low < high && low <= close <= high {
      var d := high - low;
      assert Clv(high, low, close) == (2.0 * close - high - low) / d;
      assert -d <= 2.0 * close - high - low <= d;
      DivBounds(2.0 * close - high - low, d);
    }
  }

  lemma DivBounds(n: real, d: real)
    requires d > 0.0 && -d <= n <= d
    ensures -1.0 <= n / d <= 1.0
  {
  }

  /** Running sum (`cumsum`): `r[i]` is the sum of the first `i + 1` items. */
  method CumSum(xs: seq<real>) returns (r: seq<real>)
    ensures |r| == |xs|
    ensures forall i :: 0 <= i < |r| ==> r[i] == SumReal(xs[..i + 1])
  {
    r := [];
    var acc := 0.0;
    for i := 0 to |xs|
      invariant |r| == i
      invariant acc == SumReal(xs[..i])
      invariant forall k :: 0 <= k < i ==> r[k] == SumReal(xs[..k + 1])
    {
      assert xs[..i + 1] == xs[..i] + [xs[i]];
      SumRealAppend(xs[..i], [xs[i]]);
      acc := acc + xs[i];
      r := r + [acc];
    }
  }

  /** The oscillator form shared by MFI and RSI, `100 - 100 / (1 + up / down)`,
      from non-negative upward and downward totals, with 0.0001 substituted
      for a zero downward total. */
  function StrengthIndex(pos: real, neg: real): (r: real)
    requires pos >= 0.0 && neg >= 0.0
    ensures 0.0 <= r < 100.0
    ensures r == 0.0 <==> pos == 0.0
  {
    var denom := if neg == 0.0 then 0.0001 else neg;
    StrengthIndexBounds(pos, denom);
    100.0 - 100.0 / (1.0 + pos / denom)
  }

  lemma StrengthIndexBounds(pos: real, denom: real)
    requires pos >= 0.0 && denom > 0.0
    ensures 0.0 <= 100.0 - 100.0 / (1.0 + pos / denom) < 100.0
    ensures 100.0 - 100.0 / (1.0 + pos / denom) == 0.0 <==> pos == 0.0
  {
    var q := pos / denom;
    assert q >= 0.0;
    assert q == 0.0 <==> pos == 0.0;
    assert 100.0 / (1.0 + q) <= 100.0;
    assert 100.0 / (1.0 + q) > 0.0;
    assert 100.0 / (1.0 + q) == 100.0 <==> q == 0.0;
  }

  /** The 5-day/20-day mean-volume ratio, or 1 when the series is shorter than
      20 or the 20-day mean is not positive. */
  function VolumeRatio(vols: seq<int>): (r: real)
    ensures |vols| < 20 ==> r == 1.0
    ensures |vols| >= 20 && MeanInt(vols[|vols| - 20..]) <= 0.0 ==> r == 1.0
  {
    if |vols| >= 20 then
      var m5 := MeanInt(vols[|vols| - 5..]);
      var m20 := MeanInt(vols[|vols| - 20..]);
      if m20 > 0.0 then m5 / m20 else 1.0
    else 1.0
  }

  /** With non-negative volumes the 5-day mean is at most four times the
      20-day mean, so the ratio lies in [0, 4]. */
  lemma VolumeRatioBounds(vols: seq<int>)
    requires forall i :: 0 <= i < |vols| ==> vols[i] >= 0
    ensures 0.0 <= VolumeRatio(vols) <= 4.0
  {
    if |vols| >= 20 {
      var n := |vols|;
      var s5 := SumInt(vols[n - 5..]);
      var s20 := SumInt(vols[n - 20..]);
      SumSuffixMono(vols, n - 20, n - 5);
      SumNatNonNeg(vols[n - 5..]);
      assert 0 <= s5 <= s20;
      var m5 := MeanInt(vols[n - 5..]);
      var m20 := MeanInt(vols[n - 20..]);
      assert m5 == s5 as real / 5.0;
      assert m20 == s20 as real / 20.0;
      if m20 > 0.0 {
        assert m5 / m20 == 4.0 * (s5 as real / s20 as real);
        assert s5 as real / s20 as real <= 1.0;
      }
    }
  }

  /** Day `i` is a volume surge: its volume exceeds twice the 20-day volume
      average ending that day (days before the 20th have no average). */
  predicate SurgeAt(vols: seq<int>, i: nat)
    requires i < |vols|
  {
    i >= 19 && vols[i] as real > MeanInt(vols[i - 19..i + 1]) * 2.0
  }

  function SurgeFlags(vols: seq<int>): (r: seq<bool>)
    ensures |r| == |vols| && forall i :: 0 <= i < |vols| ==> r[i] == SurgeAt(vols, i)
  {
    seq(|vols|, i requires 0 <= i < |vols| => SurgeAt(vols, i))
  }

  function IsTrue(b: bool): bool { b }

  /** Surge counts over the last 5 and the last 20 days, both 0 when the
      series is shorter than 20. */
  function SurgeCounts(vols: seq<int>): (c: (nat, nat))
    ensures 0 <= c.0 <= c.1 <= 20
    ensures c.0 <= 5
  {
    var flags := SurgeFlags(vols);
    var n := |flags|;
    if n >= 20 then
      CountSuffixMono(flags, n - 20, n - 5, IsTrue);
      (Count(flags[n - 5..], IsTrue), Count(flags[n - 20..], IsTrue))
    else (0, 0)
  }
}

=== FILE: insider_tracker.dfy ===
/** The insider-trading tracker (pipeline/insider_tracker.py): recent insider
    transactions per ticker, classified as buys or sells by keyword, a
    cluster-buying score, and a 0-100 insider score per ticker. */
module InsiderTracker {
  import opened Common
  import opened Sorting
  import opened Text

  /** One row of the raw transaction table; `None` is an absent column.
      `date` is a timestamp in seconds. */
  datatype RawTxn = RawTxn(date: int, transaction: Option<string>, text: Option<string>,
                           value: Option<real>, shares: Option<int>, insider: Option<string>)

  /** What the data source returned: no table (or an empty one), a table
      whose dates could not be parsed, a table, or an error. */
  datatype TxnFetch = NoTable | BadDates | Table(rows: seq<RawTxn>) | FetchError

  datatype Kind = BuyTxn | SellTxn | UnknownTxn

  /** One kept transaction. */
  datatype Txn = Txn(date: int, insider: string, kind: Kind, transaction: string, value: real, shares: int)

  const SecondsPerDay := 86400

  /** Transactions older than this many days are dropped. */
  const LookbackDays := 180

  /** The look-back window in seconds. */
  const Lookback := LookbackDays * SecondsPerDay

  const BuyWords: seq<string> := ["purchase", "buy", "acquisition", "acquired"]
  const SellWords: seq<string> := ["sale", "sell", "disposition", "disposed"]

  /** The text a row is classified by: its `Transaction` column, else its
      `Text` column, lower-cased. */
  function TxnText(row: RawTxn): string
  {
    Lower(NonEmptyOr(row.transaction, NonEmptyOr(row.text, "")))
  }

  /** Buy keywords are tested first, so a text matching both lists is a buy;
      a text matching neither is unknown. */
  function Classify(text: string, buyWords: seq<string>, sellWords: seq<string>): (k: Kind)
    ensures k == BuyTxn <==> ContainsAny(text, buyWords)
    ensures k == SellTxn <==> !ContainsAny(text, buyWords) && ContainsAny(text, sellWords)
    ensures k == UnknownTxn <==> !ContainsAny(text, buyWords) && !ContainsAny(text, sellWords)
  {
    if ContainsAny(text, buyWords) then BuyTxn
    else if ContainsAny(text, sellWords) then SellTxn
    else UnknownTxn
  }

  /** "Purchase of shares after sale plan ended" is a buy: the buy list wins. */
  lemma BuyWinsOverSell(text: string)
    requires Contains(text, "purchase") && Contains(text, "sale")
    ensures Classify(text, BuyWords, SellWords) == BuyTxn
  {
    assert BuyWords[0] == "purchase";
  }

  /** Build the kept record of a raw row: a missing value or share count is 0,
      a missing insider name is "N/A", a missing transaction description
      falls back to the `Text` column and then to "N/A". The value is stored
      rounded to cents, and the cluster score sums the stored values. */
  function ToTxn(row: RawTxn): (t: Txn)
    ensures t.date == row.date
    ensures t.kind == Classify(TxnText(row), BuyWords, SellWords)
    ensures t.value == Round2(OrElse(row.value, 0.0))
    ensures OrElse(row.value, 0.0) - 0.005 <= t.value <= OrElse(row.value, 0.0) + 0.005
    ensures t.insider == GetOr(row.insider, "N/A") && t.transaction == NonEmptyOr(row.transaction, GetOr(row.text, "N/A"))
    ensures t.shares == (if row.shares.Some? then row.shares.value else 0)
  {
    Txn(row.date, GetOr(row.insider, "N/A"), Classify(TxnText(row), BuyWords, SellWords),
        NonEmptyOr(row.transaction, GetOr(row.text, "N/A")), Round2(OrElse(row.value, 0.0)),
        if row.shares.Some? then row.shares.value else 0)
  }

  function RowDate(r: RawTxn): real { r.date as real }

  /** The row is not before the cutoff instant. */
  predicate Recent(cutoff: int, r: RawTxn) { !(r.date < cutoff) }

  /** The filter keeping the rows at or after `cutoff`. */
  function RecentFrom(cutoff: int): RawTxn -> bool { r => Recent(cutoff, r) }

  /** `get_insider_activity` on a fetched table, run at instant `now`: rows
      newest first, rows before `now` minus 180 days dropped. The cutoff
      keeps the time of day of `now`. */
  function Activity(fetch: TxnFetch, now: int): (txns: seq<Txn>)
    ensures !fetch.Table? ==> txns == []
    ensures forall i :: 0 <= i < |txns| ==> txns[i].date >= now - Lookback
    ensures forall i, j :: 0 <= i < j < |txns| ==> txns[i].date >= txns[j].date
    ensures fetch.Table? ==> |txns| == Count(fetch.rows, RecentFrom(now - Lookback))
    ensures fetch.Table? ==> multiset(txns) == multiset(ToTxns(Filter(fetch.rows, RecentFrom(now - Lookback))))
  {
    if !fetch.Table? then []
    else
      var cutoff := now - Lookback;
      var sorted := SortDesc(fetch.rows, RowDate);
      var kept := Filter(sorted, RecentFrom(cutoff));
      FilterSorted(sorted, RecentFrom(cutoff), RowDate);
      CountPermutation(fetch.rows, sorted, RecentFrom(cutoff));
      CountFilter(sorted, RecentFrom(cutoff));
      var txns := ToTxns(kept);
      KeptDates(kept, txns, cutoff);
      KeptRows(fetch.rows, sorted, cutoff, txns);
      txns
  }

  /** The records of the recent rows of a reordering are the records of the
      recent rows, reordered. */
  lemma KeptRows(rows: seq<RawTxn>, sorted: seq<RawTxn>, cutoff: int, txns: seq<Txn>)
    requires multiset(sorted) == multiset(rows)
    requires txns == ToTxns(Filter(sorted, RecentFrom(cutoff)))
    ensures multiset(txns) == multiset(ToTxns(Filter(rows, RecentFrom(cutoff))))
  {
    FilterMapPermutation(sorted, rows, RecentFrom(cutoff), ToTxn);
  }

  /** A transaction stamped at midnight exactly 180 days before the day of
      the run is kept only by a run at midnight; any later run that day
      drops it. */
  lemma MidnightCutoff(day: int, secs: int, row: RawTxn)
    requires 0 <= secs < SecondsPerDay && row.date == (day - LookbackDays) * SecondsPerDay
    ensures RecentFrom(day * SecondsPerDay + secs - Lookback)(row) <==> secs == 0
  {
  }

  /** The kept record of every row, in order. */
  function ToTxns(rows: seq<RawTxn>): (txns: seq<Txn>)
    ensures |txns| == |rows| && forall i :: 0 <= i < |rows| ==> txns[i] == ToTxn(rows[i])
  {
    MapSeq(rows, ToTxn)
  }

  /** Records built from recent, newest-first rows are recent and newest first. */
  lemma KeptDates(kept: seq<RawTxn>, txns: seq<Txn>, cutoff: int)
    requires |txns| == |kept| && forall i :: 0 <= i < |kept| ==> txns[i] == ToTxn(kept[i])
    requires SortedDesc(kept, RowDate)
    requires forall i :: 0 <= i < |kept| ==> RecentFrom(cutoff)(kept[i])
    ensures forall i :: 0 <= i < |txns| ==> txns[i].date >= cutoff
    ensures forall i, j :: 0 <= i < j < |txns| ==> txns[i].date >= txns[j].date
  {
    forall i, j | 0 <= i < j < |txns| ensures txns[i].date >= txns[j].date {
      assert RowDate(kept[i]) >= RowDate(kept[j]);
    }
  }

  /** The ratio reported with the cluster analysis; absent for an empty list. */
  datatype BuySellRatio = NoRatio | Infinite | Finite(value: real)

  /** `detect_cluster_buying`'s result. */
  datatype Cluster = Cluster(hasCluster: bool, score: int, totalBuyValue: real,
                             buyCount: nat, sellCount: nat, ratio: BuySellRatio)

  predicate IsBuy(t: Txn) { t.kind == BuyTxn }

  predicate IsSell(t: Txn) { t.kind == SellTxn }

  /** Total value of the buys. */
  function BuyValue(txns: seq<Txn>): real
  {
    if txns == [] then 0.0 else (if IsBuy(txns[0]) then txns[0].value else 0.0) + BuyValue(txns[1..])
  }

  /** Points for the number of buys: +30 from three, +15 for two. */
  function BuyCountPoints(buys: nat): (p: int)
    ensures p == 30 <==> buys >= 3
    ensures p == 15 <==> buys == 2
    ensures p == 0 <==> buys < 2
  {
    if buys >= 3 then 30 else if buys >= 2 then 15 else 0
  }

  /** Points for the total bought: +30 above $1M, +15 above $500k, +10 above $100k. */
  function BuyValuePoints(total: real): (p: int)
    ensures 0 <= p <= 30
    ensures p == 30 <==> total > 1000000.0
    ensures p == 0 <==> total <= 100000.0
  {
    if total > 1000000.0 then 30 else if total > 500000.0 then 15 else if total > 100000.0 then 10 else 0
  }

  /** Points for the buy/sell balance: +20 for buying with no selling, +10
      for more than twice as many buys as sells. */
  function BalancePoints(buys: nat, sells: nat): (p: int)
    ensures p == 20 <==> buys > 0 && sells == 0
    ensures p == 10 <==> sells > 0 && buys > 2 * sells
    ensures p == 0 <==> buys <= 2 * sells
  {
    if buys > 0 && sells == 0 then 20 else if buys > sells * 2 then 10 else 0
  }

  /** `detect_cluster_buying`: an empty list gives no cluster and zero
      counts; otherwise the three point groups add up to a cluster score in
      [0, 80], and a cluster is a score of at least 40. */
  function DetectCluster(txns: seq<Txn>): (c: Cluster)
    ensures txns == [] ==> c == Cluster(false, 0, 0.0, 0, 0, NoRatio)
    ensures 0 <= c.score <= 80
    ensures c.hasCluster <==> c.score >= 40
    ensures txns != [] ==> c.buyCount == Count(txns, IsBuy) && c.sellCount == Count(txns, IsSell)
    ensures txns != [] ==> (c.ratio == Infinite <==> c.sellCount == 0)
    ensures c.buyCount + c.sellCount <= |txns|
  {
    if txns == [] then Cluster(false, 0, 0.0, 0, 0, NoRatio)
    else
      var buys := Count(txns, IsBuy);
      var sells := Count(txns, IsSell);
      BuysAndSellsDisjoint(txns);
      var total := BuyValue(txns);
      var score := BuyCountPoints(buys) + BuyValuePoints(total) + BalancePoints(buys, sells);
      Cluster(score >= 40, score, total, buys, sells,
              if sells > 0 then Finite(buys as real / sells as real) else Infinite)
  }

  /** No transaction is both a buy and a sell. */
  lemma {:induction false} BuysAndSellsDisjoint(txns: seq<Txn>)
    ensures Count(txns, IsBuy) + Count(txns, IsSell) <= |txns|
  {
    if txns != [] {
      BuysAndSellsDisjoint(txns[1..]);
    }
  }

  /** Points of the insider score: +30 for a cluster, else +15 for a cluster
      score of at least 30; +15 when buys exceed twice the sells, -15 when
      sells exceed twice the buys; +10 above $1M bought. */
  function InsiderScore(c: Cluster): (s: int)
    ensures 35 <= s <= 100
  {
    var clusterPts := if c.hasCluster then 30 else if c.score >= 30 then 15 else 0;
    var balancePts := if c.buyCount > c.sellCount * 2 then 15 else if c.sellCount > c.buyCount * 2 then -15 else 0;
    var valuePts := if c.totalBuyValue > 1000000.0 then 10 else 0;
    Clamp(50 + clusterPts + balancePts + valuePts, 0, 100)
  }

  /** The rounding of the stored value can decide the cluster: a single buy
      worth 1000000.004 is stored as 1000000.00, which is not above $1M, so
      it earns 15 value points instead of 30 and the cluster score is 35,
      below the cluster mark. */
  lemma RoundingDecidesCluster(t: Txn)
    requires t.kind == BuyTxn && t.value == Round2(1000000.004)
    ensures t.value == 1000000.0
    ensures DetectCluster([t]).score == 35 && !DetectCluster([t]).hasCluster
    ensures BuyValuePoints(t.value) == 15 && BuyValuePoints(1000000.004) == 30
  {
    assert (1000000.004 * 100.0).Floor == 100000000;
    assert Count([t], IsBuy) == 1 && Count([t], IsSell) == 0;
    assert BuyValue([t]) == t.value;
  }

  /** The clamp binds: a cluster of pure buying above $1M adds up to 105. */
  lemma InsiderScoreSaturates()
    ensures InsiderScore(Cluster(true, 80, 2000000.0, 3, 0, Infinite)) == 100
  {
  }

  /** One ticker's entry. */
  datatype InsiderReport = InsiderReport(score: int, cluster: Cluster, recent: seq<Txn>, total: nat)

  /** The entry for a ticker's recent transactions, absent when there are
      none: the insider score, the cluster analysis, the ten most recent
      transactions and the count of all of them. */
  function ReportOf(txns: seq<Txn>): (r: Option<InsiderReport>)
    ensures r.Some? <==> txns != []
    ensures r.Some? ==> 35 <= r.value.score <= 100 && |r.value.recent| == Min(10, |txns|)
                        && r.value.total == |txns| && r.value.recent == txns[..|r.value.recent|]
                        && r.value.cluster.buyCount == Count(txns, IsBuy)
  {
    if txns == [] then None
    else
      var c := DetectCluster(txns);
      Some(InsiderReport(InsiderScore(c), c, Head(txns, 10), |txns|))
  }

  /** A ticker's entry. */
  function ReportFor(fetch: string -> TxnFetch, now: int, t: string): Option<InsiderReport>
  {
    ReportOf(Activity(fetch(t), now))
  }

  function ReportStep(fetch: string -> TxnFetch, now: int): string -> Option<InsiderReport>
  {
    t => ReportFor(fetch, now, t)
  }

  /** `analyze_tickers`: one entry per ticker with recent transactions;
      tickers without any are absent. */
  function AnalyzeTickers(tickers: seq<string>, fetch: string -> TxnFetch, now: int): (m: map<string, InsiderReport>)
    ensures forall t :: t in m <==> t in tickers && ReportFor(fetch, now, t).Some?
    ensures forall t :: t in m ==> ReportFor(fetch, now, t) == Some(m[t])
  {
    var step := ReportStep(fetch, now);
    var m := Tabulate(tickers, step);
    assert forall t :: step(t) == ReportFor(fetch, now, t);
    m
  }

  /** A ticker has an entry exactly when it has transactions in the
      look-back window; every entry's score lies in [35, 100], it keeps at
      most ten transactions and counts all of them. */
  lemma AnalyzeTickersEntries(tickers: seq<string>, fetch: string -> TxnFetch, now: int, t: string)
    ensures var m := AnalyzeTickers(tickers, fetch, now);
            (t in m <==> t in tickers && Activity(fetch(t), now) != [])
            && (t in m ==> 35 <= m[t].score <= 100 && |m[t].recent| <= 10
                           && m[t].total == |Activity(fetch(t), now)|)
  {
    var txns := Activity(fetch(t), now);
    assert ReportFor(fetch, now, t) == ReportOf(txns);
  }
}

=== FILE: institutional.dfy ===
/** The institutional-holdings analyzer (pipeline/03_analyze_13f.py): per
    ticker it reads ownership percentages, classifies the ten most recent
    insider transactions as buys or sells, and folds ownership, insider
    activity and short interest into a 0-100 score with a five-stage label. */
module Institutional {
  import opened Common
  import opened Text

  /** One column of the insider-transaction table. `text` is false for a
      numeric column (which has no string accessor); a `None` cell is a
      missing or non-string value. */
  datatype Column = Column(name: string, text: bool, cells: seq<Option<string>>)

  /** The insider-transaction table: its row count and its columns. */
  datatype TxnTable = TxnTable(rows: nat, columns: seq<Column>)

  /** What the data source returned for the insider transactions: nothing,
      a table, or an error. */
  datatype TxnFetch = NoTxns | Txns(table: TxnTable) | TxnError

  /** The ownership fields of the ticker's info record; `None` is a missing key. */
  datatype Info = Info(instPct: Option<real>, insiderPct: Option<real>, floatShares: Option<real>,
                       sharesOutstanding: Option<real>, shortPct: Option<real>)

  /** Everything fetched for one ticker, or a failure of the info lookup
      (which drops the ticker). `holders` is the institutional-holder count,
      `None` when that lookup failed or returned nothing. */
  datatype TickerData = Failed | Fetched(info: Info, txns: TxnFetch, holders: Option<nat>)

  datatype Sentiment = Buying | Selling | NeutralSentiment | Unknown

  /** One output row. */
  datatype HoldingRecord = HoldingRecord(
    ticker: string, instPct: real, insiderPct: real, shortPct: real, floatM: real,
    holders: nat, buys: nat, sells: nat, sentiment: Sentiment, score: int, stage: Tier)

  /** A cell matches `Buy|Purchase`, case-insensitively. */
  predicate IsBuyText(cell: Option<string>)
  {
    cell.Some? && (Contains(Lower(cell.value), "buy") || Contains(Lower(cell.value), "purchase"))
  }

  /** A cell matches `Sale|Sell`, case-insensitively. */
  predicate IsSellText(cell: Option<string>)
  {
    cell.Some? && (Contains(Lower(cell.value), "sale") || Contains(Lower(cell.value), "sell"))
  }

  /** The name marks the transaction-type column. */
  predicate IsTypeColumn(c: Column)
  {
    Contains(Lower(c.name), "transaction") || Contains(Lower(c.name), "type")
  }

  /** Index of the first transaction-type column, if any. */
  function FindTypeColumn(cols: seq<Column>): (r: Option<nat>)
    ensures r.Some? ==> r.value < |cols| && IsTypeColumn(cols[r.value])
                        && forall j :: 0 <= j < r.value ==> !IsTypeColumn(cols[j])
    ensures r.None? ==> forall j :: 0 <= j < |cols| ==> !IsTypeColumn(cols[j])
  {
    if cols == [] then None
    else if IsTypeColumn(cols[0]) then Some(0)
    else match FindTypeColumn(cols[1..])
         case None => None
         case Some(k) => Some(k + 1)
  }

  /** Buy and sell matches in the first ten cells of one column. */
  function ColumnCounts(c: Column): (bs: (nat, nat))
    ensures bs.0 <= 10 && bs.1 <= 10
  {
    var cells := Head(c.cells, 10);
    (Count(cells, IsBuyText), Count(cells, IsSellText))
  }

  /** Buy and sell matches summed over the text columns (the fallback when
      no column is named like a transaction type). */
  function TextColumnCounts(cols: seq<Column>): (bs: (nat, nat))
    ensures bs.0 <= 10 * |cols| && bs.1 <= 10 * |cols|
  {
    if cols == [] then (0, 0)
    else
      var rest := TextColumnCounts(cols[1..]);
      var here := if cols[0].text then ColumnCounts(cols[0]) else (0, 0);
      (here.0 + rest.0, here.1 + rest.1)
  }

  /** No table, an empty table, an error, or a type column that is not text
      (its string accessor raises, and the error is caught). */
  predicate NoUsableTable(f: TxnFetch)
  {
    f.NoTxns? || f.TxnError? || f.table.rows == 0
    || (var k := FindTypeColumn(f.table.columns); k.Some? && !f.table.columns[k.value].text)
  }

  /** Buy/sell counts and sentiment from the transaction fetch: `Unknown`
      with zero counts when there is no table, an empty table, an error, or
      a type column without a string accessor. */
  function InsiderActivity(f: TxnFetch): (r: (nat, nat, Sentiment))
    ensures r.2 == Unknown <==> NoUsableTable(f)
    ensures r.2 == Unknown ==> r.0 == 0 && r.1 == 0
    ensures r.2 != Unknown ==> (r.2 == Buying <==> r.0 > r.1) && (r.2 == Selling <==> r.1 > r.0)
  {
    if f.NoTxns? || f.TxnError? || f.table.rows == 0 then (0, 0, Unknown)
    else
      var cols := f.table.columns;
      var k := FindTypeColumn(cols);
      if k.Some? && !cols[k.value].text then (0, 0, Unknown)
      else
        var bs := if k.Some? then ColumnCounts(cols[k.value]) else TextColumnCounts(cols);
        (bs.0, bs.1, SentimentOf(bs.0, bs.1))
  }

  /** `Buying` when buys outnumber sells, `Selling` for the reverse, `Neutral` on a tie. */
  function SentimentOf(buys: nat, sells: nat): (s: Sentiment)
    ensures s != Unknown
    ensures s == Buying <==> buys > sells
    ensures s == Selling <==> sells > buys
  {
    if buys > sells then Buying else if sells > buys then Selling else NeutralSentiment
  }

  /** Points for institutional ownership: +15 above 80%, +10 above 60%, -10 below 30%. */
  function OwnershipPoints(inst: real): (p: int)
    ensures p == 15 <==> inst > 0.8
    ensures p == 10 <==> 0.6 < inst <= 0.8
    ensures p == -10 <==> inst < 0.3
    ensures p == 0 <==> 0.3 <= inst <= 0.6
  {
    if inst > 0.8 then 15 else if inst > 0.6 then 10 else if inst < 0.3 then -10 else 0
  }

  /** Points for insider activity: +15 net buying, -10 net selling. */
  function InsiderPoints(buys: nat, sells: nat): (p: int)
    ensures p == 15 <==> buys > sells
    ensures p == -10 <==> sells > buys
    ensures p == 0 <==> buys == sells
  {
    if buys > sells then 15 else if sells > buys then -10 else 0
  }

  /** Points for short interest as written: +5 below 3%, -10 above 10%; the
      -20 branch for above 20% sits after the 10% test and is never taken. */
  function ShortPoints(short: real): (p: int)
  {
    if short < 0.03 then 5
    else if short > 0.1 then -10
    else if short > 0.2 then -20
    else 0
  }

  /** Short interest above 20% scores the same -10 as anything above 10%:
      no input reaches the -20 branch. */
  lemma {:induction false} ShortPenaltyNeverReached(short: real)
    ensures ShortPoints(short) != -20
    ensures short > 0.2 ==> ShortPoints(short) == -10
    ensures ShortPoints(short) == 5 <==> short < 0.03
    ensures ShortPoints(short) == -10 <==> short > 0.1
  {
    if short > 0.2 {
      assert short > 0.1;
    }
  }

  /** The institutional score: 50 plus the three contributions, clamped to
      [0, 100]; the contributions keep it within [20, 85], so the clamp
      never changes it. */
  function InstitutionalScore(inst: real, buys: nat, sells: nat, short: real): (s: int)
    ensures 20 <= s <= 85
  {
    Clamp(50 + OwnershipPoints(inst) + InsiderPoints(buys, sells) + ShortPoints(short), 0, 100)
  }

  /** More ownership, more net buying and less short interest never lower the score. */
  lemma InstitutionalScoreMonotone(i1: real, b1: nat, s1: nat, sh1: real,
                                   i2: real, b2: nat, s2: nat, sh2: real)
    requires i1 <= i2 && b1 - s1 <= b2 - s2 && sh2 <= sh1
    ensures InstitutionalScore(i1, b1, s1, sh1) <= InstitutionalScore(i2, b2, s2, sh2)
  {
    assert OwnershipPoints(i1) <= OwnershipPoints(i2);
    assert InsiderPoints(b1, s1) <= InsiderPoints(b2, s2);
    assert ShortPoints(sh1) <= ShortPoints(sh2);
  }

  /** Stage label of an institutional tier. */
  function StageName(t: Tier): string
  {
    match t
    case StrongPositive => "Strong Institutional Support"
    case Positive => "Institutional Support"
    case Neutral => "Neutral"
    case Negative => "Institutional Concern"
    case StrongNegative => "Strong Institutional Selling"
  }

  /** Analyze one ticker's fetched data; missing or zero fields count as 0. */
  function AnalyzeTicker(ticker: string, d: TickerData): (r: Option<HoldingRecord>)
    ensures r.None? <==> d.Failed?
    ensures r.Some? ==> r.value.ticker == ticker && 20 <= r.value.score <= 85
                        && r.value.stage == Tier5(r.value.score)
    ensures r.Some? ==> r.value.holders == (if d.holders.Some? then d.holders.value else 0)
    ensures r.Some? && r.value.sentiment != Unknown ==>
              (r.value.sentiment == Buying <==> r.value.buys > r.value.sells)
    ensures r.Some? ==> (r.value.buys, r.value.sells, r.value.sentiment) == InsiderActivity(d.txns)
    ensures r.Some? ==> r.value.instPct == OrElse(d.info.instPct, 0.0) * 100.0
                        && r.value.shortPct == OrElse(d.info.shortPct, 0.0) * 100.0
    ensures r.Some? ==> r.value.score == InstitutionalScore(r.value.instPct / 100.0, r.value.buys, r.value.sells,
                                                            r.value.shortPct / 100.0)
  {
    match d
    case Failed => None
    case Fetched(info, txns, holders) =>
      var inst := OrElse(info.instPct, 0.0);
      var insider := OrElse(info.insiderPct, 0.0);
      var floatShares := OrElse(info.floatShares, 0.0);
      var short := OrElse(info.shortPct, 0.0);
      var act := InsiderActivity(txns);
      var score := InstitutionalScore(inst, act.0, act.1, short);
      Some(HoldingRecord(ticker, inst * 100.0, insider * 100.0, short * 100.0,
                         floatShares / 1000000.0, if holders.Some? then holders.value else 0,
                         act.0, act.1, act.2, score, Tier5(score)))
  }

  /** The tickers whose lookup did not fail. */
  function Fetched(fetch: string -> TickerData): string -> bool
  {
    t => !fetch(t).Failed?
  }

  /** The loop over the ticker list: a ticker whose lookup fails is skipped,
      every other one yields one record, in list order. */
  function AnalyzeAll(tickers: seq<string>, fetch: string -> TickerData): (out: seq<HoldingRecord>)
    ensures |out| == |Filter(tickers, Fetched(fetch))| == Count(tickers, Fetched(fetch))
    ensures forall k :: 0 <= k < |out| ==>
              out[k].ticker == Filter(tickers, Fetched(fetch))[k]
              && Some(out[k]) == AnalyzeTicker(out[k].ticker, fetch(out[k].ticker))
  {
    CountFilter(tickers, Fetched(fetch));
    if tickers == [] then []
    else
      var rest := AnalyzeAll(tickers[1..], fetch);
      var out := if AnalyzeTicker(tickers[0], fetch(tickers[0])).Some?
                 then [AnalyzeTicker(tickers[0], fetch(tickers[0])).value] + rest else rest;
      FilterCons(tickers, Fetched(fetch));
      AlignedStep(tickers[0], Fetched(fetch), Analyzer(fetch), RecordTicker,
                  Filter(tickers[1..], Fetched(fetch)), Filter(tickers, Fetched(fetch)), rest, out);
      out
  }

  function Analyzer(fetch: string -> TickerData): string -> Option<HoldingRecord>
  {
    t => AnalyzeTicker(t, fetch(t))
  }

  function RecordTicker(r: HoldingRecord): string { r.ticker }
}

=== FILE: options_flow.dfy ===
/** The options-flow analyzer (pipeline/options_flow.py): for the nearest
    expiration of each watched ticker, put/call volume and open-interest
    ratios, counts of unusually active contracts and a five-band sentiment. */
module OptionsFlow {
  import opened Common

  /** One side (calls or puts) of an option chain: the per-contract volume
      and open-interest columns, `None` when the column is absent. */
  datatype Side = Side(volume: Option<seq<nat>>, openInterest: Option<seq<nat>>)

  /** What the data source returned for a ticker: the expirations with the
      chain of the nearest one, or an error message. */
  datatype OptionsFetch = Fetched(expirations: seq<string>, calls: Side, puts: Side) | FetchFailed(message: string)

  datatype Sentiment = Bearish | NeutralBearish | NeutralSentiment | NeutralBullish | Bullish

  datatype Metrics = Metrics(pcRatio: real, pcOiRatio: real, callVol: nat, putVol: nat,
                             callOi: nat, putOi: nat, totalVol: nat, totalOi: nat)

  datatype Unusual = Unusual(calls: nat, puts: nat, total: nat)

  /** The per-ticker result: a summary, or an error entry. */
  datatype OptionsResult =
    | Summary(ticker: string, expiration: string, metrics: Metrics, unusual: Unusual, sentiment: Sentiment)
    | ErrorEntry(ticker: string, error: string)

  function SumNat(xs: seq<nat>): nat
  {
    if xs == [] then 0 else xs[0] + SumNat(xs[1..])
  }

  /** The column total, 0 for an absent column. */
  function ColumnSum(col: Option<seq<nat>>): nat
  {
    if col.Some? then SumNat(col.value) else 0
  }

  /** `a / b` when `b` is positive, else 0. */
  function Ratio(a: nat, b: nat): (r: real)
    ensures r >= 0.0
    ensures b == 0 ==> r == 0.0
    ensures b > 0 ==> r * b as real == a as real
  {
    if b > 0 then a as real / b as real else 0.0
  }

  /** Sentiment from the put/call volume ratio: bearish above 1.2,
      neutral-bearish above 0.8, bullish below 0.6, neutral-bullish below
      0.8, and plain neutral only at exactly 0.8. */
  function SentimentOf(pc: real): (s: Sentiment)
    ensures s == Bearish <==> pc > 1.2
    ensures s == NeutralBearish <==> 0.8 < pc <= 1.2
    ensures s == Bullish <==> pc < 0.6
    ensures s == NeutralBullish <==> 0.6 <= pc < 0.8
    ensures s == NeutralSentiment <==> pc == 0.8
  {
    if pc > 1.2 then Bearish
    else if pc > 0.8 then NeutralBearish
    else if pc < 0.6 then Bullish
    else if pc < 0.8 then NeutralBullish
    else NeutralSentiment
  }

  function SentimentRank(s: Sentiment): nat
  {
    match s
    case Bullish => 4
    case NeutralBullish => 3
    case NeutralSentiment => 2
    case NeutralBearish => 1
    case Bearish => 0
  }

  /** More puts per call never reads as more bullish. */
  lemma SentimentMonotone(a: real, b: real)
    requires a <= b
    ensures SentimentRank(SentimentOf(b)) <= SentimentRank(SentimentOf(a))
  {
  }

  /** Contracts whose volume is strictly above `limit`. */
  function Above(vols: seq<nat>, limit: real): (c: nat)
    ensures c <= |vols|
  {
    if vols == [] then 0 else (if vols[0] as real > limit then 1 else 0) + Above(vols[1..], limit)
  }

  /** Unusually active contracts: volume strictly above three times the
      side's mean volume; 0 when the column is absent, the side is empty or
      the mean is not positive. */
  function UnusualCount(col: Option<seq<nat>>): (c: nat)
    ensures col.None? || col.value == [] ==> c == 0
    ensures col.Some? ==> c <= |col.value|
  {
    if col.None? || col.value == [] then 0
    else
      var vols := col.value;
      var mean := SumNat(vols) as real / |vols| as real;
      if mean > 0.0 then Above(vols, mean * 3.0) else 0
  }

  /** `c` copies of `limit` added up: the product `c * limit`, written as a
      sum so that the volume bound below is linear. */
  function Times(c: nat, limit: real): real
  {
    if c == 0 then 0.0 else Times(c - 1, limit) + limit
  }

  lemma {:induction false} TimesIsProduct(c: nat, limit: real)
    ensures Times(c, limit) == c as real * limit
  {
    if c > 0 {
      TimesIsProduct(c - 1, limit);
      StepProduct(c - 1, limit);
    }
  }

  lemma StepProduct(c: nat, limit: real)
    ensures (c + 1) as real * limit == c as real * limit + limit
  {
  }

  /** The volume of the contracts above a non-negative limit exceeds the
      limit once per such contract. */
  lemma {:induction false} AboveVolume(vols: seq<nat>, limit: real)
    requires limit >= 0.0
    ensures Above(vols, limit) > 0 ==> SumNat(vols) as real > Times(Above(vols, limit), limit)
  {
    if vols != [] {
      var head, rest := vols[0] as real, SumNat(vols[1..]) as real;
      var c, c2 := Above(vols[1..], limit), Above(vols, limit);
      AboveVolume(vols[1..], limit);
      assert c2 == if head > limit then c + 1 else c;
      AboveStep(head, rest, c, limit, c2, Times(c, limit), Times(c2, limit));
      assert SumNat(vols) as real == head + rest;
    }
  }

  /** One more contract: a head above the limit adds one to the count and
      more than the limit to the volume. */
  lemma AboveStep(head: real, rest: real, c: nat, limit: real, c2: nat, t: real, t2: real)
    requires limit >= 0.0 && head >= 0.0 && rest >= 0.0
    requires c > 0 ==> rest > t
    requires c == 0 ==> t == 0.0
    requires c2 == if head > limit then c + 1 else c
    requires t2 == if head > limit then t + limit else t
    ensures c2 > 0 ==> head + rest > t2
  {
  }

  /** If `c` items each exceed three times the mean of `n` items totalling
      `total`, then `c` is less than a third of `n`. */
  lemma MinorityArith(total: real, n: real, mean: real, c: real)
    requires n > 0.0 && mean > 0.0 && mean == total / n
    requires total > c * (mean * 3.0)
    ensures c * 3.0 < n
  {
    DivTimes(total, n);
    assert n * mean > (c * 3.0) * mean;
    CancelPositive(n, c * 3.0, mean);
  }

  lemma DivTimes(t: real, n: real)
    requires n > 0.0
    ensures n * (t / n) == t
  {
  }

  /** A product with a positive factor is positive only if the other factor is. */
  lemma PositiveFactor(a: real, b: real)
    requires a > 0.0 && a * b > 0.0
    ensures b > 0.0
  {
    if b <= 0.0 {
      NonPositiveProduct(a, b);
    }
  }

  lemma NonPositiveProduct(a: real, b: real)
    requires a > 0.0 && b <= 0.0
    ensures a * b <= 0.0
  {
  }

  /** Dividing both sides of a strict inequality by a positive factor. */
  lemma CancelPositive(a: real, b: real, k: real)
    requires k > 0.0 && a * k > b * k
    ensures a > b
  {
    assert k * (a - b) == a * k - b * k;
    PositiveFactor(k, a - b);
  }

  /** Fewer than a third of a side's contracts can be unusual: their volume
      alone would otherwise exceed the side's total. */
  lemma UnusualIsMinority(col: Option<seq<nat>>)
    requires col.Some?
    ensures UnusualCount(col) == 0 || UnusualCount(col) * 3 < |col.value|
  {
    if col.value != [] {
      var vols := col.value;
      var n := |vols| as real;
      var total := SumNat(vols) as real;
      var mean := total / n;
      if mean > 0.0 {
        var c := Above(vols, mean * 3.0);
        AboveVolume(vols, mean * 3.0);
        if c > 0 {
          MinorityOfTimes(total, |vols|, c);
        }
      }
    }
  }

  /** The count bound restated over the repeated sum `Times`. */
  lemma MinorityOfTimes(total: real, n: nat, c: nat)
    requires n > 0 && total / n as real > 0.0
    requires total > Times(c, (total / n as real) * 3.0)
    ensures c * 3 < n
  {
    var mean := total / n as real;
    TimesIsProduct(c, mean * 3.0);
    MinorityArith(total, n as real, mean, c as real);
  }

  /** `get_options_summary`: an error entry when there are no expirations or
      the fetch failed; otherwise the metrics of the nearest expiration. */
  function OptionsSummary(ticker: string, f: OptionsFetch): (r: OptionsResult)
    ensures r.ticker == ticker
    ensures r.ErrorEntry? <==> f.FetchFailed? || f.expirations == []
    ensures f.FetchFailed? ==> r.ErrorEntry? && r.error == f.message
    ensures f.Fetched? && f.expirations == [] ==> r.ErrorEntry? && r.error == "No options available"
    ensures r.Summary? ==>
              r.metrics.callVol == ColumnSum(f.calls.volume) && r.metrics.putVol == ColumnSum(f.puts.volume)
              && r.metrics.callOi == ColumnSum(f.calls.openInterest)
              && r.metrics.putOi == ColumnSum(f.puts.openInterest)
              && r.metrics.pcRatio == Ratio(r.metrics.putVol, r.metrics.callVol)
              && r.metrics.pcOiRatio == Ratio(r.metrics.putOi, r.metrics.callOi)
              && r.unusual.calls == UnusualCount(f.calls.volume) && r.unusual.puts == UnusualCount(f.puts.volume)
    ensures r.Summary? ==>
              r.expiration == f.expirations[0]
              && r.metrics.totalVol == r.metrics.callVol + r.metrics.putVol
              && r.metrics.totalOi == r.metrics.callOi + r.metrics.putOi
              && r.unusual.total == r.unusual.calls + r.unusual.puts
              && r.sentiment == SentimentOf(r.metrics.pcRatio)
  {
    match f
    case FetchFailed(msg) => ErrorEntry(ticker, msg)
    case Fetched(exps, calls, puts) =>
      if exps == [] then ErrorEntry(ticker, "No options available")
      else
        var callVol := ColumnSum(calls.volume);
        var putVol := ColumnSum(puts.volume);
        var callOi := ColumnSum(calls.openInterest);
        var putOi := ColumnSum(puts.openInterest);
        var pc := Ratio(putVol, callVol);
        var uc := UnusualCount(calls.volume);
        var up := UnusualCount(puts.volume);
        Summary(ticker, exps[0],
                Metrics(pc, Ratio(putOi, callOi), callVol, putVol, callOi, putOi, callVol + putVol, callOi + putOi),
                Unusual(uc, up, uc + up), SentimentOf(pc))
  }

  /** With no call volume the ratio is 0, which reads as bullish. */
  lemma NoCallsReadsBullish(ticker: string, exps: seq<string>, calls: Side, puts: Side)
    requires exps != [] && ColumnSum(calls.volume) == 0
    ensures OptionsSummary(ticker, Fetched(exps, calls, puts)).sentiment == Bullish
  {
  }

  function SummaryStep(fetch: string -> OptionsFetch): string -> Option<OptionsResult>
  {
    t => var r := OptionsSummary(t, fetch(t)); if r.Summary? then Some(r) else None
  }

  /** `analyze_watchlist`: the summaries of the watched tickers, in order,
      leaving out every error entry. */
  function AnalyzeWatchlist(watchlist: seq<string>, fetch: string -> OptionsFetch): (out: seq<OptionsResult>)
    ensures |out| == Count(watchlist, Defined(SummaryStep(fetch)))
    ensures forall k :: 0 <= k < |out| ==> out[k].Summary?
    ensures forall k :: 0 <= k < |out| ==> exists i :: 0 <= i < |watchlist| && out[k].ticker == watchlist[i]
    ensures |out| == |Filter(watchlist, Defined(SummaryStep(fetch)))|
    ensures forall k :: 0 <= k < |out| ==>
              out[k] == OptionsSummary(Filter(watchlist, Defined(SummaryStep(fetch)))[k],
                                       fetch(Filter(watchlist, Defined(SummaryStep(fetch)))[k]))
  {
    var step := SummaryStep(fetch);
    var out := FilterMap(watchlist, step);
    FilterMapAligned(watchlist, step);
    forall k | 0 <= k < |out|
      ensures out[k].Summary? && exists i :: 0 <= i < |watchlist| && out[k].ticker == watchlist[i]
    {
      var i :| 0 <= i < |watchlist| && step(watchlist[i]) == Some(out[k]);
      assert OptionsSummary(watchlist[i], fetch(watchlist[i])) == out[k];
    }
    out
  }
}

=== FILE: portfolio_risk.dfy ===
/** The portfolio risk analyzer (pipeline/portfolio_risk.py): daily returns
    of an equally weighted portfolio, the pairs of holdings whose returns
    are highly correlated, a six-tier risk level of the annualised
    volatility, guarded diversification ratio and beta, and the warnings
    raised from them. The statistics themselves (variances, square roots,
    correlations) are inputs. */
module PortfolioRisk {
  import opened Common

  /** The default holdings when no picks file can be read. */
  const DefaultTickers := ["AAPL", "NVDA", "MSFT", "GOOGL", "AMZN", "META", "TSLA", "AMD"]

  /** `get_tickers_from_smart_money_picks`: the first `topN` tickers of the
      picks file, or the default holdings when the file is missing, has no
      ticker column or cannot be read. */
  function PortfolioTickers(picks: Option<seq<string>>, topN: int): (t: seq<string>)
    ensures picks.None? ==> t == DefaultTickers
    ensures picks.Some? ==> t == Head(picks.value, topN)
  {
    if picks.Some? then Head(picks.value, topN) else DefaultTickers
  }

  // ---------------------------------------------------------------- returns table

  /** Daily returns, one row per date and one column per ticker; `None` is a
      missing value. */
  datatype Frame = Frame(tickers: seq<string>, rows: seq<seq<Option<real>>>)

  predicate Complete(row: seq<Option<real>>)
  {
    forall j :: 0 <= j < |row| ==> row[j].Some?
  }

  /** `dropna()`: the rows without a missing value. */
  function DropIncompleteRows(f: Frame): (g: Frame)
    ensures g.tickers == f.tickers
    ensures forall r :: 0 <= r < |g.rows| ==> Complete(g.rows[r])
    ensures |g.rows| == Count(f.rows, Complete)
  {
    CountFilter(f.rows, Complete);
    Frame(f.tickers, Filter(f.rows, Complete))
  }

  /** Whether column `j` has a value on every row. */
  predicate FullColumn(rows: seq<seq<Option<real>>>, j: nat)
  {
    forall r :: 0 <= r < |rows| ==> j < |rows[r]| && rows[r][j].Some?
  }

  /** The indices of the columns with a value on every row, in order. */
  function FullColumns(rows: seq<seq<Option<real>>>, n: nat): (cols: seq<nat>)
    ensures forall j: nat :: j in cols <==> j < n && FullColumn(rows, j)
  {
    if n == 0 then [] else FullColumns(rows, n - 1) + (if FullColumn(rows, n - 1) then [n - 1] else [])
  }

  /** `dropna(axis=1)`: the tickers whose column has no missing value. */
  function ValidTickers(f: Frame): (t: seq<string>)
    ensures |t| <= |f.tickers|
  {
    var cols := FullColumns(f.rows, |f.tickers|);
    ColumnsBound(f.rows, |f.tickers|);
    seq(|cols|, k requires 0 <= k < |cols| => f.tickers[cols[k]])
  }

  lemma {:induction false} ColumnsBound(rows: seq<seq<Option<real>>>, n: nat)
    ensures |FullColumns(rows, n)| <= n
    ensures forall k :: 0 <= k < |FullColumns(rows, n)| ==> FullColumns(rows, n)[k] < n
  {
    if n > 0 {
      ColumnsBound(rows, n - 1);
    }
  }

  /** Every row has one value per ticker. */
  predicate Rectangular(f: Frame)
  {
    forall r :: 0 <= r < |f.rows| ==> |f.rows[r]| == |f.tickers|
  }

  /** Once incomplete rows are gone, the column filter keeps every ticker:
      a ticker with a short history shortens the common window instead of
      leaving the portfolio. */
  lemma ColumnFilterKeepsAll(f: Frame)
    requires Rectangular(f)
    ensures ValidTickers(DropIncompleteRows(f)) == f.tickers
  {
    var g := DropIncompleteRows(f);
    var n := |f.tickers|;
    forall r | 0 <= r < |g.rows| ensures |g.rows[r]| == n {
      FilterMember(f.rows, Complete, g.rows[r]);
    }
    AllColumnsFull(g.rows, n);
  }

  lemma FilterMember<T>(xs: seq<T>, p: T -> bool, x: T)
    requires x in Filter(xs, p)
    ensures x in xs && p(x)
  {
    var k :| 0 <= k < |Filter(xs, p)| && Filter(xs, p)[k] == x;
  }

  lemma {:induction false} AllColumnsFull(rows: seq<seq<Option<real>>>, n: nat)
    requires forall r :: 0 <= r < |rows| ==> |rows[r]| >= n && Complete(rows[r])
    ensures FullColumns(rows, n) == seq(n, j requires 0 <= j < n => j)
  {
    if n > 0 {
      AllColumnsFull(rows, n - 1);
      forall r | 0 <= r < |rows| ensures n - 1 < |rows[r]| && rows[r][n - 1].Some? {
        assert Complete(rows[r]);
      }
      IndicesStep(FullColumns(rows, n - 1), n);
    }
  }

  /** The indices below `n - 1` followed by `n - 1` are the indices below `n`. */
  lemma IndicesStep(a: seq<nat>, n: nat)
    requires n > 0 && a == seq(n - 1, j requires 0 <= j < n - 1 => j)
    ensures a + [n - 1] == seq(n, j requires 0 <= j < n => j)
  {
  }

  // ---------------------------------------------------------------- correlations

  /** A correlation above 0.8; a missing (NaN) entry never qualifies. */
  predicate High(c: Option<real>)
  {
    c.Some? && c.value > 0.8
  }

  /** Index pairs `(i, j)` of row `i`, for columns `j..n-1`, with a high
      correlation. */
  function RowPairs(i: nat, j: nat, n: nat, corr: (nat, nat) -> Option<real>): (r: seq<(nat, nat)>)
    decreases n - j
    ensures forall p :: p in r <==> p.0 == i && j <= p.1 < n && High(corr(p.0, p.1))
    ensures forall k, l :: 0 <= k < l < |r| ==> r[k].1 < r[l].1
  {
    if j >= n then []
    else (if High(corr(i, j)) then [(i, j)] else []) + RowPairs(i, j + 1, n, corr)
  }

  /** `(i, j)` precedes `(k, l)` in row-major order. */
  predicate Before(p: (nat, nat), q: (nat, nat))
  {
    p.0 < q.0 || (p.0 == q.0 && p.1 < q.1)
  }

  /** The pairs of rows `i..n-1`. */
  function PairsFrom(i: nat, n: nat, corr: (nat, nat) -> Option<real>): (r: seq<(nat, nat)>)
    decreases n - i
    ensures forall p :: p in r <==> i <= p.0 < p.1 < n && High(corr(p.0, p.1))
    ensures forall k, l :: 0 <= k < l < |r| ==> Before(r[k], r[l])
  {
    if i >= n then []
    else
      var row := RowPairs(i, i + 1, n, corr);
      var rest := PairsFrom(i + 1, n, corr);
      forall k, l | 0 <= k < |row| && 0 <= l < |rest| ensures Before(row[k], rest[l]) {
        assert row[k] in row;
        assert rest[l] in rest;
      }
      row + rest
  }

  /** The high-correlation scan: every pair `i < j` of the `n` tickers whose
      correlation is above 0.8, once each, in row-major order. */
  function HighPairs(n: nat, corr: (nat, nat) -> Option<real>): (r: seq<(nat, nat)>)
    ensures forall p :: p in r <==> p.0 < p.1 < n && High(corr(p.0, p.1))
    ensures forall k, l :: 0 <= k < l < |r| ==> Before(r[k], r[l])
  {
    PairsFrom(0, n, corr)
  }

  /** No pair appears twice and no ticker is paired with itself. */
  lemma HighPairsDistinct(n: nat, corr: (nat, nat) -> Option<real>, k: nat, l: nat)
    requires k < l < |HighPairs(n, corr)|
    ensures HighPairs(n, corr)[k] != HighPairs(n, corr)[l]
    ensures HighPairs(n, corr)[k].0 != HighPairs(n, corr)[k].1
  {
    assert HighPairs(n, corr)[k] in HighPairs(n, corr);
  }

  datatype HighCorrelation = HighCorrelation(ticker1: string, ticker2: string, correlation: real)

  /** The reported pairs, named by ticker. */
  function NamePairs(tickers: seq<string>, corr: (nat, nat) -> Option<real>): (hc: seq<HighCorrelation>)
    ensures |hc| == |HighPairs(|tickers|, corr)|
    ensures forall k :: 0 <= k < |hc| ==>
              var p := HighPairs(|tickers|, corr)[k];
              p.0 < p.1 < |tickers| && hc[k].ticker1 == tickers[p.0] && hc[k].ticker2 == tickers[p.1]
              && hc[k].correlation > 0.8 && corr(p.0, p.1) == Some(hc[k].correlation)
  {
    var ps := HighPairs(|tickers|, corr);
    seq(|ps|, k requires 0 <= k < |ps| =>
      assert ps[k] in ps;
      HighCorrelation(tickers[ps[k].0], tickers[ps[k].1], corr(ps[k].0, ps[k].1).value))
  }

  // ---------------------------------------------------------------- weights and metrics

  datatype RiskLevel = Low | LowMedium | Medium | MediumHigh | HighRisk | VeryHigh

  /** The risk level of an annualised volatility: cut points 0.10, 0.15,
      0.20, 0.25 and 0.30, each band open at its lower end. */
  function RiskLevelOf(vol: real): (l: RiskLevel)
    ensures l == VeryHigh <==> vol > 0.30
    ensures l == HighRisk <==> 0.25 < vol <= 0.30
    ensures l == MediumHigh <==> 0.20 < vol <= 0.25
    ensures l == Medium <==> 0.15 < vol <= 0.20
    ensures l == LowMedium <==> 0.10 < vol <= 0.15
    ensures l == Low <==> vol <= 0.10
  {
    if vol > 0.30 then VeryHigh
    else if vol > 0.25 then HighRisk
    else if vol > 0.20 then MediumHigh
    else if vol > 0.15 then Medium
    else if vol > 0.10 then LowMedium
    else Low
  }

  function RiskRank(l: RiskLevel): nat
  {
    match l
    case Low => 0
    case LowMedium => 1
    case Medium => 2
    case MediumHigh => 3
    case HighRisk => 4
    case VeryHigh => 5
  }

  /** A more volatile portfolio never gets a lower risk level. */
  lemma RiskLevelMonotone(a: real, b: real)
    requires a <= b
    ensures RiskRank(RiskLevelOf(a)) <= RiskRank(RiskLevelOf(b))
  {
  }

  /** Mean individual volatility over portfolio volatility; 1.0 when the
      portfolio volatility is not positive. */
  function DiversificationRatio(avgVol: real, portfolioVol: real): (d: real)
    ensures portfolioVol <= 0.0 ==> d == 1.0
    ensures portfolioVol > 0.0 ==> d * portfolioVol == avgVol
  {
    if portfolioVol > 0.0 then avgVol / portfolioVol else 1.0
  }

  /** The benchmark statistics over the dates shared with the portfolio:
      covariance of portfolio and benchmark returns and the benchmark
      variance; `None` when the download failed or no date is shared. */
  datatype Benchmark = Benchmark(covariance: real, variance: real)

  /** Beta against the benchmark; 1.0 without benchmark data or when the
      benchmark variance is not positive. */
  function Beta(b: Option<Benchmark>): (beta: real)
    ensures b.None? || b.value.variance <= 0.0 ==> beta == 1.0
    ensures b.Some? && b.value.variance > 0.0 ==> beta * b.value.variance == b.value.covariance
  {
    if b.Some? && b.value.variance > 0.0 then b.value.covariance / b.value.variance else 1.0
  }

  /** Beta as the program computes it. The benchmark returns are a series
      named "Close", and the join that aligns them with the returns table
      adds the "_spy" suffix only to a column name both sides share. The
      table's columns are ticker symbols, so "Close_spy" exists only when
      a ticker is itself named "Close"; otherwise reading it raises a
      KeyError, which the handler turns into a beta of 1.0. */
  function BetaAsWritten(tickers: seq<string>, b: Option<Benchmark>): (beta: real)
    ensures "Close" !in tickers ==> beta == 1.0
    ensures "Close" in tickers ==> beta == Beta(b)
  {
    if "Close" in tickers then Beta(b) else 1.0
  }

  /** As written, the benchmark never moves beta for ordinary tickers: two
      different benchmark histories give the same beta. */
  lemma BetaIgnoresBenchmark(tickers: seq<string>, b1: Option<Benchmark>, b2: Option<Benchmark>)
    requires "Close" !in tickers
    ensures BetaAsWritten(tickers, b1) == BetaAsWritten(tickers, b2) == 1.0
  {
  }

  /** A portfolio of AAPL and MSFT whose returns move twice as much as the
      benchmark's: the program reports 1.0, the intended beta is 2.0. */
  lemma BetaAsWrittenDiffers()
    ensures BetaAsWritten(["AAPL", "MSFT"], Some(Benchmark(0.02, 0.01))) == 1.0
    ensures Beta(Some(Benchmark(0.02, 0.01))) == 2.0
  {
    assert "Close" !in ["AAPL", "MSFT"];
  }

  /** Which beta a report carries: the program's, or the intended one. */
  datatype BetaRule = JoinAsWritten | JoinCorrected

  function BetaOf(rule: BetaRule, tickers: seq<string>, b: Option<Benchmark>): real
  {
    match rule
    case JoinAsWritten => BetaAsWritten(tickers, b)
    case JoinCorrected => Beta(b)
  }

  datatype Warning = Concentration | LowDiversification | HighVolatility

  /** The warnings, in order: concentration when the high-correlation pairs
      outnumber half the holdings, low diversification below a ratio of
      1.2, and high volatility above 0.30. */
  function Warnings(pairs: nat, n: nat, diversification: real, vol: real): (w: seq<Warning>)
    ensures Concentration in w <==> 2 * pairs > n
    ensures LowDiversification in w <==> diversification < 1.2
    ensures HighVolatility in w <==> vol > 0.30
    ensures forall k, l :: 0 <= k < l < |w| ==> w[k] != w[l]
  {
    (if 2 * pairs > n then [Concentration] else [])
    + (if diversification < 1.2 then [LowDiversification] else [])
    + (if vol > 0.30 then [HighVolatility] else [])
  }

  /** The figures computed outside the model from the returns table. */
  datatype Statistics = Statistics(portfolioVol: real, avgIndividualVol: real,
                                   corr: (nat, nat) -> Option<real>, benchmark: Option<Benchmark>)

  datatype RiskResult =
    | RiskError(message: string)
    | RiskReport(tickers: seq<string>, volatility: real, riskLevel: RiskLevel, beta: real,
                 diversification: real, numTickers: nat, highCorrelations: seq<HighCorrelation>,
                 warnings: seq<Warning>)

  /** `analyze_portfolio`: an error for an empty download, for no complete
      row of returns and for fewer than two valid tickers; otherwise the
      report, whose beta follows `rule`. */
  function AnalyzePortfolio(data: Option<Frame>, stats: Statistics, rule: BetaRule): (r: RiskResult)
    ensures data.None? ==> r == RiskError("No data available")
    ensures data.Some? && Count(data.value.rows, Complete) == 0 ==>
              r == RiskError("Insufficient data for returns calculation")
    ensures data.Some? && Count(data.value.rows, Complete) > 0
            && |ValidTickers(DropIncompleteRows(data.value))| < 2 ==>
              r == RiskError("Need at least 2 tickers for portfolio analysis")
    ensures r.RiskReport? ==>
              data.Some? && r.tickers == ValidTickers(DropIncompleteRows(data.value))
              && r.highCorrelations == NamePairs(r.tickers, stats.corr)
              && |r.tickers| >= 2 && r.numTickers == |r.tickers|
              && r.riskLevel == RiskLevelOf(r.volatility) && r.volatility == stats.portfolioVol
              && r.beta == BetaOf(rule, r.tickers, stats.benchmark)
              && r.diversification == DiversificationRatio(stats.avgIndividualVol, stats.portfolioVol)
              && r.warnings == Warnings(|r.highCorrelations|, r.numTickers, r.diversification, r.volatility)
    ensures r.RiskReport? && rule == JoinAsWritten && "Close" !in r.tickers ==> r.beta == 1.0
    ensures r.RiskReport? && rule == JoinCorrected ==> r.beta == Beta(stats.benchmark)
  {
    if data.None? then RiskError("No data available")
    else
      var table := DropIncompleteRows(data.value);
      if table.rows == [] then RiskError("Insufficient data for returns calculation")
      else
        var valid := ValidTickers(table);
        if |valid| < 2 then RiskError("Need at least 2 tickers for portfolio analysis")
        else
          var high := NamePairs(valid, stats.corr);
          var div := DiversificationRatio(stats.avgIndividualVol, stats.portfolioVol);
          RiskReport(valid, stats.portfolioVol, RiskLevelOf(stats.portfolioVol), BetaOf(rule, valid, stats.benchmark),
                     div, |valid|, high, Warnings(|high|, |valid|, div, stats.portfolioVol))
  }

  /** On a well-formed table with at least one complete row, the report
      covers every ticker of the table exactly when there are at least two. */
  lemma ReportCoversAllTickers(f: Frame, stats: Statistics, rule: BetaRule)
    requires Rectangular(f) && Count(f.rows, Complete) > 0
    ensures |f.tickers| >= 2 ==>
              AnalyzePortfolio(Some(f), stats, rule).RiskReport?
              && AnalyzePortfolio(Some(f), stats, rule).tickers == f.tickers
    ensures |f.tickers| < 2 ==> AnalyzePortfolio(Some(f), stats, rule) == RiskError("Need at least 2 tickers for portfolio analysis")
  {
    ColumnFilterKeepsAll(f);
  }
}

=== FILE: screener.dfy ===
/** The enhanced smart-money screener (pipeline/smart_money_screener_v2.py):
    fundamental, analyst and relative-strength scores, the weighted
    composite and its letter grade, and the screening run that joins the
    volume and holdings tables, keeps accumulation candidates, scores them
    and ranks them by composite. */
module Screener {
  import opened Common
  import opened Sorting
  import opened Technical

  /** The fields of a ticker's info record the screener reads; `None` is a missing key. */
  datatype StockInfo = StockInfo(
    trailingPE: Option<real>, revenueGrowth: Option<real>, returnOnEquity: Option<real>,
    marketCap: Option<real>, longName: Option<string>, shortName: Option<string>,
    currentPrice: Option<real>, regularMarketPrice: Option<real>, targetMeanPrice: Option<real>,
    recommendationKey: Option<string>, numberOfAnalystOpinions: Option<int>)

  // ---------------------------------------------------------------- fundamentals

  datatype Size = MegaCap | LargeCap | MidCap | SmallCap | MicroCap | UnknownSize

  /** P/E points: +15 for 0 < P/E < 15, +10 for 15..25, -10 above 40, -15 for
      negative earnings; a missing (zero) or 25..40 P/E scores 0. */
  function PePoints(pe: real): (p: int)
    ensures p == 15 <==> 0.0 < pe < 15.0
    ensures p == 10 <==> 15.0 <= pe < 25.0
    ensures p == -10 <==> pe > 40.0
    ensures p == -15 <==> pe < 0.0
    ensures p == 0 <==> pe == 0.0 || 25.0 <= pe <= 40.0
  {
    if 0.0 < pe < 15.0 then 15
    else if 15.0 <= pe < 25.0 then 10
    else if pe > 40.0 then -10
    else if pe < 0.0 then -15
    else 0
  }

  /** Revenue-growth points: +15 above 20%, +10 above 10%, +5 above 0, -10 below 0. */
  function GrowthPoints(g: real): (p: int)
    ensures p > 0 <==> g > 0.0
    ensures p < 0 <==> g < 0.0
    ensures p == 15 <==> g > 0.2
  {
    if g > 0.2 then 15 else if g > 0.1 then 10 else if g > 0.0 then 5 else if g < 0.0 then -10 else 0
  }

  /** ROE points: +10 above 20%, +5 above 10%, -10 below 0. */
  function RoePoints(roe: real): (p: int)
    ensures p == 10 <==> roe > 0.2
    ensures p == 5 <==> 0.1 < roe <= 0.2
    ensures p == -10 <==> roe < 0.0
  {
    if roe > 0.2 then 10 else if roe > 0.1 then 5 else if roe < 0.0 then -10 else 0
  }

  /** Market-cap class: mega above $200B, large above $10B, mid above $2B,
      small above $300M, micro otherwise. */
  function SizeOf(marketCap: real): (s: Size)
    ensures s != UnknownSize
    ensures s == MegaCap <==> marketCap > 200000000000.0
    ensures s == MicroCap <==> marketCap <= 300000000.0
  {
    if marketCap > 200000000000.0 then MegaCap
    else if marketCap > 10000000000.0 then LargeCap
    else if marketCap > 2000000000.0 then MidCap
    else if marketCap > 300000000.0 then SmallCap
    else MicroCap
  }

  function SizeRank(s: Size): nat
  {
    match s
    case UnknownSize => 0
    case MicroCap => 1
    case SmallCap => 2
    case MidCap => 3
    case LargeCap => 4
    case MegaCap => 5
  }

  /** A larger company never lands in a smaller class. */
  lemma SizeMonotone(a: real, b: real)
    requires a <= b
    ensures SizeRank(SizeOf(a)) <= SizeRank(SizeOf(b))
  {
  }

  datatype FundResult = FundResult(pe: Option<real>, revenueGrowthPct: real, roePct: real,
                                   marketCapB: real, size: Size, score: int)

  const DefaultFundamental := FundResult(None, 0.0, 0.0, 0.0, UnknownSize, 50)

  /** `get_fundamental_analysis`: missing or zero fields count as 0; a failed
      lookup gives the neutral default. The score lies in [15, 90], so the
      0-100 clamp never changes it. */
  function FundamentalAnalysis(info: Option<StockInfo>): (f: FundResult)
    ensures 15 <= f.score <= 90
    ensures info.None? ==> f == DefaultFundamental
    ensures f.size == UnknownSize <==> info.None?
    ensures info.Some? ==> OrElse(f.pe, 0.0) == OrElse(info.value.trailingPE, 0.0) && f.pe != Some(0.0)
                           && f.revenueGrowthPct == OrElse(info.value.revenueGrowth, 0.0) * 100.0
                           && f.roePct == OrElse(info.value.returnOnEquity, 0.0) * 100.0
                           && f.size == SizeOf(OrElse(info.value.marketCap, 0.0))
    ensures info.Some? ==> f.score == Clamp(50 + PePoints(OrElse(f.pe, 0.0)) + GrowthPoints(f.revenueGrowthPct / 100.0)
                                            + RoePoints(f.roePct / 100.0), 0, 100)
  {
    match info
    case None => DefaultFundamental
    case Some(i) =>
      var pe := OrElse(i.trailingPE, 0.0);
      var growth := OrElse(i.revenueGrowth, 0.0);
      var roe := OrElse(i.returnOnEquity, 0.0);
      var cap := OrElse(i.marketCap, 0.0);
      var score := Clamp(50 + PePoints(pe) + GrowthPoints(growth) + RoePoints(roe), 0, 100);
      FundResult(if pe != 0.0 then Some(pe) else None, growth * 100.0, roe * 100.0,
                 cap / 1000000000.0, SizeOf(cap), score)
  }

  // ---------------------------------------------------------------- analysts

  /** Recommendation points (`rec_map.get(key, 0)`). */
  function RecPoints(rec: string): (p: int)
    ensures -25 <= p <= 25
    ensures rec !in ["strongBuy", "buy", "hold", "sell", "strongSell"] ==> p == 0
  {
    if rec == "strongBuy" then 25
    else if rec == "buy" then 20
    else if rec == "hold" then 0
    else if rec == "sell" then -15
    else if rec == "strongSell" then -25
    else 0
  }

  /** Upside to the mean target in percent, 0 unless both prices are positive. */
  function Upside(price: real, target: real): (u: real)
    ensures price > 0.0 && target > 0.0 ==> (u > 0.0 <==> target > price) && (u < 0.0 <==> target < price)
    ensures price <= 0.0 || target <= 0.0 ==> u == 0.0
  {
    if price > 0.0 && target > 0.0 then
      RatioVersusOne(target, price);
      (target / price - 1.0) * 100.0
    else 0.0
  }

  /** Upside points: +20 above 30%, +15 above 20%, +10 above 10%, +5 above 0, -15 below -10%. */
  function UpsidePoints(u: real): (p: int)
    ensures p > 0 <==> u > 0.0
    ensures p == -15 <==> u < -10.0
    ensures p == 0 <==> -10.0 <= u <= 0.0
  {
    if u > 30.0 then 20 else if u > 20.0 then 15 else if u > 10.0 then 10
    else if u > 0.0 then 5 else if u < -10.0 then -15 else 0
  }

  /** A larger upside never scores fewer points. */
  lemma UpsidePointsMonotone(a: real, b: real)
    requires a <= b
    ensures UpsidePoints(a) <= UpsidePoints(b)
  {
  }

  datatype AnalystResult = AnalystResult(companyName: string, currentPrice: real, targetPrice: Option<real>,
                                         upside: real, recommendation: string, numAnalysts: int, score: int)

  const DefaultAnalyst := AnalystResult("", 0.0, None, 0.0, "none", 0, 50)

  /** `get_analyst_ratings`: the long name, else the short name, else the
      ticker; the current price, else the regular market price, else 0; a
      failed lookup gives the neutral default. The score lies in [10, 95]. */
  function AnalystRatings(ticker: string, info: Option<StockInfo>): (a: AnalystResult)
    ensures 10 <= a.score <= 95
    ensures info.None? ==> a == DefaultAnalyst
    ensures info.Some? ==> a.companyName != "" || ticker == ""
    ensures info.Some? && a.currentPrice > 0.0 && a.targetPrice.Some? && a.targetPrice.value > 0.0 ==>
              (a.upside > 0.0 <==> a.targetPrice.value > a.currentPrice)
    ensures info.Some? ==> a.upside == Upside(a.currentPrice, OrElse(a.targetPrice, 0.0)) && a.targetPrice != Some(0.0)
    ensures info.Some? ==> a.score == Clamp(50 + RecPoints(a.recommendation) + UpsidePoints(a.upside), 0, 100)
  {
    match info
    case None => DefaultAnalyst
    case Some(i) =>
      var name := NonEmptyOr(i.longName, NonEmptyOr(i.shortName, ticker));
      var price := OrElse(i.currentPrice, OrElse(i.regularMarketPrice, 0.0));
      var target := OrElse(i.targetMeanPrice, 0.0);
      var rec := if i.recommendationKey.Some? then i.recommendationKey.value else "none";
      var analysts := if i.numberOfAnalystOpinions.Some? && i.numberOfAnalystOpinions.value != 0
                      then i.numberOfAnalystOpinions.value else 0;
      var up := Upside(price, target);
      var score := Clamp(50 + RecPoints(rec) + UpsidePoints(up), 0, 100);
      AnalystResult(name, price, if target != 0.0 then Some(target) else None, up, rec, analysts, score)
  }

  // ---------------------------------------------------------------- relative strength

  /** Percent return from day `k` to the last day. */
  function Return(c: seq<Close>, k: nat): real
    requires k < |c|
  {
    (c[|c| - 1] as real / c[k] as real - 1.0) * 100.0
  }

  /** Points for the 20-day excess return: +25 above 10, +15 above 5, +8 above 0,
      -20 below -10, -10 below -5. */
  function Rs20Points(x: real): (p: int)
    ensures p > 0 <==> x > 0.0
    ensures p < 0 <==> x < -5.0
  {
    if x > 10.0 then 25 else if x > 5.0 then 15 else if x > 0.0 then 8
    else if x < -10.0 then -20 else if x < -5.0 then -10 else 0
  }

  /** Points for the whole-window excess return: +15 above 15, +8 above 5, -15 below -15. */
  function Rs60Points(x: real): (p: int)
    ensures p > 0 <==> x > 5.0
    ensures p < 0 <==> x < -15.0
  {
    if x > 15.0 then 15 else if x > 5.0 then 8 else if x < -15.0 then -15 else 0
  }

  datatype RsResult = RsResult(rs20: real, rs60: real, score: int)

  const NeutralRs := RsResult(0.0, 0.0, 50)

  /** `get_relative_strength`: the stock's returns minus the benchmark's over
      the last 20 days and over the whole window (from its first close);
      neutral when the benchmark or the stock has fewer than 20 closes or the
      lookup failed. The score lies in [15, 90]. */
  function RelativeStrength(spy: seq<Close>, history: Option<seq<Close>>): (r: RsResult)
    ensures 15 <= r.score <= 90
    ensures |spy| < 20 || history.None? || |history.value| < 20 ==> r == NeutralRs
  {
    if |spy| < 20 || history.None? || |history.value| < 20 then NeutralRs
    else
      var h := history.value;
      var s20 := if |h| >= 21 then Return(h, |h| - 21) else 0.0;
      var s60 := Return(h, 0);
      var b20 := if |spy| >= 21 then Return(spy, |spy| - 21) else 0.0;
      var b60 := Return(spy, 0);
      var rs20 := s20 - b20;
      var rs60 := s60 - b60;
      RsResult(rs20, rs60, Clamp(50 + Rs20Points(rs20) + Rs60Points(rs60), 0, 100))
  }

  /** A stock that moves exactly like the benchmark has no relative strength
      and scores the neutral 50. */
  lemma TrackingBenchmarkIsNeutral(spy: seq<Close>)
    ensures RelativeStrength(spy, Some(spy)) == NeutralRs
  {
  }

  /** Outperforming the benchmark in both windows scores above neutral. */
  lemma OutperformingScoresAboveNeutral(spy: seq<Close>, h: seq<Close>)
    requires |spy| >= 21 && |h| >= 21
    requires Return(h, |h| - 21) > Return(spy, |spy| - 21)
    requires Return(h, 0) - Return(spy, 0) >= 0.0
    ensures RelativeStrength(spy, Some(h)).score > 50
  {
  }

  // ---------------------------------------------------------------- composite

  /** The weighted composite: supply/demand 25%, institutional 20%,
      technical 20%, fundamental 15%, analyst 10%, relative strength 10%. */
  function Composite(sd: int, inst: int, tech: int, fund: int, analyst: int, rs: int): real
  {
    sd as real * 0.25 + inst as real * 0.20 + tech as real * 0.20
    + fund as real * 0.15 + analyst as real * 0.10 + rs as real * 0.10
  }

  /** The weights sum to one: equal component scores give that score, and
      scores within [lo, hi] give a composite within [lo, hi]. */
  lemma CompositeIsAverage(sd: int, inst: int, tech: int, fund: int, analyst: int, rs: int, lo: int, hi: int)
    requires lo <= sd <= hi && lo <= inst <= hi && lo <= tech <= hi
    requires lo <= fund <= hi && lo <= analyst <= hi && lo <= rs <= hi
    ensures lo as real <= Composite(sd, inst, tech, fund, analyst, rs) <= hi as real
    ensures Composite(lo, lo, lo, lo, lo, lo) == lo as real
  {
  }

  /** Raising any component never lowers the composite. */
  lemma CompositeMonotone(s1: int, i1: int, t1: int, f1: int, a1: int, r1: int,
                          s2: int, i2: int, t2: int, f2: int, a2: int, r2: int)
    requires s1 <= s2 && i1 <= i2 && t1 <= t2 && f1 <= f2 && a1 <= a2 && r1 <= r2
    ensures Composite(s1, i1, t1, f1, a1, r1) <= Composite(s2, i2, t2, f2, a2, r2)
  {
  }

  datatype Grade = S | A | B | C | D | F

  function GradeRank(g: Grade): nat
  {
    match g
    case F => 0
    case D => 1
    case C => 2
    case B => 3
    case A => 4
    case S => 5
  }

  /** Letter grade of a composite: S from 80, A from 70, B from 60, C from 50,
      D from 40, F below. */
  function GradeOf(c: real): (g: Grade)
    ensures g == S <==> c >= 80.0
    ensures g == A <==> 70.0 <= c < 80.0
    ensures g == B <==> 60.0 <= c < 70.0
    ensures g == C <==> 50.0 <= c < 60.0
    ensures g == D <==> 40.0 <= c < 50.0
    ensures g == F <==> c < 40.0
  {
    if c >= 80.0 then S else if c >= 70.0 then A else if c >= 60.0 then B
    else if c >= 50.0 then C else if c >= 40.0 then D else F
  }

  /** A higher composite never earns a lower grade. */
  lemma GradeMonotone(a: real, b: real)
    requires a <= b
    ensures GradeRank(GradeOf(a)) <= GradeRank(GradeOf(b))
  {
  }

  /** The grade is taken from the unrounded composite while the reported
      score is rounded to one decimal, so a reported 60.0 can carry grade C:
      supply/demand 60, institutional 60, technical 58, fundamental 65,
      analyst 50 and relative strength 66 give 59.95. */
  lemma GradeBeforeRounding()
    ensures Composite(60, 60, 58, 65, 50, 66) == 59.95
    ensures Round1(Composite(60, 60, 58, 65, 50, 66)) == 60.0
    ensures GradeOf(Composite(60, 60, 58, 65, 50, 66)) == C
  {
    assert (59.95 * 10.0).Floor == 599;
    assert RoundHalfEven(599.5) == 600;
  }

  // ---------------------------------------------------------------- screening run

  /** A row of the volume-analysis table and of the holdings table. */
  datatype VolumeRow = VolumeRow(ticker: string, name: string, sdScore: int)
  datatype HoldingRow = HoldingRow(ticker: string, instScore: int)

  /** A row of their join on `ticker`. */
  datatype Candidate = Candidate(ticker: string, name: string, sdScore: int, instScore: int)

  /** Inner join on ticker: each volume row, in order, paired with each
      matching holdings row, in order. */
  function Join(vol: seq<VolumeRow>, hold: seq<HoldingRow>): (j: seq<Candidate>)
    ensures forall c :: c in j <==>
              exists v, h :: v in vol && h in hold && v.ticker == h.ticker
                             && c == Candidate(v.ticker, v.name, v.sdScore, h.instScore)
  {
    if vol == [] then []
    else
      var v := vol[0];
      var here := Matches(v, hold);
      var rest := Join(vol[1..], hold);
      assert forall x :: x in vol <==> x == v || x in vol[1..];
      here + rest
  }

  /** The join rows of one volume row. */
  function Matches(v: VolumeRow, hold: seq<HoldingRow>): (m: seq<Candidate>)
    ensures forall c :: c in m <==>
              exists h :: h in hold && v.ticker == h.ticker
                          && c == Candidate(v.ticker, v.name, v.sdScore, h.instScore)
  {
    if hold == [] then []
    else
      var rest := Matches(v, hold[1..]);
      assert forall x :: x in hold <==> x == hold[0] || x in hold[1..];
      if hold[0].ticker == v.ticker
      then [Candidate(v.ticker, v.name, v.sdScore, hold[0].instScore)] + rest
      else rest
  }

  /** The pre-filter: accumulation candidates only. */
  predicate IsCandidate(c: Candidate) { c.sdScore >= 50 }

  /** The market data the run reads, keyed by ticker: six months and three
      months of daily closes and the info record (`None` where the lookup
      fails), and the benchmark's three months of closes. */
  datatype Market = Market(history6m: string -> Option<seq<Close>>, history3m: string -> Option<seq<Close>>,
                           info: string -> Option<StockInfo>, spy: seq<Close>)

  /** One screened stock. `composite` is the reported (rounded) composite. */
  datatype ScreenResult = ScreenResult(
    ticker: string, name: string, composite: real, grade: Grade,
    sd: int, inst: int, tech: int, fund: int, analyst: int, rs: int,
    currentPrice: real, upside: real, maSignal: MaSignal, cross: Cross, size: Size)

  /** Score one candidate. The name comes from the analyst record even when
      that record is the default with an empty name. */
  function ScreenRow(m: Market, c: Candidate): (r: ScreenResult)
    ensures r.ticker == c.ticker && r.sd == c.sdScore && r.inst == c.instScore
    ensures 15 <= r.tech <= 100 && 15 <= r.fund <= 90 && 10 <= r.analyst <= 95 && 15 <= r.rs <= 90
    ensures var t := TechnicalAnalysis(m.history6m(c.ticker));
            r.tech == t.score && r.maSignal == t.maSignal && r.cross == t.cross
    ensures var f := FundamentalAnalysis(m.info(c.ticker));
            r.fund == f.score && r.size == f.size
    ensures var a := AnalystRatings(c.ticker, m.info(c.ticker));
            r.analyst == a.score && r.name == a.companyName && r.currentPrice == a.currentPrice && r.upside == a.upside
    ensures r.rs == RelativeStrength(m.spy, m.history3m(c.ticker)).score
    ensures r.composite == Round1(Composite(r.sd, r.inst, r.tech, r.fund, r.analyst, r.rs))
    ensures r.grade == GradeOf(Composite(r.sd, r.inst, r.tech, r.fund, r.analyst, r.rs))
  {
    var tech := TechnicalAnalysis(m.history6m(c.ticker));
    var fund := FundamentalAnalysis(m.info(c.ticker));
    var analyst := AnalystRatings(c.ticker, m.info(c.ticker));
    var rs := RelativeStrength(m.spy, m.history3m(c.ticker));
    var comp := Composite(c.sdScore, c.instScore, tech.score, fund.score, analyst.score, rs.score);
    ScreenResult(c.ticker, analyst.companyName, Round1(comp), GradeOf(comp),
                 c.sdScore, c.instScore, tech.score, fund.score, analyst.score, rs.score,
                 analyst.currentPrice, analyst.upside, tech.maSignal, tech.cross, fund.size)
  }

  function ScreenAll(m: Market, cs: seq<Candidate>): (r: seq<ScreenResult>)
    ensures |r| == |cs| && forall i :: 0 <= i < |cs| ==> r[i] == ScreenRow(m, cs[i])
  {
    seq(|cs|, i requires 0 <= i < |cs| => ScreenRow(m, cs[i]))
  }

  function CompositeKey(r: ScreenResult): real { r.composite }

  /** `run_screening`: join, keep supply/demand >= 50, score every candidate,
      sort by reported composite (highest first) and rank 1..n. Every
      candidate is kept; nothing is cut to a top N here. */
  function RunScreening(vol: seq<VolumeRow>, hold: seq<HoldingRow>, m: Market): (r: seq<Ranked<ScreenResult>>)
    ensures |r| == Count(Join(vol, hold), IsCandidate)
    ensures forall i :: 0 <= i < |r| ==> r[i].rank == i + 1
    ensures forall i, j :: 0 <= i < j < |r| ==> r[i].item.composite >= r[j].item.composite
    ensures multiset(Items(r)) == multiset(ScreenAll(m, Filter(Join(vol, hold), IsCandidate)))
  {
    var rows := ScreenAll(m, Filter(Join(vol, hold), IsCandidate));
    var r := RankBy(rows, CompositeKey);
    CountFilter(Join(vol, hold), IsCandidate);
    RankedByComposite(r);
    r
  }

  /** A ranking sorted by composite, read on the ranked rows themselves. */
  lemma RankedByComposite(r: seq<Ranked<ScreenResult>>)
    requires SortedDesc(Items(r), CompositeKey)
    ensures forall i, j :: 0 <= i < j < |r| ==> r[i].item.composite >= r[j].item.composite
  {
    forall i, j | 0 <= i < j < |r| ensures r[i].item.composite >= r[j].item.composite {
      assert CompositeKey(Items(r)[i]) >= CompositeKey(Items(r)[j]);
    }
  }

  /** Every ranked row comes from a joined candidate with supply/demand at
      least 50; when the two tables hold scores in the ranges their
      analyzers produce, its composite lies in [24.2, 92.8]. */
  lemma ScreenedRowsAreCandidates(vol: seq<VolumeRow>, hold: seq<HoldingRow>, m: Market, k: nat)
    requires forall v :: v in vol ==> v.sdScore <= 95
    requires forall h :: h in hold ==> 20 <= h.instScore <= 85
    requires k < |RunScreening(vol, hold, m)|
    ensures var x := RunScreening(vol, hold, m)[k].item;
            x.sd >= 50 && 24.2 <= x.composite <= 92.8
            && exists v, h :: v in vol && h in hold && v.ticker == h.ticker == x.ticker
                              && v.sdScore == x.sd && h.instScore == x.inst
  {
    var j := Join(vol, hold);
    var cs := Filter(j, IsCandidate);
    var r := RunScreening(vol, hold, m);
    var x := r[k].item;
    assert x == Items(r)[k];
    assert x in multiset(ScreenAll(m, cs));
    var c := ScreenedFrom(m, cs, x);
    CandidateInJoin(j, cs, c);
    JoinSource(vol, hold, c);
    CompositeRange(x);
  }

  /** A filtered candidate passed the filter and sits in the join. */
  lemma CandidateInJoin(j: seq<Candidate>, cs: seq<Candidate>, c: Candidate)
    requires cs == Filter(j, IsCandidate) && c in cs
    ensures c in j && c.sdScore >= 50
  {
    var i :| 0 <= i < |cs| && cs[i] == c;
    assert c in multiset(cs);
  }

  /** A join row pairs a volume row with a holdings row of the same ticker. */
  lemma JoinSource(vol: seq<VolumeRow>, hold: seq<HoldingRow>, c: Candidate)
    requires c in Join(vol, hold)
    ensures exists v, h :: v in vol && h in hold && v.ticker == h.ticker == c.ticker
                           && v.sdScore == c.sdScore && h.instScore == c.instScore
  {
  }

  /** A screened row is the scoring of one of the candidates it was screened from. */
  lemma ScreenedFrom(m: Market, cs: seq<Candidate>, x: ScreenResult) returns (c: Candidate)
    requires x in multiset(ScreenAll(m, cs))
    ensures c in cs && x == ScreenRow(m, c)
  {
    var rows := ScreenAll(m, cs);
    assert x in rows;
    var i :| 0 <= i < |rows| && rows[i] == x;
    c := cs[i];
  }

  /** With supply/demand at least 50 and every other score in its range, the
      reported composite lies in [24.2, 92.8]. */
  lemma CompositeRange(x: ScreenResult)
    requires 50 <= x.sd <= 95 && 20 <= x.inst <= 85
    requires 15 <= x.tech <= 100 && 15 <= x.fund <= 90 && 10 <= x.analyst <= 95 && 15 <= x.rs <= 90
    requires x.composite == Round1(Composite(x.sd, x.inst, x.tech, x.fund, x.analyst, x.rs))
    ensures 24.2 <= x.composite <= 92.8
  {
    var c := Composite(x.sd, x.inst, x.tech, x.fund, x.analyst, x.rs);
    assert 24.25 <= c <= 92.75;
    Round1Monotone(24.25, c);
    Round1Monotone(c, 92.75);
    assert RoundHalfEven(242.5) == 242;
    assert RoundHalfEven(927.5) == 928;
  }
}

=== FILE: sector_heatmap.dfy ===
/** The sector heatmap (pipeline/sector_heatmap.py): daily change, 5-day
    return, activity weight and heat colour of each sector ETF, ordered by
    weight; and the treemap of representative stocks grouped by sector,
    each group ordered by weight and the groups by total weight. */
module SectorHeatmap {
  import opened Common
  import opened Sorting

  datatype HeatColor = DarkGreen | Green | LightGreen | LightRed | Red | DarkRed

  /** Heat colour of a percent change: cut points 3, 1, 0, -1, -3, each
      band closed at its lower end. */
  function ColorOf(change: real): (c: HeatColor)
    ensures c == DarkGreen <==> change >= 3.0
    ensures c == Green <==> 1.0 <= change < 3.0
    ensures c == LightGreen <==> 0.0 <= change < 1.0
    ensures c == LightRed <==> -1.0 <= change < 0.0
    ensures c == Red <==> -3.0 <= change < -1.0
    ensures c == DarkRed <==> change < -3.0
  {
    if change >= 3.0 then DarkGreen
    else if change >= 1.0 then Green
    else if change >= 0.0 then LightGreen
    else if change >= -1.0 then LightRed
    else if change >= -3.0 then Red
    else DarkRed
  }

  /** The colour's hex code. */
  function Hex(c: HeatColor): string
  {
    match c
    case DarkGreen => "#00C853"
    case Green => "#4CAF50"
    case LightGreen => "#81C784"
    case LightRed => "#EF9A9A"
    case Red => "#F44336"
    case DarkRed => "#B71C1C"
  }

  /** 5 for the greenest colour down to 0 for the reddest. */
  function Greenness(c: HeatColor): nat
  {
    match c
    case DarkGreen => 5
    case Green => 4
    case LightGreen => 3
    case LightRed => 2
    case Red => 1
    case DarkRed => 0
  }

  /** A higher change never maps to a redder colour. */
  lemma ColorMonotone(a: real, b: real)
    requires a <= b
    ensures Greenness(ColorOf(a)) <= Greenness(ColorOf(b))
  {
  }

  // ---------------------------------------------------------------- sector ETFs

  /** One daily bar of a sector ETF. */
  datatype Bar = Bar(date: int, close: real, volume: nat)

  /** A fetched history; `hasVolume` is false when the volume column is absent. */
  datatype History = History(bars: seq<Bar>, hasVolume: bool)

  /** The name and display colour of a sector ETF. */
  datatype SectorInfo = SectorInfo(name: string, color: string)

  datatype SectorRow = SectorRow(ticker: string, name: string, color: string, price: real,
                                 changePct: real, return5d: real, volume: nat, weight: real, heat: HeatColor)

  function BarKey(b: Bar): real { -(b.date as real) }

  /** Python's `round(x, 0)`. */
  function Round0(x: real): real { RoundHalfEven(x) as real }

  /** The row of one ETF: `None` for fewer than two bars. The 5-day return
      falls back to the daily change with fewer than five bars; a missing
      volume column counts as zero volume. */
  function SectorRowOf(ticker: string, info: SectorInfo, h: History): (r: Option<SectorRow>)
    ensures r.None? <==> |h.bars| < 2
    ensures r.Some? ==> r.value.ticker == ticker && r.value.heat == ColorOf(r.value.changePct)
    ensures r.Some? && |h.bars| < 5 ==> r.value.return5d == r.value.changePct
    ensures r.Some? && !h.hasVolume ==> r.value.volume == 0 && r.value.weight == 0.0
  {
    if |h.bars| < 2 then None
    else
      var s := SortDesc(h.bars, BarKey);
      var n := |s|;
      var cur := s[n - 1].close;
      var change := PercentChange(cur, s[n - 2].close);
      var volume := if h.hasVolume then s[n - 1].volume else 0;
      var ret5 := if n >= 5 then PercentChange(cur, s[n - 5].close) else change;
      Some(SectorRow(ticker, info.name, info.color, cur, change, ret5, volume,
                     Round0(cur * volume as real), ColorOf(change)))
  }

  function SectorStep(fetch: string -> Option<History>): ((string, SectorInfo)) -> Option<SectorRow>
  {
    (e: (string, SectorInfo)) => var h := fetch(e.0); if h.Some? then SectorRowOf(e.0, e.1, h.value) else None
  }

  function WeightKey(r: SectorRow): real { r.weight }

  /** `get_sector_performance`: the rows of the ETFs whose history could be
      fetched and has at least two bars, ordered by rounded weight, highest
      first. */
  function SectorPerformance(etfs: seq<(string, SectorInfo)>, fetch: string -> Option<History>): (rows: seq<SectorRow>)
    ensures |rows| == Count(etfs, Defined(SectorStep(fetch)))
    ensures SortedDesc(rows, WeightKey)
    ensures multiset(rows) == multiset(FilterMap(etfs, SectorStep(fetch)))
  {
    SortDesc(FilterMap(etfs, SectorStep(fetch)), WeightKey)
  }

  /** Every row is the row of a listed ETF whose history has at least two bars. */
  lemma SectorRowSource(etfs: seq<(string, SectorInfo)>, fetch: string -> Option<History>, row: SectorRow)
    requires row in multiset(SectorPerformance(etfs, fetch))
    ensures exists i :: 0 <= i < |etfs| && fetch(etfs[i].0).Some? && |fetch(etfs[i].0).value.bars| >= 2
                        && row == SectorRowOf(etfs[i].0, etfs[i].1, fetch(etfs[i].0).value).value
  {
    var rows := FilterMap(etfs, SectorStep(fetch));
    var k :| 0 <= k < |rows| && rows[k] == row;
    var i :| 0 <= i < |etfs| && SectorStep(fetch)(etfs[i]) == Some(rows[k]);
  }

  // ---------------------------------------------------------------- treemap

  /** A stock's series after dropping missing prices, with its volumes. */
  datatype Series = Series(prices: seq<real>, volumes: seq<nat>)

  /** One treemap tile. */
  datatype Tile = Tile(x: string, y: real, price: real, change: real, color: HeatColor)

  /** One treemap group. */
  datatype Group = Group(name: string, data: seq<Tile>)

  /** Volume used for the weight when the volume series is empty. */
  const DefaultVolume := 100000

  /** The tile of one stock: `None` when it has no series or fewer than two
      prices; an empty volume series counts as 100000 shares. */
  function TileOf(ticker: string, s: Option<Series>): (t: Option<Tile>)
    ensures t.None? <==> s.None? || |s.value.prices| < 2
    ensures t.Some? ==> t.value.x == ticker && t.value.color == ColorOf(t.value.change)
    ensures t.Some? && s.value.volumes == [] ==>
              t.value.y == Round0(s.value.prices[|s.value.prices| - 1] * DefaultVolume as real)
  {
    if s.None? || |s.value.prices| < 2 then None
    else
      var p := s.value.prices;
      var cur := p[|p| - 1];
      var change := PercentChange(cur, p[|p| - 2]);
      var vol := if |s.value.volumes| > 0 then s.value.volumes[|s.value.volumes| - 1] else DefaultVolume;
      Some(Tile(ticker, Round0(cur * vol as real), cur, change, ColorOf(change)))
  }

  function TileStep(data: string -> Option<Series>): string -> Option<Tile>
  {
    t => TileOf(t, data(t))
  }

  function TileKey(t: Tile): real { t.y }

  function SumY(tiles: seq<Tile>): real
  {
    if tiles == [] then 0.0 else tiles[0].y + SumY(tiles[1..])
  }

  function GroupKey(g: Group): real { SumY(g.data) }

  /** `all_tickers`: every listed stock, sector by sector, repeats included. */
  function AllTickers(sectors: seq<(string, seq<string>)>): (ts: seq<string>)
    ensures forall k :: 0 <= k < |sectors| ==> multiset(sectors[k].1) <= multiset(ts)
  {
    if sectors == [] then []
    else
      var rest := AllTickers(sectors[1..]);
      forall k | 0 < k < |sectors| ensures multiset(sectors[k].1) <= multiset(sectors[0].1 + rest) {
        assert sectors[1..][k - 1] == sectors[k];
      }
      sectors[0].1 + rest
  }

  /** `ticker_to_sector`: the sector a stock is filed under is the last one
      listing it, since a later listing overwrites an earlier one. */
  function OwnerOf(sectors: seq<(string, seq<string>)>, t: string): (o: Option<string>)
    ensures o.None? <==> forall k :: 0 <= k < |sectors| ==> t !in sectors[k].1
  {
    if sectors == [] then None
    else if t in sectors[|sectors| - 1].1 then Some(sectors[|sectors| - 1].0)
    else
      var o := OwnerOf(sectors[..|sectors| - 1], t);
      assert forall k :: 0 <= k < |sectors| - 1 ==> sectors[..|sectors| - 1][k] == sectors[k];
      o
  }

  /** The listing of stock `t` under sector `k` is the last one: that sector owns it. */
  lemma {:induction false} LastListingWins(sectors: seq<(string, seq<string>)>, t: string, k: nat)
    requires k < |sectors| && t in sectors[k].1
    requires forall j :: k < j < |sectors| ==> t !in sectors[j].1
    ensures OwnerOf(sectors, t) == Some(sectors[k].0)
  {
    if k < |sectors| - 1 {
      var init := sectors[..|sectors| - 1];
      assert init[k] == sectors[k];
      assert forall j :: k < j < |init| ==> init[j] == sectors[j];
      LastListingWins(init, t, k);
    }
  }

  /** The stocks filed under sector `name`. */
  function FiledUnder(sectors: seq<(string, seq<string>)>, name: string): string -> bool
  {
    t => OwnerOf(sectors, t) == Some(name)
  }

  /** The tiles of sector `name`, heaviest first, in the order the loop over
      `all_tickers` appends them (a stock listed twice is appended twice);
      `None` when the sector has no tile. */
  function GroupOf(data: string -> Option<Series>, sectors: seq<(string, seq<string>)>, name: string): (g: Option<Group>)
    ensures g.Some? ==> g.value.name == name && g.value.data != [] && SortedDesc(g.value.data, TileKey)
    ensures g.Some? ==> forall i :: 0 <= i < |g.value.data| ==> OwnerOf(sectors, g.value.data[i].x) == Some(name)
    ensures g.Some? ==> multiset(g.value.data)
                        == multiset(FilterMap(Filter(AllTickers(sectors), FiledUnder(sectors, name)), TileStep(data)))
    ensures g.None? <==> Count(Filter(AllTickers(sectors), FiledUnder(sectors, name)), Defined(TileStep(data))) == 0
  {
    var filed := Filter(AllTickers(sectors), FiledUnder(sectors, name));
    var g := GroupFrom(name, filed, data);
    OwnedTiles(sectors, name, filed, g);
    g
  }

  /** The group named `name` of the tiles of the stocks `filed`, heaviest first. */
  function GroupFrom(name: string, filed: seq<string>, data: string -> Option<Series>): (g: Option<Group>)
    ensures g.Some? ==> g.value.name == name && g.value.data != [] && SortedDesc(g.value.data, TileKey)
    ensures g.Some? ==> forall i :: 0 <= i < |g.value.data| ==> g.value.data[i].x in filed
    ensures g.Some? ==> multiset(g.value.data) == multiset(FilterMap(filed, TileStep(data)))
    ensures g.None? <==> Count(filed, Defined(TileStep(data))) == 0
  {
    var tiles := FilterMap(filed, TileStep(data));
    if tiles == [] then None
    else
      var sorted := SortDesc(tiles, TileKey);
      TilesOfSector(filed, data, tiles, sorted);
      Some(Group(name, sorted))
  }

  /** Every tile, in any order, belongs to one of the listed stocks. */
  lemma TilesOfSector(names: seq<string>, data: string -> Option<Series>, tiles: seq<Tile>, sorted: seq<Tile>)
    requires forall k :: 0 <= k < |tiles| ==> exists j :: 0 <= j < |names| && TileStep(data)(names[j]) == Some(tiles[k])
    requires multiset(sorted) == multiset(tiles)
    ensures forall i :: 0 <= i < |sorted| ==> sorted[i].x in names
  {
    forall i | 0 <= i < |sorted| ensures sorted[i].x in names {
      assert sorted[i] in multiset(tiles);
      var k :| 0 <= k < |tiles| && tiles[k] == sorted[i];
      var j :| 0 <= j < |names| && TileStep(data)(names[j]) == Some(tiles[k]);
    }
  }

  /** Tiles of stocks filed under sector `name` are owned by that sector. */
  lemma OwnedTiles(sectors: seq<(string, seq<string>)>, name: string, filed: seq<string>, g: Option<Group>)
    requires filed == Filter(AllTickers(sectors), FiledUnder(sectors, name))
    requires g.Some? ==> forall i :: 0 <= i < |g.value.data| ==> g.value.data[i].x in filed
    ensures g.Some? ==> forall i :: 0 <= i < |g.value.data| ==> OwnerOf(sectors, g.value.data[i].x) == Some(name)
  {
    var p := FiledUnder(sectors, name);
    assert forall i :: 0 <= i < |filed| ==> p(filed[i]);
  }

  /** A stock listed under sector `i` and again under a later sector `j` is
      filed under the last listing, so sector `i`'s group never shows it. */
  lemma SharedStockLeavesEarlierSector(sectors: seq<(string, seq<string>)>, data: string -> Option<Series>,
                                       t: string, i: nat, j: nat)
    requires i < j < |sectors| && t in sectors[i].1 && t in sectors[j].1
    requires forall l :: j < l < |sectors| ==> t !in sectors[l].1
    requires sectors[i].0 != sectors[j].0
    ensures var g := GroupOf(data, sectors, sectors[i].0);
            g.Some? ==> forall k :: 0 <= k < |g.value.data| ==> g.value.data[k].x != t
  {
    LastListingWins(sectors, t, j);
  }

  /** When no stock is listed under two sectors, or twice under one, and the
      sector names are distinct, sector `k` is filed exactly its own list, so
      its group is built from its own stocks. */
  lemma FiledIsOwnList(sectors: seq<(string, seq<string>)>, k: nat)
    requires k < |sectors|
    requires forall i, j :: 0 <= i < j < |sectors| ==> sectors[i].0 != sectors[j].0
    requires forall i, j, t :: 0 <= i < j < |sectors| && t in sectors[i].1 ==> t !in sectors[j].1
    ensures Filter(AllTickers(sectors), FiledUnder(sectors, sectors[k].0)) == sectors[k].1
  {
    FiledSuffix(sectors, k, 0);
  }

  /** The induction behind FiledIsOwnList, over the sectors from `m` on. */
  lemma {:induction false} FiledSuffix(sectors: seq<(string, seq<string>)>, k: nat, m: nat)
    requires k < |sectors| && m <= |sectors|
    requires forall i, j :: 0 <= i < j < |sectors| ==> sectors[i].0 != sectors[j].0
    requires forall i, j, t :: 0 <= i < j < |sectors| && t in sectors[i].1 ==> t !in sectors[j].1
    ensures Filter(AllTickers(sectors[m..]), FiledUnder(sectors, sectors[k].0)) == if m <= k then sectors[k].1 else []
    decreases |sectors| - m
  {
    var p := FiledUnder(sectors, sectors[k].0);
    if m == |sectors| {
      assert sectors[m..] == [];
    } else {
      var here := sectors[m].1;
      assert sectors[m..][0] == sectors[m] && sectors[m..][1..] == sectors[m + 1..];
      assert AllTickers(sectors[m..]) == here + AllTickers(sectors[m + 1..]);
      FiledSuffix(sectors, k, m + 1);
      FiledBlock(sectors, k, m);
      SuffixStep(AllTickers(sectors[m..]), here, AllTickers(sectors[m + 1..]), p, sectors[k].1, m, k);
    }
  }

  /** One step of FiledSuffix: the filtered concatenation of block `m` and
      the blocks after it. */
  lemma SuffixStep<T>(whole: seq<T>, here: seq<T>, rest: seq<T>, p: T -> bool, own: seq<T>, m: nat, k: nat)
    requires whole == here + rest
    requires Filter(here, p) == if m == k then here else []
    requires Filter(rest, p) == if m + 1 <= k then own else []
    requires m == k ==> here == own
    ensures Filter(whole, p) == if m <= k then own else []
  {
    FilterAppend(here, rest, p);
    if m == k {
      assert Filter(whole, p) == here + [];
    } else {
      assert Filter(whole, p) == [] + Filter(rest, p);
    }
  }

  /** Under the same conditions, sector `m`'s own list is filed under sector
      `k` whole when `m == k` and not at all otherwise. */
  lemma FiledBlock(sectors: seq<(string, seq<string>)>, k: nat, m: nat)
    requires k < |sectors| && m < |sectors|
    requires forall i, j :: 0 <= i < j < |sectors| ==> sectors[i].0 != sectors[j].0
    requires forall i, j, t :: 0 <= i < j < |sectors| && t in sectors[i].1 ==> t !in sectors[j].1
    ensures Filter(sectors[m].1, FiledUnder(sectors, sectors[k].0)) == if m == k then sectors[m].1 else []
  {
    var p := FiledUnder(sectors, sectors[k].0);
    forall t | t in sectors[m].1 ensures OwnerOf(sectors, t) == Some(sectors[m].0) {
      LastListingWins(sectors, t, m);
    }
    if m == k {
      FilterAll(sectors[m].1, p);
    } else {
      assert sectors[m].0 != sectors[k].0;
      FilterNone(sectors[m].1, p);
    }
  }

  /** Filtering keeps a sequence whose items all pass. */
  lemma {:induction false} FilterAll<T>(xs: seq<T>, p: T -> bool)
    requires forall x :: x in xs ==> p(x)
    ensures Filter(xs, p) == xs
  {
    if xs != [] {
      FilterAll(xs[1..], p);
    }
  }

  /** Filtering empties a sequence none of whose items pass. */
  lemma {:induction false} FilterNone<T>(xs: seq<T>, p: T -> bool)
    requires forall x :: x in xs ==> !p(x)
    ensures Filter(xs, p) == []
  {
    if xs != [] {
      FilterNone(xs[1..], p);
    }
  }

  function GroupStep(data: string -> Option<Series>, sectors: seq<(string, seq<string>)>): ((string, seq<string>)) -> Option<Group>
  {
    (sector: (string, seq<string>)) => GroupOf(data, sectors, sector.0)
  }

  /** Every group built from a sector is non-empty and ordered by weight. */
  ghost predicate WellFormed(g: Group)
  {
    g.data != [] && SortedDesc(g.data, TileKey)
  }

  lemma GroupsWellFormed(sectors: seq<(string, seq<string>)>, data: string -> Option<Series>, g: Group)
    requires g in multiset(FilterMap(sectors, GroupStep(data, sectors)))
    ensures WellFormed(g)
  {
    var groups := FilterMap(sectors, GroupStep(data, sectors));
    var k :| 0 <= k < |groups| && groups[k] == g;
    var j :| 0 <= j < |sectors| && GroupStep(data, sectors)(sectors[j]) == Some(groups[k]);
    assert GroupOf(data, sectors, sectors[j].0) == Some(g);
  }

  /** What `get_full_market_map` returns: an error for an empty stock list,
      an error for an empty (or failed) download, or the groups. */
  datatype MarketMapResult = NoTickers | NoData | Groups(groups: seq<Group>)

  /** `get_full_market_map`: one group per sector with at least one tile,
      ordered by total weight, heaviest first. */
  function MarketMap(sectors: seq<(string, seq<string>)>, data: Option<string -> Option<Series>>): (r: MarketMapResult)
    ensures r == NoTickers <==> AllTickers(sectors) == []
    ensures r == NoData <==> AllTickers(sectors) != [] && data.None?
    ensures r.Groups? ==> multiset(r.groups) == multiset(FilterMap(sectors, GroupStep(data.value, sectors)))
    ensures r.Groups? ==> |r.groups| == Count(sectors, Defined(GroupStep(data.value, sectors)))
    ensures r.Groups? ==> SortedDesc(r.groups, GroupKey)
    ensures r.Groups? ==> forall i :: 0 <= i < |r.groups| ==> WellFormed(r.groups[i])
  {
    if AllTickers(sectors) == [] then NoTickers
    else if data.None? then NoData
    else
      var groups := FilterMap(sectors, GroupStep(data.value, sectors));
      var sorted := SortDesc(groups, GroupKey);
      forall i | 0 <= i < |sorted| ensures WellFormed(sorted[i]) {
        assert sorted[i] in multiset(sorted);
        GroupsWellFormed(sectors, data.value, sorted[i]);
      }
      Groups(sorted)
  }

  /** The two-level column labels of a multi-ticker download made with
      `group_by='ticker'`: a (ticker, field) pair for every ticker and
      price field, the ticker on the outer level. */
  function TickerFirst(tickers: seq<string>, fields: seq<string>): (cols: set<(string, string)>)
    ensures forall t, f :: t in tickers && f in fields ==> (t, f) in cols
    ensures forall c :: c in cols ==> c.0 in tickers && c.1 in fields
  {
    set t, f | t in tickers && f in fields :: (t, f)
  }

  /** The labels of the outer and of the inner column level. */
  function Outer(cols: set<(string, string)>): set<string> { set c | c in cols :: c.0 }

  function Inner(cols: set<(string, string)>): set<string> { set c | c in cols :: c.1 }

  /** The multi-index branch of the loop reaches a ticker's prices only when
      the ticker is an inner-level label (the `levels[1]` test) and "Close"
      is an outer-level label (`data['Close'][ticker]`, whose KeyError
      otherwise skips the ticker). */
  predicate LookupPasses(cols: set<(string, string)>, t: string)
  {
    t in Inner(cols) && "Close" in Outer(cols)
  }

  /** The series the loop gets for each ticker as written: nothing for a
      ticker whose lookup fails. */
  function LookupAsWritten(data: string -> Option<Series>, cols: set<(string, string)>): string -> Option<Series>
  {
    t => if LookupPasses(cols, t) then data(t) else None
  }

  /** With no series for any listed stock, no sector has a group. */
  lemma NoSeriesNoGroups(sectors: seq<(string, seq<string>)>, d: string -> Option<Series>)
    ensures (forall t :: t in AllTickers(sectors) ==> d(t).None?) ==> Count(sectors, Defined(GroupStep(d, sectors))) == 0
  {
    if forall t :: t in AllTickers(sectors) ==> d(t).None? {
      NoSeriesLeavesNoGroup(sectors, d);
    }
  }

  lemma NoSeriesLeavesNoGroup(sectors: seq<(string, seq<string>)>, d: string -> Option<Series>)
    requires forall t :: t in AllTickers(sectors) ==> d(t).None?
    ensures Count(sectors, Defined(GroupStep(d, sectors))) == 0
  {
    forall s | s in sectors ensures !Defined(GroupStep(d, sectors))(s) {
      var filed := Filter(AllTickers(sectors), FiledUnder(sectors, s.0));
      forall t | t in filed ensures !Defined(TileStep(d))(t) {
        assert t in multiset(filed);
      }
      FilterNone(filed, Defined(TileStep(d)));
      CountFilter(filed, Defined(TileStep(d)));
    }
    FilterNone(sectors, Defined(GroupStep(d, sectors)));
    CountFilter(sectors, Defined(GroupStep(d, sectors)));
  }

  /** `get_full_market_map` as written: the multi-index lookups at
      sector_heatmap.py:154-156 decide which tickers are read, given the
      download's column labels `cols`. When no listed stock passes them the
      map is empty. */
  function MarketMapAsWritten(sectors: seq<(string, seq<string>)>, data: Option<string -> Option<Series>>,
                              cols: set<(string, string)>): (r: MarketMapResult)
    ensures r == NoTickers <==> AllTickers(sectors) == []
    ensures r == NoData <==> AllTickers(sectors) != [] && data.None?
    ensures data.Some? && AllTickers(sectors) != [] && (forall t :: t in AllTickers(sectors) ==> !LookupPasses(cols, t))
            ==> r == Groups([])
  {
    if data.None? then MarketMap(sectors, None)
    else
      var d := LookupAsWritten(data.value, cols);
      NoSeriesNoGroups(sectors, d);
      MarketMap(sectors, Some(d))
  }

  /** The labels of a ticker-first download never hold a listed stock on the
      inner level unless the stock is named like a price field, so as written
      the market map is empty for every download of ordinary tickers. */
  lemma TickerFirstMapIsEmpty(sectors: seq<(string, seq<string>)>, data: string -> Option<Series>, fields: seq<string>)
    requires AllTickers(sectors) != []
    requires forall t :: t in AllTickers(sectors) ==> t !in fields
    ensures MarketMapAsWritten(sectors, Some(data), TickerFirst(AllTickers(sectors), fields)) == Groups([])
  {
    var cols := TickerFirst(AllTickers(sectors), fields);
    forall t | t in AllTickers(sectors) ensures !LookupPasses(cols, t) {
      assert t !in Inner(cols);
    }
  }

  /** A one-stock market with two closes: the intended map has a group, the
      map as written has none. */
  lemma MarketMapAsWrittenDiffers()
    ensures var sectors := [("Technology", ["AAPL"])];
            var data := (t: string) => Some(Series([100.0, 101.0], [10]));
            MarketMapAsWritten(sectors, Some(data), TickerFirst(["AAPL"], ["Open", "High", "Low", "Close", "Volume"])) == Groups([])
            && MarketMap(sectors, Some(data)) != Groups([])
  {
    var data := (t: string) => Some(Series([100.0, 101.0], [10]));
    TickerFirstMapIsEmpty([("Technology", ["AAPL"])], data, ["Open", "High", "Low", "Close", "Volume"]);
    OneStockHasGroup("Technology", "AAPL", data);
  }

  /** A sector of one stock with at least two closes gets a group. */
  lemma OneStockHasGroup(name: string, t: string, data: string -> Option<Series>)
    requires data(t).Some? && |data(t).value.prices| >= 2
    ensures MarketMap([(name, [t])], Some(data)) != Groups([])
  {
    var sectors := [(name, [t])];
    OneStockGroup(name, t, data);
    CountCons(sectors[0], [], Defined(GroupStep(data, sectors)));
    assert [sectors[0]] + [] == sectors;
  }

  /** The one stock of a one-sector market is filed there and tiled. */
  lemma OneStockGroup(name: string, t: string, data: string -> Option<Series>)
    requires data(t).Some? && |data(t).value.prices| >= 2
    ensures GroupOf(data, [(name, [t])], name).Some?
  {
    var sectors := [(name, [t])];
    OneStockFiled(name, t);
    CountCons(t, [], Defined(TileStep(data)));
    assert [t] + [] == [t];
  }

  /** In a one-sector market of one stock, that stock is filed under the sector. */
  lemma OneStockFiled(name: string, t: string)
    ensures Filter(AllTickers([(name, [t])]), FiledUnder([(name, [t])], name)) == [t]
  {
    var sectors := [(name, [t])];
    assert AllTickers(sectors) == [t];
    assert OwnerOf(sectors, t) == Some(name);
  }
}

=== FILE: sorting.dfy ===
/** Ordering and de-duplication used by every ranked output: a stable
    descending sort on a real-valued key, ranks 1..n, and first-occurrence
    de-duplication by a key. */
module Sorting {
  import opened Common

  /** `xs` is in non-increasing order of `key`. */
  ghost predicate SortedDesc<T>(xs: seq<T>, key: T -> real)
  {
    forall i, j :: 0 <= i < j < |xs| ==> key(xs[i]) >= key(xs[j])
  }

  /** Place `x` in front of the first item whose key is not larger, so that
      among equal keys the item inserted first stays first. */
  function Insert<T>(x: T, xs: seq<T>, key: T -> real): (r: seq<T>)
    requires SortedDesc(xs, key)
    ensures SortedDesc(r, key)
    ensures multiset(r) == multiset(xs) + multiset{x}
    ensures |r| == |xs| + 1
  {
    if xs == [] || key(xs[0]) <= key(x) then
      InsertFront(x, xs, key);
      [x] + xs
    else
      HeadAndTail(xs, key);
      var rest := Insert(x, xs[1..], key);
      InsertBehind(x, xs, rest, key);
      [xs[0]] + rest
  }

  /** An item at least as large as the head goes in front. */
  lemma InsertFront<T>(x: T, xs: seq<T>, key: T -> real)
    requires SortedDesc(xs, key) && (xs == [] || key(xs[0]) <= key(x))
    ensures SortedDesc([x] + xs, key)
  {
    var r := [x] + xs;
    forall i, j | 0 <= i < j < |r| ensures key(r[i]) >= key(r[j]) {
      assert r[j] == xs[j - 1];
      if i > 0 {
        assert r[i] == xs[i - 1];
      } else if j > 1 {
        assert key(xs[0]) >= key(xs[j - 1]);
      }
    }
  }

  /** A smaller item inserted into the tail stays behind the head. */
  lemma InsertBehind<T>(x: T, xs: seq<T>, rest: seq<T>, key: T -> real)
    requires xs != [] && SortedDesc(xs, key) && key(x) < key(xs[0])
    requires SortedDesc(rest, key) && multiset(rest) == multiset(xs[1..]) + multiset{x}
    requires |rest| == |xs[1..]| + 1
    ensures SortedDesc([xs[0]] + rest, key)
    ensures multiset([xs[0]] + rest) == multiset(xs) + multiset{x}
    ensures |[xs[0]] + rest| == |xs| + 1
  {
    InsertedBelowHead(x, xs, rest, key);
    var r := [xs[0]] + rest;
    forall i, j | 0 <= i < j < |r| ensures key(r[i]) >= key(r[j]) {
      assert r[j] == rest[j - 1];
      if i > 0 {
        assert r[i] == rest[i - 1];
      }
    }
    assert xs == [xs[0]] + xs[1..];
  }

  /** Inserting a smaller item into the tail keeps every key at most the head's. */
  lemma InsertedBelowHead<T>(x: T, xs: seq<T>, rest: seq<T>, key: T -> real)
    requires xs != [] && SortedDesc(xs, key) && key(x) < key(xs[0])
    requires multiset(rest) == multiset(xs[1..]) + multiset{x}
    ensures forall i :: 0 <= i < |rest| ==> key(rest[i]) <= key(xs[0])
  {
    forall i | 0 <= i < |rest|
      ensures key(rest[i]) <= key(xs[0])
    {
      var y := rest[i];
      assert y in multiset(rest);
      if y != x {
        assert y in multiset(xs[1..]);
        var j :| 0 <= j < |xs[1..]| && xs[1..][j] == y;
        assert xs[j + 1] == y;
      }
    }
  }

  /** Stable sort by `key`, largest first (Python's `sort(key=..., reverse=True)`). */
  function SortDesc<T>(xs: seq<T>, key: T -> real): (r: seq<T>)
    ensures SortedDesc(r, key)
    ensures multiset(r) == multiset(xs)
    ensures |r| == |xs|
  {
    if xs == [] then []
    else
      assert xs == [xs[0]] + xs[1..];
      Insert(xs[0], SortDesc(xs[1..], key), key)
  }

  /** A prefix of a sorted sequence is sorted, and everything after the
      prefix is no larger than anything in it. */
  lemma SortedPrefix<T>(xs: seq<T>, key: T -> real, n: nat)
    requires SortedDesc(xs, key) && n <= |xs|
    ensures SortedDesc(xs[..n], key)
    ensures forall i, j :: 0 <= i < n <= j < |xs| ==> key(xs[j]) <= key(xs[i])
  {
  }

  /** Dropping items from a descending sequence keeps it descending. */
  lemma {:induction false} FilterSorted<T>(xs: seq<T>, p: T -> bool, key: T -> real)
    requires SortedDesc(xs, key)
    ensures SortedDesc(Filter(xs, p), key)
  {
    if xs != [] {
      var rest := Filter(xs[1..], p);
      HeadAndTail(xs, key);
      FilterSorted(xs[1..], p, key);
      if p(xs[0]) {
        ConsSorted(xs[0], xs[1..], rest, key);
      }
    }
  }

  /** The tail of a descending sequence is descending and lies below its head. */
  lemma HeadAndTail<T>(xs: seq<T>, key: T -> real)
    requires xs != [] && SortedDesc(xs, key)
    ensures SortedDesc(xs[1..], key)
    ensures forall j :: 0 <= j < |xs[1..]| ==> key(xs[0]) >= key(xs[1..][j])
  {
    forall j | 0 <= j < |xs[1..]| ensures key(xs[0]) >= key(xs[1..][j]) {
      assert xs[1..][j] == xs[j + 1];
    }
  }

  /** An item above everything in `xs`, put in front of a descending
      sub-collection of `xs`, gives a descending sequence. */
  lemma ConsSorted<T>(x: T, xs: seq<T>, sub: seq<T>, key: T -> real)
    requires forall j :: 0 <= j < |xs| ==> key(x) >= key(xs[j])
    requires multiset(sub) <= multiset(xs) && SortedDesc(sub, key)
    ensures SortedDesc([x] + sub, key)
  {
    forall j | 0 <= j < |sub| ensures key(x) >= key(sub[j]) {
      assert sub[j] in multiset(sub);
      var k :| 0 <= k < |xs| && xs[k] == sub[j];
    }
    var c := [x] + sub;
    forall i, j | 0 <= i < j < |c| ensures key(c[i]) >= key(c[j]) {
      assert c[j] == sub[j - 1];
      if i > 0 {
        assert c[i] == sub[i - 1];
      }
    }
  }

  /** An item and its 1-based position in a ranked list. */
  datatype Ranked<T> = Ranked(rank: nat, item: T)

  /** Number the items 1..n in order (`rank = range(1, n + 1)`). */
  function AssignRanks<T>(xs: seq<T>): (r: seq<Ranked<T>>)
    ensures |r| == |xs|
    ensures forall i :: 0 <= i < |r| ==> r[i].rank == i + 1 && r[i].item == xs[i]
  {
    seq(|xs|, i requires 0 <= i < |xs| => Ranked(i + 1, xs[i]))
  }

  /** The items of a ranked list, in order. */
  function Items<T>(r: seq<Ranked<T>>): (xs: seq<T>)
    ensures |xs| == |r| && forall i :: 0 <= i < |r| ==> xs[i] == r[i].item
  {
    seq(|r|, i requires 0 <= i < |r| => r[i].item)
  }

  /** Sort by `key`, largest first, and number the result 1..n (the
      `sort_values(..., ascending=False)` then `rank = range(1, n + 1)` step). */
  function RankBy<T>(xs: seq<T>, key: T -> real): (r: seq<Ranked<T>>)
    ensures |r| == |xs|
    ensures forall i :: 0 <= i < |r| ==> r[i].rank == i + 1
    ensures SortedDesc(Items(r), key)
    ensures multiset(Items(r)) == multiset(xs)
  {
    var s := SortDesc(xs, key);
    var r := AssignRanks(s);
    assert Items(r) == s;
    r
  }
  /** Sort by `key` (highest first), keep the first `n` items (Python slice
      semantics) and rank them 1..n. */
  function RankTop<T>(xs: seq<T>, key: T -> real, n: int): (r: seq<Ranked<T>>)
    ensures |r| == |Head(xs, n)|
    ensures forall i :: 0 <= i < |r| ==> r[i].rank == i + 1
    ensures SortedDesc(Items(r), key)
    ensures multiset(Items(r)) <= multiset(xs)
    ensures forall p, i :: p in multiset(xs) - multiset(Items(r)) && 0 <= i < |r| ==> key(p) <= key(r[i].item)
  {
    var ordered := SortDesc(xs, key);
    var kept := Head(ordered, n);
    TopKept(ordered, kept, key);
    var r := AssignRanks(kept);
    assert Items(r) == kept;
    r
  }

  /** A leading slice of a descending sequence holds its largest keys: what
      is left over scores no higher than anything kept. */
  lemma TopKept<T>(ordered: seq<T>, kept: seq<T>, key: T -> real)
    requires SortedDesc(ordered, key) && |kept| <= |ordered| && kept == ordered[..|kept|]
    ensures SortedDesc(kept, key)
    ensures multiset(kept) <= multiset(ordered)
    ensures forall p, i :: p in multiset(ordered) - multiset(kept) && 0 <= i < |kept| ==> key(p) <= key(kept[i])
  {
    var n := |kept|;
    SortedPrefix(ordered, key, n);
    PrefixMultiset(ordered, kept);
    forall p, i | p in multiset(ordered) - multiset(kept) && 0 <= i < n
      ensures key(p) <= key(kept[i])
    {
      var j := LeftOutIndex(ordered, kept, p);
    }
  }

  /** A leading slice of a sequence is a sub-multiset of it. */
  lemma PrefixMultiset<T>(xs: seq<T>, prefix: seq<T>)
    requires |prefix| <= |xs| && prefix == xs[..|prefix|]
    ensures multiset(prefix) <= multiset(xs)
  {
    assert xs == prefix + xs[|prefix|..];
  }

  /** An item of a sequence that is not in a leading slice of it lies after
      the slice. */
  lemma LeftOutIndex<T>(xs: seq<T>, prefix: seq<T>, p: T) returns (j: nat)
    requires |prefix| <= |xs| && prefix == xs[..|prefix|]
    requires p in multiset(xs) - multiset(prefix)
    ensures |prefix| <= j < |xs| && xs[j] == p
  {
    var n := |prefix|;
    assert xs == prefix + xs[n..];
    assert multiset(xs) - multiset(prefix) == multiset(xs[n..]);
    assert p in xs[n..];
    var k :| 0 <= k < |xs[n..]| && xs[n..][k] == p;
    j := n + k;
  }

  /** The keys of `r` are pairwise distinct. */
  ghost predicate KeysDistinct<T, K>(r: seq<T>, key: T -> K)
  {
    forall k, l :: 0 <= k < l < |r| ==> key(r[k]) != key(r[l])
  }

  /** Some item of `r` has key `x`. */
  ghost predicate HasKey<T, K>(r: seq<T>, key: T -> K, x: K)
  {
    exists k :: 0 <= k < |r| && key(r[k]) == x
  }

  /** Keep the first item of each key, in order (the `seen`-set loop).
      The ghost `idx` gives the source position of every kept item. */
  method DedupBy<T, K(==)>(xs: seq<T>, key: T -> K) returns (r: seq<T>, ghost idx: seq<nat>)
    ensures |idx| == |r| <= |xs|
    ensures forall k :: 0 <= k < |r| ==> idx[k] < |xs| && r[k] == xs[idx[k]]
    ensures forall k, l :: 0 <= k < l < |r| ==> idx[k] < idx[l]
    ensures forall k, j :: 0 <= k < |r| && 0 <= j < idx[k] ==> key(xs[j]) != key(r[k])
    ensures forall i :: 0 <= i < |xs| ==> HasKey(r, key, key(xs[i]))
    ensures KeysDistinct(r, key)
  {
    var seen: set<K> := {};
    r, idx := [], [];
    for i := 0 to |xs|
      invariant DedupInv(xs, key, i, r, idx, seen)
    {
      var kx := key(xs[i]);
      if kx !in seen {
        FirstOfKey(xs, key, i, r, idx, seen);
        seen := seen + {kx};
        r, idx := r + [xs[i]], idx + [i];
      } else {
        SeenKey(xs, key, i, r, idx, seen);
      }
    }
    DedupDone(xs, key, r, idx, seen);
  }

  /** The loop invariant of `DedupBy` after the first `i` items: `idx`
      gives increasing source positions of the kept items, each kept item
      is the first of its key, and `seen` is exactly the keys kept, which
      are those of the first `i` items. */
  ghost predicate DedupInv<T, K>(xs: seq<T>, key: T -> K, i: nat, r: seq<T>, idx: seq<nat>, seen: set<K>)
  {
    && i <= |xs| && |idx| == |r| <= i
    && (forall k :: 0 <= k < |r| ==> idx[k] < i && r[k] == xs[idx[k]])
    && (forall k, l :: 0 <= k < l < |r| ==> idx[k] < idx[l])
    && (forall k, j :: 0 <= k < |r| && 0 <= j < idx[k] ==> key(xs[j]) != key(r[k]))
    && (forall j :: 0 <= j < i ==> key(xs[j]) in seen)
    && (forall x :: x in seen ==> HasKey(r, key, x))
    && (forall k :: 0 <= k < |r| ==> key(r[k]) in seen)
    && KeysDistinct(r, key)
  }

  /** Keeping `xs[i]`, whose key is new, keeps the invariant. */
  lemma FirstOfKey<T, K>(xs: seq<T>, key: T -> K, i: nat, r: seq<T>, idx: seq<nat>, seen: set<K>)
    requires i < |xs| && key(xs[i]) !in seen && DedupInv(xs, key, i, r, idx, seen)
    ensures DedupInv(xs, key, i + 1, r + [xs[i]], idx + [i], seen + {key(xs[i])})
  {
    NewKeyIndices(xs, key, i, r, idx, seen);
    NewKeyCovered(r, key, xs[i], seen);
    NewKeyFirst(xs, key, i, r, idx, seen);
    NewKeyDistinct(r, key, xs[i], seen);
  }

  /** Every seen key, and the new one, still has a kept item. */
  lemma NewKeyCovered<T, K>(r: seq<T>, key: T -> K, y: T, seen: set<K>)
    requires forall x :: x in seen ==> HasKey(r, key, x)
    ensures forall x :: x in seen + {key(y)} ==> HasKey(r + [y], key, x)
  {
    var r2 := r + [y];
    forall x | x in seen + {key(y)}
      ensures HasKey(r2, key, x)
    {
      if x == key(y) {
        assert key(r2[|r|]) == x;
      } else {
        var k :| 0 <= k < |r| && key(r[k]) == x;
        assert r2[k] == r[k];
      }
    }
  }

  /** The new item is the first of its key, and the earlier kept items stay first. */
  lemma NewKeyFirst<T, K>(xs: seq<T>, key: T -> K, i: nat, r: seq<T>, idx: seq<nat>, seen: set<K>)
    requires i < |xs| && key(xs[i]) !in seen && |idx| == |r|
    requires forall k :: 0 <= k < |r| ==> idx[k] < i
    requires forall j :: 0 <= j < i ==> key(xs[j]) in seen
    requires forall k, j :: 0 <= k < |r| && 0 <= j < idx[k] ==> key(xs[j]) != key(r[k])
    ensures forall k, j :: 0 <= k < |r| + 1 && 0 <= j < (idx + [i])[k] ==> key(xs[j]) != key((r + [xs[i]])[k])
  {
    var r2, idx2 := r + [xs[i]], idx + [i];
    forall k, j | 0 <= k < |r2| && 0 <= j < idx2[k]
      ensures key(xs[j]) != key(r2[k])
    {
      if k == |r| {
        assert r2[k] == xs[i] && idx2[k] == i;
        assert key(xs[j]) in seen;
      } else {
        assert r2[k] == r[k] && idx2[k] == idx[k];
      }
    }
  }

  /** Appending position `i` keeps the positions increasing and in range,
      and the seen keys those of the kept items. */
  lemma NewKeyIndices<T, K>(xs: seq<T>, key: T -> K, i: nat, r: seq<T>, idx: seq<nat>, seen: set<K>)
    requires i < |xs| && |idx| == |r| <= i
    requires forall k :: 0 <= k < |r| ==> idx[k] < i && r[k] == xs[idx[k]]
    requires forall k, l :: 0 <= k < l < |r| ==> idx[k] < idx[l]
    requires forall j :: 0 <= j < i ==> key(xs[j]) in seen
    requires forall k :: 0 <= k < |r| ==> key(r[k]) in seen
    ensures var r2, idx2, seen2 := r + [xs[i]], idx + [i], seen + {key(xs[i])};
            && |idx2| == |r2| <= i + 1
            && (forall k :: 0 <= k < |r2| ==> idx2[k] < i + 1 && r2[k] == xs[idx2[k]])
            && (forall k, l :: 0 <= k < l < |r2| ==> idx2[k] < idx2[l])
            && (forall j :: 0 <= j < i + 1 ==> key(xs[j]) in seen2)
            && (forall k :: 0 <= k < |r2| ==> key(r2[k]) in seen2)
  {
  }

  /** A key not seen before keeps the kept keys distinct. */
  lemma NewKeyDistinct<T, K>(r: seq<T>, key: T -> K, y: T, seen: set<K>)
    requires key(y) !in seen && KeysDistinct(r, key)
    requires forall k :: 0 <= k < |r| ==> key(r[k]) in seen
    ensures KeysDistinct(r + [y], key)
  {
    var r2 := r + [y];
    forall k, l | 0 <= k < l < |r2|
      ensures key(r2[k]) != key(r2[l])
    {
      if l == |r| {
        assert key(r[k]) in seen;
      } else {
        assert r2[k] == r[k] && r2[l] == r[l];
      }
    }
  }

  /** Skipping `xs[i]`, whose key was seen, keeps the invariant. */
  lemma SeenKey<T, K>(xs: seq<T>, key: T -> K, i: nat, r: seq<T>, idx: seq<nat>, seen: set<K>)
    requires i < |xs| && key(xs[i]) in seen && DedupInv(xs, key, i, r, idx, seen)
    ensures DedupInv(xs, key, i + 1, r, idx, seen)
  {
  }

  /** The invariant over the whole input gives the contract of `DedupBy`. */
  lemma DedupDone<T, K>(xs: seq<T>, key: T -> K, r: seq<T>, idx: seq<nat>, seen: set<K>)
    requires DedupInv(xs, key, |xs|, r, idx, seen)
    ensures |idx| == |r| <= |xs|
    ensures forall k :: 0 <= k < |r| ==> idx[k] < |xs| && r[k] == xs[idx[k]]
    ensures forall k, l :: 0 <= k < l < |r| ==> idx[k] < idx[l]
    ensures forall k, j :: 0 <= k < |r| && 0 <= j < idx[k] ==> key(xs[j]) != key(r[k])
    ensures forall i :: 0 <= i < |xs| ==> HasKey(r, key, key(xs[i]))
    ensures KeysDistinct(r, key)
  {
  }

  function PairKey<K, R>(p: (K, R)): K { p.0 }

  /** Visit the distinct keys of `xs` in order of first appearance and keep
      the keys for which `f` yields a result, paired with that result (the
      `for t in df[col].unique(): ... if result: results.append(...)` loop). */
  method CollectDistinct<T, K(==), R>(xs: seq<T>, key: T -> K, f: K -> Option<R>)
    returns (out: seq<(K, R)>, ghost src: seq<nat>)
    ensures KeysDistinct(out, PairKey)
    ensures forall k :: 0 <= k < |out| ==> f(out[k].0) == Some(out[k].1)
    ensures |src| == |out| && forall k :: 0 <= k < |out| ==> src[k] < |xs| && key(xs[src[k]]) == out[k].0
    ensures forall i :: 0 <= i < |xs| && f(key(xs[i])).Some? ==> HasKey(out, PairKey, key(xs[i]))
  {
    var firsts, idx := DedupBy(xs, key);
    out := [];
    ghost var taken: seq<nat> := [];
    for k := 0 to |firsts|
      invariant |taken| == |out|
      invariant forall m :: 0 <= m < |out| ==> taken[m] < k && out[m].0 == key(firsts[taken[m]])
      invariant forall m, l :: 0 <= m < l < |out| ==> taken[m] < taken[l]
      invariant forall m :: 0 <= m < |out| ==> f(out[m].0) == Some(out[m].1)
      invariant forall j :: 0 <= j < k && f(key(firsts[j])).Some? ==> HasKey(out, PairKey, key(firsts[j]))
    {
      var t := key(firsts[k]);
      var res := f(t);
      if res.Some? {
        ghost var oldOut, oldTaken := out, taken;
        out := out + [(t, res.value)];
        taken := taken + [k];
        Collected(firsts, key, f, k, oldOut, oldTaken, res.value);
      }
    }
    forall m, l | 0 <= m < l < |out|
      ensures PairKey(out[m]) != PairKey(out[l])
    {
      assert key(firsts[taken[m]]) != key(firsts[taken[l]]);
    }
    src := seq(|out|, m requires 0 <= m < |out| => idx[taken[m]]);
    forall i | 0 <= i < |xs| && f(key(xs[i])).Some?
      ensures HasKey(out, PairKey, key(xs[i]))
    {
      assert HasKey(firsts, key, key(xs[i]));
      var j :| 0 <= j < |firsts| && key(firsts[j]) == key(xs[i]);
    }
  }

  /** Collecting the result of the `k`-th distinct key keeps every loop
      invariant of `CollectDistinct` one step further. */
  lemma Collected<T, K, R>(firsts: seq<T>, key: T -> K, f: K -> Option<R>, k: nat,
                           out: seq<(K, R)>, taken: seq<nat>, v: R)
    requires k < |firsts| && f(key(firsts[k])) == Some(v)
    requires |taken| == |out|
    requires forall m :: 0 <= m < |out| ==> taken[m] < k && out[m].0 == key(firsts[taken[m]])
    requires forall m, l :: 0 <= m < l < |out| ==> taken[m] < taken[l]
    requires forall m :: 0 <= m < |out| ==> f(out[m].0) == Some(out[m].1)
    requires forall j :: 0 <= j < k && f(key(firsts[j])).Some? ==> HasKey(out, PairKey, key(firsts[j]))
    ensures var out2, taken2 := out + [(key(firsts[k]), v)], taken + [k];
            && |taken2| == |out2|
            && (forall m :: 0 <= m < |out2| ==> taken2[m] < k + 1 && out2[m].0 == key(firsts[taken2[m]]))
            && (forall m, l :: 0 <= m < l < |out2| ==> taken2[m] < taken2[l])
            && (forall m :: 0 <= m < |out2| ==> f(out2[m].0) == Some(out2[m].1))
            && (forall j :: 0 <= j < k + 1 && f(key(firsts[j])).Some? ==> HasKey(out2, PairKey, key(firsts[j])))
  {
    var out2 := out + [(key(firsts[k]), v)];
    forall j | 0 <= j <= k && f(key(firsts[j])).Some?
      ensures HasKey(out2, PairKey, key(firsts[j]))
    {
      if j == k {
        assert PairKey(out2[|out|]) == key(firsts[k]);
      } else {
        var m :| 0 <= m < |out| && PairKey(out[m]) == key(firsts[j]);
        assert out2[m] == out[m];
      }
    }
  }

  /** The results of a keyed collection, with the key read back from each
      result by `rkey`. */
  function Results<K, R>(pairs: seq<(K, R)>): (out: seq<R>)
    ensures |out| == |pairs| && forall k :: 0 <= k < |out| ==> out[k] == pairs[k].1
  {
    seq(|pairs|, k requires 0 <= k < |pairs| => pairs[k].1)
  }

  /** When every result carries its own key, the results keep the keys'
      distinctness and coverage. */
  lemma ResultsKeepKeys<K, R>(pairs: seq<(K, R)>, rkey: R -> K)
    requires forall k :: 0 <= k < |pairs| ==> rkey(pairs[k].1) == pairs[k].0
    ensures KeysDistinct(pairs, PairKey) ==> KeysDistinct(Results(pairs), rkey)
    ensures forall x :: HasKey(pairs, PairKey, x) ==> HasKey(Results(pairs), rkey, x)
  {
    var out := Results(pairs);
    forall x | HasKey(pairs, PairKey, x)
      ensures HasKey(out, rkey, x)
    {
      var k :| 0 <= k < |pairs| && PairKey(pairs[k]) == x;
      assert rkey(out[k]) == x;
    }
    if KeysDistinct(pairs, PairKey) {
      forall m, l | 0 <= m < l < |out|
        ensures rkey(out[m]) != rkey(out[l])
      {
        assert PairKey(pairs[m]) != PairKey(pairs[l]);
      }
    }
  }

  /** Python's `sorted(set(xs), key=...)`: the distinct values, ordered by
      `key` from largest to smallest (`x => x` descending, `x => -x` ascending). */
  method DistinctSorted(xs: seq<real>, key: real -> real) returns (r: seq<real>)
    ensures SortedDesc(r, key)
    ensures forall k, l :: 0 <= k < l < |r| ==> r[k] != r[l]
    ensures forall x :: x in r <==> x in xs
  {
    var d, _ := DedupBy(xs, x => x);
    r := SortDesc(d, key);
    assert forall x :: x in r <==> x in multiset(d);
    forall k, l | 0 <= k < l < |r|
      ensures r[k] != r[l]
    {
      DistinctSortedStrict(r, d, k, l);
    }
  }

  /** A sorted permutation of a duplicate-free sequence is duplicate free. */
  lemma DistinctSortedStrict(r: seq<real>, d: seq<real>, k: nat, l: nat)
    requires multiset(r) == multiset(d)
    requires KeysDistinct(d, x => x)
    requires k < l < |r|
    ensures r[k] != r[l]
  {
    if r[k] == r[l] {
      var v := r[k];
      assert multiset(r)[v] >= 2 by {
        assert r == r[..l] + [r[l]] + r[l + 1..];
        assert v in r[..l];
        assert multiset(r[..l])[v] >= 1;
      }
      DistinctCountAtMostOne(d, v);
    }
  }

  /** In a duplicate-free sequence every value occurs at most once. */
  lemma {:induction false} DistinctCountAtMostOne(d: seq<real>, v: real)
    requires KeysDistinct(d, x => x)
    ensures multiset(d)[v] <= 1
  {
    if d != [] {
      assert d == [d[0]] + d[1..];
      assert KeysDistinct(d[1..], x => x) by {
        forall k, l | 0 <= k < l < |d[1..]|
          ensures d[1..][k] != d[1..][l]
        {
          assert d[k + 1] != d[l + 1];
        }
      }
      DistinctCountAtMostOne(d[1..], v);
      if d[0] == v {
        assert v !in d[1..];
      }
    }
  }
}

=== FILE: technical.dfy ===
/** The technical part of the enhanced screener
    (pipeline/smart_money_screener_v2.py, `get_technical_analysis`): RSI,
    MACD, moving averages, the moving-average arrangement, golden/death
    crosses and the 0-100 technical score, from a history of daily closes
    in date order. */
module Technical {
  import opened Common
  import opened Indicators

  /** Smoothing factor of an exponential average with the given span. */
  function Alpha(span: nat): (a: real)
    requires span >= 1
    ensures 0.0 < a <= 1.0
  {
    2.0 / (span as real + 1.0)
  }

  /** Exponential moving average without bias adjustment (`ewm(span, adjust=False)`)
      at day `i`: the first value, then `alpha` of the way to each new value. */
  function EmaAt(xs: seq<real>, span: nat, i: nat): real
    requires span >= 1 && i < |xs|
  {
    if i == 0 then xs[0] else Alpha(span) * xs[i] + (1.0 - Alpha(span)) * EmaAt(xs, span, i - 1)
  }

  /** The whole exponential-average series. */
  function Ema(xs: seq<real>, span: nat): (r: seq<real>)
    requires span >= 1
    ensures |r| == |xs| && forall i :: 0 <= i < |xs| ==> r[i] == EmaAt(xs, span, i)
  {
    seq(|xs|, i requires 0 <= i < |xs| => EmaAt(xs, span, i))
  }

  /** Element-wise difference of two series of equal length. */
  function Minus(a: seq<real>, b: seq<real>): (r: seq<real>)
    requires |a| == |b|
    ensures |r| == |a| && forall i :: 0 <= i < |a| ==> r[i] == a[i] - b[i]
  {
    seq(|a|, i requires 0 <= i < |a| => a[i] - b[i])
  }

  /** An exponential average never leaves the range of the values it averages. */
  lemma {:induction false} EmaWithinRange(xs: seq<real>, span: nat, lo: real, hi: real, i: nat)
    requires span >= 1 && i < |xs|
    requires forall k :: 0 <= k < |xs| ==> lo <= xs[k] <= hi
    ensures lo <= EmaAt(xs, span, i) <= hi
  {
    if i > 0 {
      EmaWithinRange(xs, span, lo, hi, i - 1);
      ConvexStep(Alpha(span), xs[i], EmaAt(xs, span, i - 1), lo, hi);
    }
  }

  /** The average of a constant series is that constant. */
  lemma {:induction false} EmaOfConstant(xs: seq<real>, span: nat, v: real, i: nat)
    requires span >= 1 && i < |xs|
    requires forall k :: 0 <= k < |xs| ==> xs[k] == v
    ensures EmaAt(xs, span, i) == v
  {
    if i > 0 {
      EmaOfConstant(xs, span, v, i - 1);
      assert Alpha(span) * v + (1.0 - Alpha(span)) * v == v;
    }
  }

  lemma MulNonNeg(a: real, b: real)
    requires a >= 0.0 && b >= 0.0
    ensures a * b >= 0.0
  {
  }

  lemma ConvexStep(a: real, x: real, y: real, lo: real, hi: real)
    requires 0.0 < a <= 1.0 && lo <= x <= hi && lo <= y <= hi
    ensures lo <= a * x + (1.0 - a) * y <= hi
  {
    MulNonNeg(a, x - lo);
    MulNonNeg(1.0 - a, y - lo);
    MulNonNeg(a, hi - x);
    MulNonNeg(1.0 - a, hi - y);
    assert a * x + (1.0 - a) * y - lo == a * (x - lo) + (1.0 - a) * (y - lo);
    assert hi - (a * x + (1.0 - a) * y) == a * (hi - x) + (1.0 - a) * (hi - y);
  }

  /** The rise of close `i` over close `i - 1` (0 for a fall, and on the first day). */
  function Gain(c: seq<real>, i: nat): (g: real)
    requires i < |c|
    ensures g >= 0.0
  {
    if i >= 1 && c[i] > c[i - 1] then c[i] - c[i - 1] else 0.0
  }

  /** The fall of close `i` below close `i - 1` (0 for a rise, and on the first day). */
  function Loss(c: seq<real>, i: nat): (l: real)
    requires i < |c|
    ensures l >= 0.0
  {
    if i >= 1 && c[i] < c[i - 1] then c[i - 1] - c[i] else 0.0
  }

  function Move(c: seq<real>, i: nat, up: bool): (m: real)
    requires i < |c|
    ensures m >= 0.0
  {
    if up then Gain(c, i) else Loss(c, i)
  }

  /** Mean of the gains (or losses) of the last 14 days. */
  function MeanMove14(c: seq<real>, up: bool): (m: real)
    requires |c| >= 14
    ensures m >= 0.0
  {
    var w := seq(14, k requires 0 <= k < 14 => Move(c, |c| - 14 + k, up));
    assert forall k :: 0 <= k < |w| ==> w[k] == Move(c, |c| - 14 + k, up);
    SumRealNonNeg(w);
    SumReal(w) / 14.0
  }

  /** The latest 14-day RSI. */
  function Rsi(c: seq<real>): (r: real)
    requires |c| >= 14
    ensures 0.0 <= r < 100.0
  {
    StrengthIndex(MeanMove14(c, true), MeanMove14(c, false))
  }

  /** Mean of the `w` values ending `back` days before the last one
      (`rolling(w).mean().iloc[-1 - back]`). */
  function RollingMean(c: seq<real>, w: nat, back: nat): real
    requires 1 <= w && w + back <= |c|
  {
    MeanReal(c[|c| - back - w..|c| - back])
  }

  datatype MaSignal = Bullish | Bearish | NeutralMa | UnknownMa
  datatype Cross = GoldenCross | DeathCross | NoCross

  /** The three moving averages; a window longer than the history falls back
      to the next shorter average (and the 20-day one to the last close). */
  datatype Averages = Averages(ma20: real, ma50: real, ma200: real)

  function MovingAverages(c: seq<real>): (a: Averages)
    requires |c| >= 1
    ensures |c| < 200 ==> a.ma200 == a.ma50
    ensures |c| < 50 ==> a.ma50 == a.ma20
  {
    var ma20 := if |c| >= 20 then RollingMean(c, 20, 0) else c[|c| - 1];
    var ma50 := if |c| >= 50 then RollingMean(c, 50, 0) else ma20;
    var ma200 := if |c| >= 200 then RollingMean(c, 200, 0) else ma50;
    Averages(ma20, ma50, ma200)
  }

  /** Price above the 20-day above the 50-day average is bullish, the reverse
      order bearish, anything else neutral. */
  function Arrangement(price: real, a: Averages): (s: MaSignal)
    ensures s == Bullish <==> price > a.ma20 > a.ma50
    ensures s == Bearish <==> price < a.ma20 < a.ma50
    ensures s != UnknownMa
  {
    if price > a.ma20 > a.ma50 then Bullish
    else if price < a.ma20 < a.ma50 then Bearish
    else NeutralMa
  }

  /** The 50-day and 200-day averages five days back; with fewer than 200
      closes they are taken to equal today's. */
  function PreviousAverages(c: seq<real>, a: Averages): (p: (real, real))
  {
    if |c| >= 200 then
      (if |c| >= 55 then RollingMean(c, 50, 4) else a.ma50,
       if |c| >= 205 then RollingMean(c, 200, 4) else a.ma200)
    else (a.ma50, a.ma200)
  }

  /** Golden cross: the 50-day average is now above the 200-day one and was
      not five days ago; death cross: the reverse. */
  function CrossSignal(ma50: real, ma200: real, prev50: real, prev200: real): (x: Cross)
    ensures x == GoldenCross <==> ma50 > ma200 && prev50 <= prev200
    ensures x == DeathCross <==> ma50 < ma200 && prev50 >= prev200
  {
    if ma50 > ma200 && prev50 <= prev200 then GoldenCross
    else if ma50 < ma200 && prev50 >= prev200 then DeathCross
    else NoCross
  }

  /** With fewer than 200 closes the 200-day average is the 50-day one, so
      no cross can be reported. */
  lemma NoCrossOnShortHistory(c: seq<real>)
    requires 1 <= |c| < 200
    ensures var a := MovingAverages(c);
            var p := PreviousAverages(c, a);
            CrossSignal(a.ma50, a.ma200, p.0, p.1) == NoCross
  {
  }

  /** RSI points: +10 in 40..60, +15 below 30, -5 above 70. */
  function RsiPoints(rsi: real): (p: int)
    ensures p == 10 <==> 40.0 <= rsi <= 60.0
    ensures p == 15 <==> rsi < 30.0
    ensures p == -5 <==> rsi > 70.0
    ensures p == 0 <==> 30.0 <= rsi < 40.0 || 60.0 < rsi <= 70.0
  {
    if 40.0 <= rsi <= 60.0 then 10 else if rsi < 30.0 then 15 else if rsi > 70.0 then -5 else 0
  }

  /** MACD points: +15 when the histogram turns positive from negative, +8
      while it is positive, -5 while it is negative. */
  function MacdPoints(hist: real, prevHist: real): (p: int)
    ensures p == 15 <==> hist > 0.0 && prevHist < 0.0
    ensures p == 8 <==> hist > 0.0 && prevHist >= 0.0
    ensures p == -5 <==> hist < 0.0
    ensures p == 0 <==> hist == 0.0
  {
    if hist > 0.0 && prevHist < 0.0 then 15 else if hist > 0.0 then 8 else if hist < 0.0 then -5 else 0
  }

  function MaPoints(s: MaSignal): int
  {
    match s
    case Bullish => 15
    case Bearish => -10
    case _ => 0
  }

  function CrossPoints(x: Cross): int
  {
    match x
    case GoldenCross => 10
    case DeathCross => -15
    case NoCross => 0
  }

  /** The technical score: 50 plus the four contributions, clamped to
      [0, 100]. The contributions range over [-35, 55], so only the upper
      bound of the clamp can bind. */
  function TechnicalScore(rsi: real, hist: real, prevHist: real, ma: MaSignal, cross: Cross): (s: int)
    ensures 15 <= s <= 100
  {
    Clamp(50 + RsiPoints(rsi) + MacdPoints(hist, prevHist) + MaPoints(ma) + CrossPoints(cross), 0, 100)
  }

  /** The clamp does bind: oversold RSI, a fresh MACD turn, a bullish
      arrangement and a golden cross add up to 105, reported as 100. */
  lemma TechnicalScoreSaturates()
    ensures 50 + RsiPoints(25.0) + MacdPoints(1.0, -1.0) + MaPoints(Bullish) + CrossPoints(GoldenCross) == 105
    ensures TechnicalScore(25.0, 1.0, -1.0, Bullish, GoldenCross) == 100
  {
  }

  /** Bearish below neutral below bullish. */
  function MaRank(s: MaSignal): nat
  {
    match s
    case Bearish => 0
    case Bullish => 2
    case _ => 1
  }

  /** Death cross below no cross below golden cross. */
  function CrossRank(x: Cross): nat
  {
    match x
    case DeathCross => 0
    case NoCross => 1
    case GoldenCross => 2
  }

  /** With the RSI and the previous histogram fixed, a larger histogram, a
      better arrangement and a better cross never lower the score; a bullish
      arrangement always scores strictly above a bearish one, and a golden
      cross strictly above a death cross, since the clamp only binds above
      100. */
  lemma TechnicalScoreMonotone(rsi: real, h1: real, h2: real, prevHist: real,
                               ma1: MaSignal, ma2: MaSignal, x1: Cross, x2: Cross)
    requires h1 <= h2 && MaRank(ma1) <= MaRank(ma2) && CrossRank(x1) <= CrossRank(x2)
    ensures TechnicalScore(rsi, h1, prevHist, ma1, x1) <= TechnicalScore(rsi, h2, prevHist, ma2, x2)
    ensures TechnicalScore(rsi, h1, prevHist, Bearish, x1) < TechnicalScore(rsi, h1, prevHist, Bullish, x1)
    ensures TechnicalScore(rsi, h1, prevHist, ma1, DeathCross) < TechnicalScore(rsi, h1, prevHist, ma1, GoldenCross)
  {
    assert MacdPoints(h1, prevHist) <= MacdPoints(h2, prevHist);
    assert MaPoints(ma1) <= MaPoints(ma2);
    assert CrossPoints(x1) <= CrossPoints(x2);
  }

  /** The MACD line: the 12-span EMA less the 26-span EMA. */
  function MacdLine(c: seq<real>): (m: seq<real>)
    ensures |m| == |c|
  {
    Minus(Ema(c, 12), Ema(c, 26))
  }

  /** The signal line: the 9-span EMA of the MACD line. */
  function SignalLine(c: seq<real>): (s: seq<real>)
    ensures |s| == |c|
  {
    Ema(MacdLine(c), 9)
  }

  /** The MACD histogram at index i: the MACD line less the signal line. */
  function HistAt(c: seq<real>, i: nat): real
    requires i < |c|
  {
    MacdLine(c)[i] - SignalLine(c)[i]
  }

  /** The technical record. */
  datatype TechResult = TechResult(
    rsi: real, macd: real, signal: real, hist: real, averages: Averages,
    maSignal: MaSignal, cross: Cross, score: int)

  /** The record for a missing or short history: neutral score, unknown arrangement. */
  const DefaultTechnical := TechResult(50.0, 0.0, 0.0, 0.0, Averages(0.0, 0.0, 0.0), UnknownMa, NoCross, 50)

  /** Indicators and score of a history of at least 50 closes. */
  function TechnicalOf(c: seq<real>): (t: TechResult)
    requires |c| >= 50
    ensures 15 <= t.score <= 100 && 0.0 <= t.rsi < 100.0
    ensures t.maSignal != UnknownMa
    ensures t.maSignal == Bullish <==> c[|c| - 1] > t.averages.ma20 > t.averages.ma50
    ensures t.rsi == Rsi(c) && t.averages == MovingAverages(c)
    ensures t.macd == MacdLine(c)[|c| - 1] && t.signal == SignalLine(c)[|c| - 1] && t.hist == t.macd - t.signal
    ensures t.maSignal == Arrangement(c[|c| - 1], t.averages)
    ensures var p := PreviousAverages(c, t.averages);
            t.cross == CrossSignal(t.averages.ma50, t.averages.ma200, p.0, p.1)
    ensures t.score == TechnicalScore(t.rsi, t.hist, HistAt(c, |c| - 2), t.maSignal, t.cross)
  {
    var n := |c|;
    var rsi := Rsi(c);
    var macd := MacdLine(c);
    var signal := SignalLine(c);
    var hist := Minus(macd, signal);
    var a := MovingAverages(c);
    var ma := Arrangement(c[n - 1], a);
    var p := PreviousAverages(c, a);
    var cross := CrossSignal(a.ma50, a.ma200, p.0, p.1);
    var score := TechnicalScore(rsi, hist[n - 1], hist[n - 2], ma, cross);
    TechResult(rsi, macd[n - 1], signal[n - 1], hist[n - 1], a, ma, cross, score)
  }

  /** `get_technical_analysis`: the default record when the history could
      not be fetched or has fewer than 50 closes. */
  function TechnicalAnalysis(history: Option<seq<Close>>): (t: TechResult)
    ensures 15 <= t.score <= 100
    ensures history.None? || |history.value| < 50 ==> t == DefaultTechnical
    ensures t.maSignal == UnknownMa <==> history.None? || |history.value| < 50
    ensures history.Some? && |history.value| >= 50 ==> t == TechnicalOf(history.value)
  {
    if history.None? || |history.value| < 50 then DefaultTechnical
    else TechnicalOf(history.value)
  }
}

=== FILE: text.dfy ===
/** Text helpers for the keyword classifiers: lower-casing, substring
    search (Python's `key in text`) and keyword-list scans. */
module Text {

  /** Lower-case one character; only the ASCII letters A-Z change. */
  function LowerChar(c: char): (r: char)
    ensures 'A' <= c <= 'Z' ==> 'a' <= r <= 'z' && r as int == c as int + 32
    ensures !('A' <= c <= 'Z') ==> r == c
  {
    if 'A' <= c <= 'Z' then (c as int + 32) as char else c
  }

  /** Python's `s.lower()` on the ASCII letters. */
  function Lower(s: string): (r: string)
    ensures |r| == |s|
    ensures forall i :: 0 <= i < |s| ==> r[i] == LowerChar(s[i])
  {
    seq(|s|, i requires 0 <= i < |s| => LowerChar(s[i]))
  }

  /** `p` occurs in `s` starting at index `i`. */
  predicate OccursAt(s: string, p: string, i: int)
  {
    0 <= i && i + |p| <= |s| && s[i..i + |p|] == p
  }

  /** Python's `p in s`: substring test, true for the empty pattern. */
  predicate Contains(s: string, p: string)
    decreases |s|
  {
    |p| <= |s| && (s[..|p|] == p || Contains(s[1..], p))
  }

  /** The recursive substring test agrees with the positional definition. */
  lemma {:induction false} ContainsIffOccurs(s: string, p: string)
    ensures Contains(s, p) <==> exists i :: OccursAt(s, p, i)
    decreases |s|
  {
    if |p| <= |s| && s[..|p|] == p {
      assert OccursAt(s, p, 0);
    } else if |p| <= |s| {
      ContainsIffOccurs(s[1..], p);
      assert s[..|p|] == s[0..|p|];
      forall i | OccursAt(s, p, i)
        ensures OccursAt(s[1..], p, i - 1)
      {
        assert s[1..][i - 1..i - 1 + |p|] == s[i..i + |p|];
      }
      forall j | OccursAt(s[1..], p, j)
        ensures OccursAt(s, p, j + 1)
      {
        assert s[1..][j..j + |p|] == s[j + 1..j + 1 + |p|];
      }
    }
  }

  /** A witness position proves containment. */
  lemma OccursContains(s: string, p: string, i: int)
    requires OccursAt(s, p, i)
    ensures Contains(s, p)
  {
    ContainsIffOccurs(s, p);
  }

  /** A pattern contained in a prefix or suffix is contained in the whole. */
  lemma ContainsInConcat(a: string, b: string, p: string)
    ensures Contains(a, p) ==> Contains(a + b, p)
    ensures Contains(b, p) ==> Contains(a + b, p)
  {
    ContainsIffOccurs(a, p);
    ContainsIffOccurs(b, p);
    ContainsIffOccurs(a + b, p);
    if Contains(a, p) {
      var i :| OccursAt(a, p, i);
      assert (a + b)[i..i + |p|] == a[i..i + |p|];
      assert OccursAt(a + b, p, i);
    }
    if Contains(b, p) {
      var i :| OccursAt(b, p, i);
      assert (a + b)[|a| + i..|a| + i + |p|] == b[i..i + |p|];
      assert OccursAt(a + b, p, |a| + i);
    }
  }

  /** Python's `any(k in s for k in keys)`. */
  predicate ContainsAny(s: string, keys: seq<string>)
  {
    exists k :: k in keys && Contains(s, k)
  }

  /** Python's `sum(1 for w in words if w in s)`: how many list entries occur in `s`. */
  function CountPresent(s: string, words: seq<string>): (n: nat)
    ensures n <= |words|
    ensures n == 0 <==> !ContainsAny(s, words)
  {
    if words == [] then 0
    else
      assert forall w :: w in words ==> w == words[0] || w in words[1..];
      (if Contains(s, words[0]) then 1 else 0) + CountPresent(s, words[1..])
  }

  /** Python's `str.isspace` on one ASCII character. */
  predicate IsSpace(c: char)
  {
    c == ' ' || c == '\t' || c == '\n' || c == '\r' || c == '\U{000B}' || c == '\U{000C}'
  }

  /** Drop leading whitespace. */
  function TrimStart(s: string): (r: string)
    ensures |r| <= |s| && r == s[|s| - |r|..]
    ensures r == [] || !IsSpace(r[0])
    ensures forall i :: 0 <= i < |s| - |r| ==> IsSpace(s[i])
  {
    if s != [] && IsSpace(s[0]) then TrimStart(s[1..]) else s
  }

  /** Drop trailing whitespace. */
  function TrimEnd(s: string): (r: string)
    ensures |r| <= |s| && r == s[..|r|]
    ensures r == [] || !IsSpace(r[|r| - 1])
    ensures forall i :: |r| <= i < |s| ==> IsSpace(s[i])
  {
    if s != [] && IsSpace(s[|s| - 1]) then TrimEnd(s[..|s| - 1]) else s
  }

  /** Trimming the back of the trimmed front leaves a slice of `s` that
      starts where the front whitespace ends and is followed only by
      whitespace. */
  lemma TrimmedSlice(s: string, t: string, r: string)
    requires |t| <= |s| && t == s[|s| - |t|..] && (t == [] || !IsSpace(t[0]))
    requires |r| <= |t| && r == t[..|r|] && forall k :: |r| <= k < |t| ==> IsSpace(t[k])
    requires r == [] || !IsSpace(r[|r| - 1])
    ensures var n := |s| - |t|; n + |r| <= |s| && r == s[n..n + |r|]
    ensures forall k :: |s| - |t| + |r| <= k < |s| ==> IsSpace(s[k])
    ensures r == [] || (!IsSpace(r[0]) && !IsSpace(r[|r| - 1]))
  {
    var i := |s| - |t|;
    forall k | i + |r| <= k < |s| ensures IsSpace(s[k]) {
      assert s[k] == t[k - i];
    }
  }

  /** Python's `s.strip()` on ASCII whitespace: the slice of `s` that starts
      where its leading whitespace ends (the start of `TrimStart(s)`) and is
      followed only by whitespace, with no whitespace at either end. */
  function Strip(s: string): (r: string)
    ensures var n := |s| - |TrimStart(s)|; n + |r| <= |s| && r == s[n..n + |r|]
    ensures forall k :: |s| - |TrimStart(s)| + |r| <= k < |s| ==> IsSpace(s[k])
    ensures r == [] || (!IsSpace(r[0]) && !IsSpace(r[|r| - 1]))
  {
    var t := TrimStart(s);
    var r := TrimEnd(t);
    TrimmedSlice(s, t, r);
    r
  }

  /** The stripped text is a piece of the text. */
  lemma StripContained(s: string)
    ensures Contains(s, Strip(s))
  {
    OccursContains(s, Strip(s), |s| - |TrimStart(s)|);
  }

  /** Python's `''.join(ps)`. */
  function Concat(ps: seq<string>): string
  {
    if ps == [] then "" else ps[0] + Concat(ps[1..])
  }
}

=== FILE: volume_analysis.dfy ===
/** The supply/demand analyzer (pipeline/02_analyze_volume.py): per ticker it
    sorts the price history by date, computes OBV, the A/D line, MFI, the
    volume ratio and surge counts, and folds them into a 0-100 score with a
    five-stage accumulation/distribution label. */
module VolumeAnalysis {
  import opened Common
  import opened Sorting
  import opened Indicators

  /** Prices are non-negative. */
  type Price = x: real | x >= 0.0

  /** One row of the daily price file. */
  datatype PriceRow = PriceRow(ticker: string, name: string, date: int,
                               high: Price, low: Price, close: Price, volume: nat)

  /** Minimum history the analyzer needs. */
  const MinRows: nat := 30

  /** The analysis of one ticker. */
  datatype VolumeRecord = VolumeRecord(
    date: int, obv: int, obvChange: real, ad: real, adChange: real, mfi: real,
    volRatio: real, surge5: nat, surge20: nat, score: int, stage: Tier)

  function NegDate(r: PriceRow): real { -(r.date as real) }

  function Closes(rows: seq<PriceRow>): (r: seq<real>)
    ensures |r| == |rows| && forall i :: 0 <= i < |rows| ==> r[i] == rows[i].close
  {
    seq(|rows|, i requires 0 <= i < |rows| => rows[i].close as real)
  }

  function Volumes(rows: seq<PriceRow>): (r: seq<int>)
    ensures |r| == |rows| && forall i :: 0 <= i < |rows| ==> r[i] == rows[i].volume && r[i] >= 0
  {
    seq(|rows|, i requires 0 <= i < |rows| => rows[i].volume as int)
  }

  /** The OBV series of the rows, day by day. */
  function ObvSeries(rows: seq<PriceRow>): (r: seq<int>)
    ensures |r| == |rows|
  {
    seq(|rows|, i requires 0 <= i < |rows| => ObvAt(Closes(rows), Volumes(rows), i))
  }

  /** Per-day A/D increments `CLV * volume`. */
  function AdTerms(rows: seq<PriceRow>): (r: seq<real>)
    ensures |r| == |rows|
  {
    seq(|rows|, i requires 0 <= i < |rows| =>
      Clv(rows[i].high, rows[i].low, rows[i].close) * rows[i].volume as real)
  }

  /** The A/D line: the running sum of the increments. */
  function AdSeries(rows: seq<PriceRow>): (r: seq<real>)
    ensures |r| == |rows|
  {
    var t := AdTerms(rows);
    seq(|rows|, i requires 0 <= i < |rows| => SumReal(t[..i + 1]))
  }

  function TypicalPrice(r: PriceRow): (tp: real)
    ensures tp >= 0.0
  {
    (r.high + r.low + r.close) / 3.0
  }

  /** Money flow of day `i` counted as positive (typical price rose) or
      negative (it fell); the first day has no previous price and counts as
      neither. */
  function FlowAt(rows: seq<PriceRow>, i: nat, positive: bool): (f: real)
    requires i < |rows|
    ensures f >= 0.0
  {
    var moved := i >= 1 && (if positive then TypicalPrice(rows[i]) > TypicalPrice(rows[i - 1])
                            else TypicalPrice(rows[i]) < TypicalPrice(rows[i - 1]));
    if moved then TypicalPrice(rows[i]) * rows[i].volume as real else 0.0
  }

  /** Sum of the positive (or negative) flows of the last 14 days. */
  function Flow14(rows: seq<PriceRow>, positive: bool): (s: real)
    requires |rows| >= 14
    ensures s >= 0.0
  {
    var w := seq(14, k requires 0 <= k < 14 => FlowAt(rows, |rows| - 14 + k, positive));
    assert forall k :: 0 <= k < |w| ==> w[k] == FlowAt(rows, |rows| - 14 + k, positive);
    SumRealNonNeg(w);
    SumReal(w)
  }

  /** The latest 14-period Money Flow Index. */
  function MfiLast(rows: seq<PriceRow>): (m: real)
    requires |rows| >= 14
    ensures 0.0 <= m < 100.0
  {
    StrengthIndex(Flow14(rows, true), Flow14(rows, false))
  }

  /** Points for a 20-day OBV or A/D change: +15 above 10%, +10 above 5%,
      -15 below -10%, -10 below -5%. */
  function TrendPoints(change: real): (p: int)
    ensures -15 <= p <= 15
    ensures p > 0 <==> change > 5.0
    ensures p < 0 <==> change < -5.0
    ensures p == 15 <==> change > 10.0
    ensures p == -15 <==> change < -10.0
  {
    if change > 10.0 then 15
    else if change > 5.0 then 10
    else if change < -10.0 then -15
    else if change < -5.0 then -10
    else 0
  }

  /** Points for the 5d/20d volume ratio: +10 above 1.5, +5 above 1.2, -5 below 0.7. */
  function RatioPoints(ratio: real): (p: int)
    ensures -5 <= p <= 10
    ensures p > 0 <==> ratio > 1.2
    ensures p < 0 <==> ratio < 0.7
  {
    if ratio > 1.5 then 10 else if ratio > 1.2 then 5 else if ratio < 0.7 then -5 else 0
  }

  /** Points for MFI: +5 above 70, -5 below 30. */
  function MfiPoints(mfi: real): (p: int)
    ensures p == 5 <==> mfi > 70.0
    ensures p == -5 <==> mfi < 30.0
    ensures p == 0 <==> 30.0 <= mfi <= 70.0
  {
    if mfi > 70.0 then 5 else if mfi < 30.0 then -5 else 0
  }

  /** The supply/demand score: 50 plus the four contributions, clamped to
      [0, 100]. The contributions lie in [-40, 45], so the score always lies
      in [10, 95] and the clamp never changes it. */
  function SupplyDemandScore(obvChange: real, adChange: real, ratio: real, mfi: real): (s: int)
    ensures 10 <= s <= 95
  {
    Clamp(50 + TrendPoints(obvChange) + TrendPoints(adChange) + RatioPoints(ratio) + MfiPoints(mfi), 0, 100)
  }

  /** Every indicator pushes the score the same way: the score is monotone in
      each of its four inputs. */
  lemma SupplyDemandMonotone(o1: real, a1: real, v1: real, m1: real,
                             o2: real, a2: real, v2: real, m2: real)
    requires o1 <= o2 && a1 <= a2 && v1 <= v2 && m1 <= m2
    ensures SupplyDemandScore(o1, a1, v1, m1) <= SupplyDemandScore(o2, a2, v2, m2)
  {
    assert TrendPoints(o1) <= TrendPoints(o2);
    assert TrendPoints(a1) <= TrendPoints(a2);
    assert RatioPoints(v1) <= RatioPoints(v2);
    assert MfiPoints(m1) <= MfiPoints(m2);
  }

  /** Stage label of a supply/demand tier. */
  function StageName(t: Tier): string
  {
    match t
    case StrongPositive => "Strong Accumulation"
    case Positive => "Accumulation"
    case Neutral => "Neutral"
    case Negative => "Distribution"
    case StrongNegative => "Strong Distribution"
  }

  /** The latest values of the indicators of a date-sorted history. */
  datatype IndicatorValues = IndicatorValues(
    obv: int, obvChange: real, ad: real, adChange: real, mfi: real,
    volRatio: real, surge5: nat, surge20: nat)

  /** Compute the indicators of a history of at least 30 rows, read at its last row. */
  function Indicate(s: seq<PriceRow>): (v: IndicatorValues)
    requires |s| >= MinRows
    ensures 0.0 <= v.mfi < 100.0 && 0 <= v.surge5 <= v.surge20 <= 20
  {
    var obv := ObvSeries(s);
    var ad := AdSeries(s);
    var surges := SurgeCounts(Volumes(s));
    IndicatorValues(obv[|s| - 1], Change20(IntsToReals(obv)), ad[|s| - 1], Change20(ad),
                    MfiLast(s), VolumeRatio(Volumes(s)), surges.0, surges.1)
  }

  /** The date of the last row of a date-sorted history is its latest date. */
  function LatestDate(s: seq<PriceRow>): (d: int)
    requires |s| > 0 && SortedDesc(s, NegDate)
    ensures forall i :: 0 <= i < |s| ==> s[i].date <= d
    ensures s[|s| - 1].date == d
  {
    var last := s[|s| - 1];
    assert forall i :: 0 <= i < |s| ==> s[i].date <= last.date by {
      forall i | 0 <= i < |s| ensures s[i].date <= last.date {
        if i < |s| - 1 {
          assert NegDate(s[i]) >= NegDate(last);
        }
      }
    }
    last.date
  }

  /** Score the indicators and label the stage. */
  function ScoreRecord(date: int, v: IndicatorValues): (r: VolumeRecord)
    ensures 10 <= r.score <= 95 && r.stage == Tier5(r.score)
    ensures r.date == date && r.mfi == v.mfi && r.surge5 == v.surge5 && r.surge20 == v.surge20
    ensures r.obv == v.obv && r.obvChange == v.obvChange && r.ad == v.ad && r.adChange == v.adChange
            && r.volRatio == v.volRatio
    ensures r.score == SupplyDemandScore(r.obvChange, r.adChange, r.volRatio, r.mfi)
  {
    var score := SupplyDemandScore(v.obvChange, v.adChange, v.volRatio, v.mfi);
    VolumeRecord(date, v.obv, v.obvChange, v.ad, v.adChange, v.mfi, v.volRatio,
                 v.surge5, v.surge20, score, Tier5(score))
  }

  /** Analyze one ticker's history: nothing for fewer than 30 rows, otherwise
      the summary of the rows sorted by date, dated at the latest row. */
  function AnalyzeSupplyDemand(rows: seq<PriceRow>): (r: Option<VolumeRecord>)
    ensures r.None? <==> |rows| < MinRows
    ensures r.Some? ==> 10 <= r.value.score <= 95 && r.value.stage == Tier5(r.value.score)
    ensures r.Some? ==> 0.0 <= r.value.mfi < 100.0 && 0 <= r.value.surge5 <= r.value.surge20 <= 20
    ensures r.Some? ==> forall i :: 0 <= i < |rows| ==> rows[i].date <= r.value.date
    ensures r.Some? ==> exists i :: 0 <= i < |rows| && rows[i].date == r.value.date
    ensures r.Some? ==> r.value.score == SupplyDemandScore(r.value.obvChange, r.value.adChange, r.value.volRatio, r.value.mfi)
    ensures r.Some? ==> var v := Indicate(SortDesc(rows, NegDate));
                        r.value.obvChange == v.obvChange && r.value.adChange == v.adChange
                        && r.value.volRatio == v.volRatio && r.value.mfi == v.mfi
  {
    if |rows| < MinRows then None
    else
      var s := SortDesc(rows, NegDate);
      var date := LatestDate(s);
      LatestOfRows(rows, s, date);
      Some(ScoreRecord(date, Indicate(s)))
  }

  /** A latest date read off a permutation of the rows is a date of the
      rows, and no row is later. */
  lemma LatestOfRows(rows: seq<PriceRow>, s: seq<PriceRow>, d: int)
    requires multiset(s) == multiset(rows) && |s| > 0 && s[|s| - 1].date == d
    requires forall j :: 0 <= j < |s| ==> s[j].date <= d
    ensures forall i :: 0 <= i < |rows| ==> rows[i].date <= d
    ensures exists i :: 0 <= i < |rows| && rows[i].date == d
  {
    DatesBoundedByPermutation(rows, s, d);
    DateOfPermutation(rows, s, |s| - 1);
  }

  /** Every date of a permutation is a date of the original rows. */
  lemma DateOfPermutation(rows: seq<PriceRow>, s: seq<PriceRow>, k: nat)
    requires multiset(s) == multiset(rows) && k < |s|
    ensures exists i :: 0 <= i < |rows| && rows[i].date == s[k].date
  {
    assert s[k] in multiset(rows);
    assert s[k] in rows;
    var i :| 0 <= i < |rows| && rows[i] == s[k];
  }

  /** A bound on the dates of a permutation bounds the original dates. */
  lemma DatesBoundedByPermutation(rows: seq<PriceRow>, s: seq<PriceRow>, d: int)
    requires multiset(s) == multiset(rows)
    requires forall j :: 0 <= j < |s| ==> s[j].date <= d
    ensures forall i :: 0 <= i < |rows| ==> rows[i].date <= d
  {
    forall i | 0 <= i < |rows|
      ensures rows[i].date <= d
    {
      assert rows[i] in multiset(s);
      var j :| 0 <= j < |s| && s[j] == rows[i];
    }
  }

  /** One output row of the analyzer. */
  datatype VolumeResult = VolumeResult(ticker: string, name: string, record: VolumeRecord)

  function TickerOf(r: PriceRow): string { r.ticker }
  function ResultTicker(v: VolumeResult): string { v.ticker }

  /** The rows of one ticker, in file order. */
  function TickerRows(rows: seq<PriceRow>, t: string): (r: seq<PriceRow>)
    ensures forall i :: 0 <= i < |r| ==> r[i].ticker == t
    ensures forall x :: x in rows && x.ticker == t ==> x in r
  {
    Filter(rows, (x: PriceRow) => x.ticker == t)
  }

  /** The result row for ticker `t`: none when it has fewer than 30 rows,
      otherwise its analysis, named after its last row in file order. */
  function ResultFor(rows: seq<PriceRow>, t: string): (r: Option<VolumeResult>)
    ensures r.None? <==> |TickerRows(rows, t)| < MinRows
    ensures r.Some? ==> r.value.ticker == t && 10 <= r.value.record.score <= 95
  {
    var tr := TickerRows(rows, t);
    match AnalyzeSupplyDemand(tr)
    case None => None
    case Some(a) => Some(VolumeResult(t, tr[|tr| - 1].name, a))
  }

  /** The analyzer's loop over the distinct tickers in order of first
      appearance: tickers with fewer than 30 rows are skipped, every other
      ticker gets exactly one result, its analysis. */
  method RunVolume(rows: seq<PriceRow>) returns (out: seq<VolumeResult>)
    ensures KeysDistinct(out, ResultTicker)
    ensures forall k :: 0 <= k < |out| ==> ResultFor(rows, out[k].ticker) == Some(out[k])
    ensures forall i :: 0 <= i < |rows| && ResultFor(rows, rows[i].ticker).Some? ==>
              HasKey(out, ResultTicker, rows[i].ticker)
  {
    var pairs, _ := CollectDistinct(rows, TickerOf, t => ResultFor(rows, t));
    ResultsKeepKeys(pairs, ResultTicker);
    out := Results(pairs);
  }
}

=== FILE: web_routes.dfy ===
/** The computations behind the dashboard's API routes (web/routes.py):
    support and resistance levels and the Bollinger-band signal of the
    technical-indicator route, the price change since recommendation of the
    smart-money route, and the list of stored analysis dates. */
module WebRoutes {
  import opened Common
  import opened Sorting

  // ---------------------------------------------------------------- support and resistance

  /** Window of recent bars scanned for levels. */
  const RecentPeriod := 20

  /** pandas' `tail(n)`: the last `n` items, or all of them. */
  function Tail<T>(xs: seq<T>, n: nat): (r: seq<T>)
    ensures |r| == Min(n, |xs|) && r == xs[|xs| - |r|..]
  {
    if |xs| <= n then xs else xs[|xs| - n..]
  }

  /** Index `i` is an interior strict local maximum of `xs`. */
  predicate PeakAt(xs: seq<real>, i: int)
  {
    1 <= i < |xs| - 1 && xs[i] > xs[i - 1] && xs[i] > xs[i + 1]
  }

  /** Index `i` is an interior strict local minimum of `xs`. */
  predicate TroughAt(xs: seq<real>, i: int)
  {
    1 <= i < |xs| - 1 && xs[i] < xs[i - 1] && xs[i] < xs[i + 1]
  }

  /** The values at the peaks of `xs` from index `i` on, in order. */
  function PeaksFrom(xs: seq<real>, i: nat): (r: seq<real>)
    decreases |xs| - i
    ensures forall v :: v in r <==> exists k :: i <= k && PeakAt(xs, k) && xs[k] == v
  {
    if i + 1 >= |xs| then []
    else (if PeakAt(xs, i) then [xs[i]] else []) + PeaksFrom(xs, i + 1)
  }

  /** The values at the troughs of `xs` from index `i` on, in order. */
  function TroughsFrom(xs: seq<real>, i: nat): (r: seq<real>)
    decreases |xs| - i
    ensures forall v :: v in r <==> exists k :: i <= k && TroughAt(xs, k) && xs[k] == v
  {
    if i + 1 >= |xs| then []
    else (if TroughAt(xs, i) then [xs[i]] else []) + TroughsFrom(xs, i + 1)
  }

  function Up(x: real): real { x }

  function Down(x: real): real { -x }

  /** The resistance candidates: the highs at the peaks of the last 20 bars. */
  function PeakHighs(highs: seq<real>): (r: seq<real>)
    ensures forall v :: v in r <==> exists k :: PeakAt(Tail(highs, RecentPeriod), k) && Tail(highs, RecentPeriod)[k] == v
  {
    PeaksFrom(Tail(highs, RecentPeriod), 0)
  }

  /** The support candidates: the lows at the troughs of the last 20 bars. */
  function TroughLows(lows: seq<real>): (r: seq<real>)
    ensures forall v :: v in r <==> exists k :: TroughAt(Tail(lows, RecentPeriod), k) && Tail(lows, RecentPeriod)[k] == v
  {
    TroughsFrom(Tail(lows, RecentPeriod), 0)
  }

  /** The first three of the distinct candidates ordered by `key`, and the
      last of them (the one with the smallest key). */
  method TopThree(cands: seq<real>, key: real -> real) returns (kept: seq<real>, nearest: Option<real>)
    requires forall x, y :: key(x) == key(y) ==> x == y
    ensures |kept| <= 3
    ensures forall k, l :: 0 <= k < l < |kept| ==> key(kept[k]) > key(kept[l])
    ensures forall v :: v in kept ==> v in cands
    ensures forall v :: v in cands && v !in kept ==>
              |kept| == 3 && forall l :: 0 <= l < 3 ==> key(v) < key(kept[l])
    ensures nearest.None? <==> kept == []
    ensures nearest.Some? ==>
              nearest.value in kept && forall v :: v in kept ==> key(nearest.value) <= key(v)
  {
    var all := DistinctSorted(cands, key);
    kept := Head(all, 3);
    KeptTop(all, key);
    nearest := if kept == [] then None else Some(kept[|kept| - 1]);
    forall v | v in kept ensures v in cands {
      var k :| 0 <= k < |kept| && kept[k] == v;
      assert all[k] == v;
    }
    if kept != [] {
      forall v | v in kept ensures key(kept[|kept| - 1]) <= key(v) {
        var k :| 0 <= k < |kept| && kept[k] == v;
      }
    }
  }

  datatype Levels = Levels(resistance: seq<real>, support: seq<real>,
                           nearestResistance: Option<real>, nearestSupport: Option<real>)

  /** Support and resistance over the last 20 bars: the three highest
      distinct peak highs (highest first) and the three lowest distinct
      trough lows (lowest first); the nearest resistance is the lowest kept
      peak and the nearest support the highest kept trough. */
  method SupportResistance(highs: seq<real>, lows: seq<real>) returns (lv: Levels)
    ensures |lv.resistance| <= 3 && |lv.support| <= 3
    ensures forall k, l :: 0 <= k < l < |lv.resistance| ==> lv.resistance[k] > lv.resistance[l]
    ensures forall k, l :: 0 <= k < l < |lv.support| ==> lv.support[k] < lv.support[l]
    ensures forall v :: v in lv.resistance ==> v in PeakHighs(highs)
    ensures forall v :: v in lv.support ==> v in TroughLows(lows)
    ensures forall v :: v in PeakHighs(highs) && v !in lv.resistance ==>
              |lv.resistance| == 3 && forall l :: 0 <= l < 3 ==> v < lv.resistance[l]
    ensures forall v :: v in TroughLows(lows) && v !in lv.support ==>
              |lv.support| == 3 && forall l :: 0 <= l < 3 ==> v > lv.support[l]
    ensures lv.nearestResistance.None? <==> lv.resistance == []
    ensures lv.nearestSupport.None? <==> lv.support == []
    ensures lv.nearestResistance.Some? ==>
              lv.nearestResistance.value in lv.resistance
              && forall v :: v in lv.resistance ==> lv.nearestResistance.value <= v
    ensures lv.nearestSupport.Some? ==>
              lv.nearestSupport.value in lv.support
              && forall v :: v in lv.support ==> lv.nearestSupport.value >= v
  {
    KeysInjective();
    var res, nr := TopThree(PeakHighs(highs), Up);
    var sup, ns := TopThree(TroughLows(lows), Down);
    lv := Levels(res, sup, nr, ns);
  }

  /** The first three items of a duplicate-free sequence sorted by `key`
      are strictly ordered, and every item left out has a smaller key than
      all three. */
  lemma KeptTop(all: seq<real>, key: real -> real)
    requires SortedDesc(all, key)
    requires forall k, l :: 0 <= k < l < |all| ==> all[k] != all[l]
    requires forall x, y :: key(x) == key(y) ==> x == y
    ensures forall k, l :: 0 <= k < l < |Head(all, 3)| ==> key(Head(all, 3)[k]) > key(Head(all, 3)[l])
    ensures forall v :: v in all && v !in Head(all, 3) ==>
              |Head(all, 3)| == 3 && forall l :: 0 <= l < 3 ==> key(v) < key(Head(all, 3)[l])
  {
    var kept := Head(all, 3);
    forall v | v in all && v !in kept
      ensures |kept| == 3 && forall l :: 0 <= l < 3 ==> key(v) < key(kept[l])
    {
      var j :| 0 <= j < |all| && all[j] == v;
      assert j >= |kept|;
    }
  }

  /** `Up` and `Down` are one-to-one. */
  lemma KeysInjective()
    ensures forall x, y :: Up(x) == Up(y) ==> x == y
    ensures forall x, y :: Down(x) == Down(y) ==> x == y
  {
  }

  // ---------------------------------------------------------------- Bollinger bands

  datatype BandSignal = Overbought | Oversold | NeutralBand

  /** Where the price sits between the bands: 0 at the lower band, 1 at the
      upper; 0.5 when the bands coincide. */
  function BandPosition(price: real, upper: real, lower: real): (p: real)
    ensures upper == lower ==> p == 0.5
    ensures upper != lower ==> p * (upper - lower) == price - lower
  {
    if upper != lower then (price - lower) / (upper - lower) else 0.5
  }

  /** Overbought above 0.8, oversold below 0.2, neutral in between. */
  function SignalOf(position: real): (s: BandSignal)
    ensures s == Overbought <==> position > 0.8
    ensures s == Oversold <==> position < 0.2
    ensures s == NeutralBand <==> 0.2 <= position <= 0.8
  {
    if position > 0.8 then Overbought else if position < 0.2 then Oversold else NeutralBand
  }

  datatype Bollinger = Bollinger(upper: real, middle: real, lower: real, position: real, signal: BandSignal)

  /** The 20-day bands two standard deviations around the moving average,
      given the average and standard deviation of the last 20 closes. */
  function Bands(price: real, sma: real, std: real): (b: Bollinger)
    ensures b.upper == sma + 2.0 * std && b.lower == sma - 2.0 * std && b.middle == sma
    ensures b.signal == SignalOf(b.position)
    ensures std == 0.0 ==> b.position == 0.5 && b.signal == NeutralBand
  {
    var upper := sma + std * 2.0;
    var lower := sma - std * 2.0;
    var pos := BandPosition(price, upper, lower);
    Bollinger(upper, sma, lower, pos, SignalOf(pos))
  }

  /** With a positive deviation the signal is overbought exactly when the
      price is more than 1.2 deviations above the average, and oversold
      exactly when it is more than 1.2 deviations below. */
  lemma SignalThresholds(price: real, sma: real, std: real)
    requires std > 0.0
    ensures Bands(price, sma, std).signal == Overbought <==> price > sma + 1.2 * std
    ensures Bands(price, sma, std).signal == Oversold <==> price < sma - 1.2 * std
  {
    var width := 4.0 * std;
    var pos := Bands(price, sma, std).position;
    assert pos * width == price - (sma - 2.0 * std);
    ScaledCompare(pos, 0.8, width);
    ScaledCompare(pos, 0.2, width);
  }

  lemma ScaledCompare(p: real, c: real, w: real)
    requires w > 0.0
    ensures p > c <==> p * w > c * w
    ensures p < c <==> p * w < c * w
  {
    assert p * w - c * w == (p - c) * w;
    if p > c { PositiveProduct(p - c, w); }
    if p < c { PositiveProduct(c - p, w); }
    if p == c { }
  }

  lemma PositiveProduct(a: real, b: real)
    requires a > 0.0 && b > 0.0
    ensures a * b > 0.0
  {
  }

  // ---------------------------------------------------------------- smart-money picks

  /** A stored pick: `None` is an absent field. */
  datatype StoredPick = StoredPick(ticker: string, currentPrice: Option<real>, priceAtRec: Option<real>,
                                   finalScore: Option<real>, compositeScore: Option<real>)

  /** A quote: `currentPrice` and `regularMarketPrice`; `None` is absent. */
  datatype Quote = Quote(current: Option<real>, regular: Option<real>)

  /** Live prices of the first ten tickers, fetched in order; a failed fetch
      (`None`) ends the loop with the prices gathered so far. */
  function LivePrices(tickers: seq<string>, quote: string -> Option<Quote>): (m: map<string, real>)
  {
    LiveLoop(Head(tickers, 10), quote, map[])
  }

  function LiveLoop(ts: seq<string>, quote: string -> Option<Quote>, acc: map<string, real>): (m: map<string, real>)
    ensures forall t :: t in m ==> t in acc || t in ts
    ensures forall t :: t in acc ==> t in m
  {
    if ts == [] then acc
    else
      match quote(ts[0])
      case None => acc
      case Some(q) => LiveLoop(ts[1..], quote, acc[ts[0] := OrElse(q.current, OrElse(q.regular, 0.0))])
  }

  /** Only the first ten tickers are ever priced live. */
  lemma LivePricesFirstTen(tickers: seq<string>, quote: string -> Option<Quote>)
    ensures forall t :: t in LivePrices(tickers, quote) ==> t in Head(tickers, 10)
  {
  }

  datatype PickView = PickView(ticker: string, currentPrice: real, changeSinceRec: real, sector: string)

  /** The recommendation price: the stored current price, else the price at
      recommendation, else 0 (absent and zero both fall through). */
  function RecPrice(p: StoredPick): real
  {
    OrElse(p.currentPrice, OrElse(p.priceAtRec, 0.0))
  }

  /** A pick with its live price and the percent change since the
      recommendation; the change is 0 when the recommendation price is not
      positive, and the live price falls back to the recommendation price
      when absent or zero. */
  function UpdatePick(p: StoredPick, live: map<string, real>, sector: string -> string): (v: PickView)
    ensures v.ticker == p.ticker && v.sector == sector(p.ticker)
    ensures RecPrice(p) <= 0.0 ==> v.changeSinceRec == 0.0
    ensures RecPrice(p) > 0.0 ==> (v.changeSinceRec > 0.0 <==> v.currentPrice > RecPrice(p))
    ensures p.ticker !in live || live[p.ticker] == 0.0 ==> v.currentPrice == RecPrice(p) && v.changeSinceRec == 0.0
    ensures p.ticker in live && live[p.ticker] != 0.0 ==> v.currentPrice == live[p.ticker]
    ensures v.changeSinceRec == PercentChange(v.currentPrice, RecPrice(p))
  {
    var rec := RecPrice(p);
    var cur := if p.ticker in live && live[p.ticker] != 0.0 then live[p.ticker] else rec;
    PickView(p.ticker, cur, PercentChange(cur, rec), sector(p.ticker))
  }

  /** Where the picks come from: the current JSON file, else the CSV (its
      first 20 rows), else nothing. */
  datatype PicksSource = CurrentFile(picks: seq<StoredPick>) | PicksCsv(rows: seq<StoredPick>) | NoPicks

  datatype SmartMoney = SmartMoney(picks: seq<PickView>, totalAnalyzed: nat, avgScore: real) | NotFound

  /** The score averaged in the summary: the final score, else the
      composite score, else 0 (a present value is used even when zero). */
  function PickScore(p: StoredPick): real
  {
    GetOr(p.finalScore, GetOr(p.compositeScore, 0.0))
  }

  function PickScores(ps: seq<StoredPick>): (s: seq<real>)
    ensures |s| == |ps| && forall i :: 0 <= i < |ps| ==> s[i] == PickScore(ps[i])
  {
    seq(|ps|, i requires 0 <= i < |ps| => PickScore(ps[i]))
  }

  function ViewStep(live: map<string, real>, sector: string -> string): StoredPick -> PickView
  {
    p => UpdatePick(p, live, sector)
  }

  /** The picks read: every pick of the current file, or the first 20 rows
      of the CSV. */
  function PicksOf(src: PicksSource): seq<StoredPick>
    requires !src.NoPicks?
  {
    if src.CurrentFile? then src.picks else Head(src.rows, 20)
  }

  /** `get_us_smart_money`: not found when neither file exists; otherwise
      every pick updated with its live price, the count, and the mean score
      rounded to one decimal (0 for no picks). */
  function SmartMoneyPicks(src: PicksSource, quote: string -> Option<Quote>, sector: string -> string): (r: SmartMoney)
    ensures r.NotFound? <==> src.NoPicks?
    ensures src.CurrentFile? ==> r.totalAnalyzed == |src.picks|
    ensures src.PicksCsv? ==> r.totalAnalyzed == Min(20, |src.rows|)
    ensures r.SmartMoney? ==> |r.picks| == r.totalAnalyzed && (r.totalAnalyzed == 0 ==> r.avgScore == 0.0)
    ensures r.SmartMoney? ==>
              var picks := PicksOf(src);
              forall i :: 0 <= i < |picks| ==> r.picks[i] == UpdatePick(picks[i], LivePrices(Tickers(picks), quote), sector)
    ensures r.SmartMoney? && r.totalAnalyzed > 0 ==> r.avgScore == Round1(MeanReal(PickScores(PicksOf(src))))
  {
    if src.NoPicks? then NotFound
    else
      var picks := PicksOf(src);
      var live := LivePrices(Tickers(picks), quote);
      var views := MapSeq(picks, ViewStep(live, sector));
      var avg := if picks == [] then 0.0 else Round1(MeanReal(PickScores(picks)));
      SmartMoney(views, |picks|, avg)
  }

  function Tickers(ps: seq<StoredPick>): (ts: seq<string>)
    ensures |ts| == |ps| && forall i :: 0 <= i < |ps| ==> ts[i] == ps[i].ticker
  {
    seq(|ps|, i requires 0 <= i < |ps| => ps[i].ticker)
  }

  // ---------------------------------------------------------------- history dates

  /** Python's string order: code point by code point, a proper prefix first. */
  predicate LexLess(a: string, b: string)
  {
    if a == [] then b != []
    else if b == [] then false
    else a[0] < b[0] || (a[0] == b[0] && LexLess(a[1..], b[1..]))
  }

  lemma {:induction false} LexIrreflexive(a: string)
    ensures !LexLess(a, a)
  {
    if a != [] {
      LexIrreflexive(a[1..]);
    }
  }

  lemma {:induction false} LexTransitive(a: string, b: string, c: string)
    requires LexLess(a, b) && LexLess(b, c)
    ensures LexLess(a, c)
  {
    if a != [] && b != [] && c != [] && a[0] == b[0] && b[0] == c[0] {
      LexTransitive(a[1..], b[1..], c[1..]);
    }
  }

  lemma {:induction false} LexTotal(a: string, b: string)
    requires a != b
    ensures LexLess(a, b) || LexLess(b, a)
  {
    if a != [] && b != [] && a[0] == b[0] {
      assert a == [a[0]] + a[1..] && b == [b[0]] + b[1..];
      LexTotal(a[1..], b[1..]);
    }
  }

  /** Strictly descending in string order (hence duplicate free). */
  predicate StrictlyDescending(r: seq<string>)
  {
    forall k, l :: 0 <= k < l < |r| ==> LexLess(r[l], r[k])
  }

  /** Insert `x` into a strictly descending sequence unless already there. */
  function InsertDistinct(x: string, s: seq<string>): (r: seq<string>)
    requires StrictlyDescending(s)
    ensures StrictlyDescending(r)
    ensures forall y :: y in r <==> y == x || y in s
  {
    if s == [] then [x]
    else if x == s[0] then s
    else if LexLess(s[0], x) then
      forall l | 0 <= l < |s| ensures LexLess(s[l], x) {
        if l > 0 { LexTransitive(s[l], s[0], x); }
      }
      [x] + s
    else
      LexTotal(x, s[0]);
      var rest := InsertDistinct(x, s[1..]);
      forall l | 0 <= l < |rest| ensures LexLess(rest[l], s[0]) {
        assert rest[l] in rest;
      }
      [s[0]] + rest
  }

  /** `sorted(set(xs), reverse=True)`. */
  function SortedSetDesc(xs: seq<string>): (r: seq<string>)
    ensures StrictlyDescending(r)
    ensures forall y :: y in r <==> y in xs
  {
    if xs == [] then [] else InsertDistinct(xs[0], SortedSetDesc(xs[1..]))
  }

  /** Python's `s.replace(p, "")` for a non-empty `p`: every occurrence,
      scanned left to right, is removed. */
  function RemoveAll(s: string, p: string): (r: string)
    requires p != []
    ensures |r| <= |s|
    decreases |s|
  {
    if |s| < |p| then s
    else if s[..|p|] == p then RemoveAll(s[|p|..], p)
    else [s[0]] + RemoveAll(s[1..], p)
  }

  /** Everything before the first `'T'`. */
  function BeforeT(s: string): (r: string)
    ensures |r| <= |s| && r == s[..|r|] && 'T' !in r
    ensures |r| < |s| ==> s[|r|] == 'T'
  {
    if s == [] || s[0] == 'T' then []
    else
      var rest := BeforeT(s[1..]);
      assert [s[0]] + rest == s[..|rest| + 1];
      [s[0]] + rest
  }

  /** What the current analysis file offers: a `date`, else an `updated`
      time stamp. */
  datatype CurrentMeta = NoCurrentFile | Meta(date: Option<string>, updated: Option<string>)

  /** The date of a stored snapshot file name, when it parses as a date. */
  function FileDate(name: string, isDate: string -> bool): Option<string>
  {
    var d := RemoveAll(RemoveAll(name, "smart_money_current_"), ".json");
    if isDate(d) then Some(d) else None
  }

  function FileDateStep(isDate: string -> bool): string -> Option<string>
  {
    name => FileDate(name, isDate)
  }

  /** The date of the current file: its `date`, else the part of its
      `updated` stamp before `'T'` when it has one. */
  function MetaDate(m: CurrentMeta): (d: seq<string>)
    ensures |d| <= 1
  {
    match m
    case NoCurrentFile => []
    case Meta(date, updated) =>
      if date.Some? then [date.value]
      else if updated.Some? && 'T' in updated.value then [BeforeT(updated.value)]
      else []
  }

  datatype HistoryDates = HistoryDates(dates: seq<string>, count: nat)

  /** `get_us_history_dates`: the dates of the snapshot files whose name
      parses as a date, plus the current file's date, without duplicates,
      newest first in string order, with their count. `isDate` stands for
      the `%Y-%m-%d` parse. */
  function HistoryDateList(files: seq<string>, meta: CurrentMeta, isDate: string -> bool): (h: HistoryDates)
    ensures h.count == |h.dates|
    ensures StrictlyDescending(h.dates)
    ensures forall d :: d in h.dates <==> (d in MetaDate(meta) || exists f :: f in files && FileDate(f, isDate) == Some(d))
  {
    var fromFiles := FilterMap(files, FileDateStep(isDate));
    var all := fromFiles + MetaDate(meta);
    var dates := SortedSetDesc(all);
    forall d | d in fromFiles ensures exists f :: f in files && FileDate(f, isDate) == Some(d) {
      var k :| 0 <= k < |fromFiles| && fromFiles[k] == d;
      var i :| 0 <= i < |files| && FileDateStep(isDate)(files[i]) == Some(fromFiles[k]);
      assert files[i] in files;
    }
    forall f | f in files && FileDate(f, isDate).Some? ensures FileDate(f, isDate).value in fromFiles {
      FilterMapComplete(files, FileDateStep(isDate), f);
    }
    HistoryDates(dates, |dates|)
  }

  /** Every defined image of an input item appears in `FilterMap`'s output. */
  lemma {:induction false} FilterMapComplete<T, R>(xs: seq<T>, f: T -> Option<R>, x: T)
    requires x in xs && f(x).Some?
    ensures f(x).value in FilterMap(xs, f)
  {
    if xs[0] != x {
      FilterMapComplete(xs[1..], f, x);
    }
  }
}
